=== FILE: README.md ===
# Canopy core, modelled in Dafny

Canopy is a workplace portal. Its job-insight branch collects job listings from two sources:
- the JSearch API;
- scraped Indeed result pages.

Every listing is normalized to one shape. Skill keywords are extracted from its description, and the collected set is summarized:
- the skills, locations and companies that occur most often;
- the listings counted per 10 000-wide salary bucket.

Calls to the JSearch API pass through a request limiter that works in fixed time windows. The Progenix agent asks a language model for project ideas. It accepts the answer only if the answer passes a structural check, and otherwise falls back to a fixed catalog or to generic templates.

In the browser:
- the Canopy branch directory and the agent directory offer filtering, search, suggestions and export;
- the Core registration page checks its form and then posts it to the server.

The server side of registration:
- validates the request;
- issues a department-coded user id such as `TEC-007` and a random twelve-character password;
- lets the user log in with the two.

The model keeps each component's logic as pure functions over immutable data:

| file | models |
|---|---|
| `wrappers.dfy`, `text.dfy`, `collections.dfy` | `Option`/`Result`, and the string and sequence operations the code uses: `trim`, ASCII `toLowerCase`, `includes`, `split`, `join`, `padStart`, decimal digits, filtering, de-duplication, counters and stable sorting |
| `listings.dfy` | `BaseScraper.normalizeJob` and `extractSkills`: the four keyword patterns, with ASCII word boundaries, case-insensitive, leftmost alternative first, global scan |
| `jsearch.dfy`, `indeed.dfy` | the two adapters: key check, page loop, field mapping, salary text, card filter, page URLs |
| `rate_limiter.dfy` | the limiter state `{windowStart, requestCount, retryCount}` of `fetchApi`, as a transition function of the time `now` |
| `analysis.dfy`, `scraper_manager.dfy` | `scrapeJobs` (merge and failure isolation) and `analyzeResults` (counting, salary buckets, top-10 rankings) |
| `progenix_gate.dfy`, `progenix.dfy` | fence stripping and the response check of `parseGPTResponse`, `prepareJobSummary`, the fallback catalog and the catch-to-fallback of `generateProjectIdeas` |
| `canopy_search.dfy`, `agent_search.dfy` | the pure parts of the two directory searches |
| `accounts.dfy`, `auth_validation.dfy`, `register_form.dfy` | `generateUserId`, `generatePassword`, `register`, `login`; the two Joi schemas and their middleware; the registration page's submit handler |

Outside effects become parameters:
- The limiter's clock is `now`. The time a listing is stamped with (`new Date()` in `normalizeJob`) comes from a `Clock`: each adapter has its own, and `clock(p)(k)` is the reading when the `k`-th listing of page `p` is normalized.
- Random draws are a sequence `draws` of indices into the alphabet.
- Every HTTP exchange is an oracle function: `respond`, `fetch`, the model's `complete`.
- `JSON.parse` is a `parse` oracle returning `Option<Json>`.
- The user store is the sequence of stored users.
- `encodeURIComponent` is an `encode` parameter.
- The email test is an `isEmail` parameter.

## Model

| member | source | states |
|---|---|---|
| Text.Trim | branches/canopy/backend/scrapers/baseScraper.js:163-170 | the result is the input with white space cut from both ends and nothing else: a slice whose cut-off ends are all white space, and itself trimmed |
| Listings.TrimOrEmpty | branches/canopy/backend/scrapers/baseScraper.js:163-170 | a missing field becomes the empty string and a present one its trim; an already trimmed value is kept as it is |
| Listings.MatchAt | branches/canopy/backend/scrapers/baseScraper.js:178-183 | the alternative reported at a position is one of the group's keywords occurring there between word boundaries; none is reported only when no keyword of the group occurs there |
| Listings.ScanFrom | branches/canopy/backend/scrapers/baseScraper.js:187-192 | a global scan with one pattern reports only keywords of that group, all lower-case |
| Listings.ScanFoundInText | branches/canopy/backend/scrapers/baseScraper.js:187-192 | every keyword a scan reports occurs in the lower-cased text |
| Listings.SkillTableWellFormed | branches/canopy/backend/scrapers/baseScraper.js:178-183 | there are four pattern groups, and no alternative is empty |
| Listings.AllMatches | branches/canopy/backend/scrapers/baseScraper.js:185-192 | every match of the four patterns is a lower-case keyword of one of the groups |
| Listings.ExtractSkills | branches/canopy/backend/scrapers/baseScraper.js:175-195 | the extracted skills have no duplicates, are lower-case, and are keywords of the four groups; an empty description gives no skills |
| Listings.ExtractedSkillsOccur | branches/canopy/backend/scrapers/baseScraper.js:175-195 | every extracted skill occurs in the description, ignoring case |
| Listings.GivenSkills | branches/canopy/backend/scrapers/baseScraper.js:156-160 | an array is kept as it is; a string gives its comma-separated pieces, at least one, each trimmed; anything else gives no skills |
| Listings.NormalizeJob | branches/canopy/backend/scrapers/baseScraper.js:153-173 | `null` stays `null`. Otherwise title, company, location, description, salary and url are each the field trimmed, or empty when missing; the source is the record's own when truthy, else the adapter's name; the timestamp is the clock reading of the call. Skills come from the description when it is non-empty, otherwise from the given skills |
| Listings.NormalizedSkillsFromDescription | branches/canopy/backend/scrapers/baseScraper.js:168 | skills taken from a description are lower-case and free of duplicates |
| Listings.NormalizeIdempotent | branches/canopy/backend/scrapers/baseScraper.js:153-173 | normalizing a normalized listing again changes only its timestamp |
| JSearch.Construct | branches/canopy/backend/scrapers/jsearchScraper.js:4-47 | the adapter is configured exactly when a key is present and well formed, and then it holds that key; otherwise it is the placeholder without `search` |
| JSearch.PageRequest | branches/canopy/backend/scrapers/jsearchScraper.js:53-57 | a page request goes to the search endpoint with the key, the page number and one page, and its query is `<query> in <location>` |
| JSearch.Or | branches/canopy/backend/scrapers/jsearchScraper.js:65-68 | `a \|\| b`: a truthy `a`, otherwise `b` |
| JSearch.SalaryText | branches/canopy/backend/scrapers/jsearchScraper.js:69-70 | the salary text is empty exactly when there is no truthy minimum; otherwise it is `min-max currency`, with a missing maximum or currency left empty |
| JSearch.SalaryTextLeadsWithMinimum | branches/canopy/backend/scrapers/jsearchScraper.js:69-70 | a salary text with a minimum starts with that minimum and a hyphen |
| JSearch.Normalize | branches/canopy/backend/scrapers/jsearchScraper.js:64-73 | a mapped listing carries the adapter's name and the clock reading it was built at, and its skills are those extracted from its description |
| JSearch.NormalizeFields | branches/canopy/backend/scrapers/jsearchScraper.js:64-73 | title, company, description and url are the record's title, employer, description and apply link; the location is the city, else the country, else the searched location; the salary is the salary text; each trimmed, and empty when missing |
| JSearch.NormalizeAll | branches/canopy/backend/scrapers/jsearchScraper.js:64-73 | one normalized listing per API record, in order, the `k`-th built at the page's `k`-th clock reading |
| JSearch.PageJobs | branches/canopy/backend/scrapers/jsearchScraper.js:60-81 | a failed call or a body without a `data` array adds nothing; every listing a page adds has a title and a description, this adapter's name and one of the page's clock readings |
| JSearch.PageJobsMembers | branches/canopy/backend/scrapers/jsearchScraper.js:62-76 | a page holds exactly the normalized records that have a non-empty title and description |
| JSearch.PageJobsInRecordOrder | branches/canopy/backend/scrapers/jsearchScraper.js:62-76 | a page keeps its kept listings in record order: they are a subsequence of the normalized records that holds each kept one as often as it occurs there, and nothing else |
| JSearch.Search | branches/canopy/backend/scrapers/jsearchScraper.js:49-86 | no pages requested gives no listings; the listings of `n` pages are those of the first `n - 1` pages followed by page `n`'s, so pages come in request order |
| JSearch.SearchCollectsPages | branches/canopy/backend/scrapers/jsearchScraper.js:52-85 | a listing is in the result exactly when one of pages 1..`pages` contributed it, so a failing page drops only its own listings |
| JSearch.SearchResultsKeptAndStamped | branches/canopy/backend/scrapers/jsearchScraper.js:64-76 | every listing returned has a title and a description and the adapter's name, and is stamped with a clock reading taken while one of the requested pages was read |
| JSearch.AllPagesFailing | branches/canopy/backend/scrapers/jsearchScraper.js:79-85 | when every call fails, the search returns no listings instead of failing |
| JSearch.NormalizedSalary | branches/canopy/backend/scrapers/jsearchScraper.js:69-72 | the listing's salary is the salary text, trimmed |
| JSearch.NormalizedSalaryLeadsWithMinimum | branches/canopy/backend/scrapers/jsearchScraper.js:69-72 | a listing with a minimum salary has a salary that starts with that minimum and a hyphen |
| Indeed.PageUrl | branches/canopy/backend/scrapers/indeedScraper.js:24 | a page URL is the site's search URL with the encoded query in the `q` slot, the encoded location in the `l` slot, and the offset `start` of ten per page |
| Indeed.PageUrlInjective | branches/canopy/backend/scrapers/indeedScraper.js:23-24 | different pages are fetched from different URLs |
| Indeed.CardUrl | branches/canopy/backend/scrapers/indeedScraper.js:35 | a listing URL is the site's base URL followed by the card's link, or by `undefined` when the card has none |
| Indeed.CardJobUrl | branches/canopy/backend/scrapers/indeedScraper.js:35 | a listing built from a card carries that URL, unchanged by trimming when the link does not end in white space |
| Indeed.CardJob | branches/canopy/backend/scrapers/indeedScraper.js:29-36 | a card becomes a listing of the trimmed card texts and URL, named after this adapter and stamped with the given reading; skills come from the description |
| Indeed.CardJobListed | branches/canopy/backend/scrapers/indeedScraper.js:34-40 | a kept card gives a listing with a title, a description and a URL on the site |
| Indeed.PageJobs | branches/canopy/backend/scrapers/indeedScraper.js:27-41 | a loaded page gives one listing per kept card, each with a title, a description and a URL on the site, the `k`-th stamped with the page's `k`-th clock reading |
| Indeed.PageJobsInCardOrder | branches/canopy/backend/scrapers/indeedScraper.js:27-41 | the `k`-th listing of a page is built from its `k`-th kept card |
| Indeed.ScrapePagesStep | branches/canopy/backend/scrapers/indeedScraper.js:23-45 | a successful scrape of `n` pages loaded page `n - 1` and is the scrape of the first `n - 1` pages followed by that page's listings: pages come in request order |
| Indeed.ScrapeSucceedsIffAllLoad | branches/canopy/backend/scrapers/indeedScraper.js:19-46 | the scrape succeeds exactly when every page loads, and then every listing is complete, on the site, and stamped with a clock reading taken while one of the pages was read |
| Indeed.ScrapeErrorNamesFirstFailure | branches/canopy/backend/scrapers/indeedScraper.js:25 | a failed scrape reports the first page that did not load and its reason, with no per-page isolation |
| RateLimiter.Refresh | branches/canopy/backend/scrapers/baseScraper.js:55-59 | after the step the window is at most `windowMs` old. A new window at `now` with cleared counters is opened only when the old one has expired; otherwise nothing changes |
| RateLimiter.RefreshIdempotent | branches/canopy/backend/scrapers/baseScraper.js:55-59 | refreshing twice at the same time is refreshing once |
| RateLimiter.Admit | branches/canopy/backend/scrapers/baseScraper.js:52-68 | a call proceeds exactly when the window has room. It is refused with "Rate limit exceeded after multiple retries" exactly when the window is full and the retries are used up. Otherwise it waits until 1000 ms after the current window ends, at most `windowMs` + 1000 ms, and counts one more retry |
| RateLimiter.ElapsedWindowProceeds | branches/canopy/backend/scrapers/baseScraper.js:55-59 | a call more than a window after the window opened goes out at once, in a fresh window |
| RateLimiter.AdmitKeepsValid | branches/canopy/backend/scrapers/baseScraper.js:61-68 | admission never records more than `maxRetries` retries |
| RateLimiter.AsWrittenNeverRetries | branches/canopy/backend/scrapers/baseScraper.js:44 | with the status check as written, a 429 reply is delivered and the retry branch is never taken |
| RateLimiter.Settle | branches/canopy/backend/scrapers/baseScraper.js:83-97 | a delivered reply counts one request and clears the retry counter without moving the window. A 429 with budget left is retried after 1000 ms times the retry count. Every other failure propagates with the state unchanged, and the retry bound is kept |
| RateLimiter.CallsWithinBudget | branches/canopy/backend/scrapers/baseScraper.js:33-40 | inside one window, up to five calls from the starting state go out directly and count exactly that many requests |
| RateLimiter.SaturatedWindowWaits | branches/canopy/backend/scrapers/baseScraper.js:65-68 | the sixth call in the first window waits for the rest of the window plus 1000 ms |
| RateLimiter.WaitsBounded | branches/canopy/backend/scrapers/baseScraper.js:61-68 | within a saturated window the limiter waits at most `maxRetries` times in a row before refusing |
| Analysis.SortedTally | branches/canopy/backend/scrapers/scraperManager.js:108-111 | the sorted counter is a permutation of the counter, has one entry per distinct value, and does not increase in count |
| Analysis.SortedTallyTiesInFirstSeenOrder | branches/canopy/backend/scrapers/scraperManager.js:108-111 | values of equal count stay in the order they were first seen, as the stable sort leaves them |
| Analysis.TopOfRanks | branches/canopy/backend/scrapers/scraperManager.js:108-111 | a ranking has min(10, number of distinct values) entries, distinct keys and exact counts, most frequent first, and values of equal count in first-seen order |
| Analysis.TopOfComplete | branches/canopy/backend/scrapers/scraperManager.js:108-111 | a value left out of a ranking means the ranking is full and no ranked value is less frequent |
| Analysis.TopOfIncludesFrequent | branches/canopy/backend/scrapers/scraperManager.js:108-111 | a value more frequent than the tenth entry, or any value when the ranking is not full, is ranked |
| Analysis.RunEnd | branches/canopy/backend/scrapers/scraperManager.js:83-84 | the longest run of `[\d,.]` characters starting at a position |
| Analysis.SpaceEnd | branches/canopy/backend/scrapers/scraperManager.js:83 | the longest run of white space starting at a position |
| Analysis.FirstRange | branches/canopy/backend/scrapers/scraperManager.js:83 | the leftmost position where the range pattern matches, or none when it matches nowhere |
| Analysis.FirstDigit | branches/canopy/backend/scrapers/scraperManager.js:84 | the leftmost digit, or none when there is no digit |
| Analysis.MinSalaryStart | branches/canopy/backend/scrapers/scraperManager.js:83-84 | the minimum starts at the leftmost match of the range pattern when there is one, else at the leftmost digit, and there is none exactly when the text has no digit |
| Analysis.MinSalaryText | branches/canopy/backend/scrapers/scraperManager.js:83-84 | a minimum is found exactly when the text has a digit; it starts with a digit and holds only `[\d,.]` |
| Analysis.MinSalaryTextFromStart | branches/canopy/backend/scrapers/scraperManager.js:83-84 | the minimum's text is the whole run of `[\d,.]` from where it starts |
| Analysis.KeepDigitsAndDots | branches/canopy/backend/scrapers/scraperManager.js:86 | only digits and dots remain, and a leading digit stays in front |
| Analysis.KeepDigitsAndDotsFilters | branches/canopy/backend/scrapers/scraperManager.js:86 | the removal keeps exactly the digits and dots, in order |
| Analysis.KeepDigitsAndDotsAppend | branches/canopy/backend/scrapers/scraperManager.js:86 | the removal works piece by piece on a concatenation |
| Analysis.MinimumSalary | branches/canopy/backend/scrapers/scraperManager.js:82-86 | a salary is read exactly when the text has a digit |
| Analysis.MinimumSalaryOfRun | branches/canopy/backend/scrapers/scraperManager.js:82-86 | the salary read is the whole number spelt by the digits and dots of the `[\d,.]` run that starts at the leftmost range, else at the leftmost digit, every other character dropped |
| Analysis.CommaGroupedMinimum | branches/canopy/backend/scrapers/scraperManager.js:82-86 | digits, a comma and digits are read as one number with the comma dropped |
| Analysis.SalaryBucket | branches/canopy/backend/scrapers/scraperManager.js:88-89 | the bucket is a multiple of 10 000 and holds the minimum salary |
| Analysis.ThousandsSeparatedBucket | branches/canopy/backend/scrapers/scraperManager.js:82-89 | `54,321` falls in the bucket `50000-59999` |
| Analysis.BucketLabelParses | branches/canopy/backend/scrapers/scraperManager.js:89-115 | `parseInt` of a bucket's label is the bucket's lower end |
| Analysis.BucketLabelInjective | branches/canopy/backend/scrapers/scraperManager.js:89 | different buckets have different labels |
| Analysis.BucketOfLeadingNumber | branches/canopy/backend/scrapers/scraperManager.js:83-89 | a salary that starts with a number and a hyphen, with no earlier range, falls in that number's bucket |
| Analysis.RangeSalaryBucket | branches/canopy/backend/scrapers/scraperManager.js:83-89 | `min-max…` falls in the bucket of `min` |
| Analysis.OpenRangeSalaryBucket | branches/canopy/backend/scrapers/scraperManager.js:83-89 | `min-` followed by text without digits falls in the bucket of `min` |
| Analysis.AllSkills | branches/canopy/backend/scrapers/scraperManager.js:75-79 | the skill column holds exactly the skills of the listings |
| Analysis.AllSkillsCount | branches/canopy/backend/scrapers/scraperManager.js:75-79 | with no skill listed twice on one listing, a skill occurs in the column once for each listing that carries it |
| Analysis.Locations | branches/canopy/backend/scrapers/scraperManager.js:97-100 | the location column holds exactly the non-empty locations |
| Analysis.LocationsCount | branches/canopy/backend/scrapers/scraperManager.js:97-100 | a non-empty location occurs in the column once for each listing at it |
| Analysis.Companies | branches/canopy/backend/scrapers/scraperManager.js:101-104 | the company column holds exactly the non-empty company names |
| Analysis.CompaniesCount | branches/canopy/backend/scrapers/scraperManager.js:101-104 | a non-empty company name occurs in the column once for each of its listings |
| Analysis.SalaryLabels | branches/canopy/backend/scrapers/scraperManager.js:82-91 | one bucket label per listing with a digit in its salary, each naming a multiple of 10 000 |
| Analysis.SalaryLabelsInOrder | branches/canopy/backend/scrapers/scraperManager.js:82-91 | the `k`-th label is the bucket label of the `k`-th priced listing |
| Analysis.SalaryRanges | branches/canopy/backend/scrapers/scraperManager.js:113-115 | every bucket appears once with its exact count, in bucket order, and the counts add up to the priced listings |
| Analysis.SalaryRangesAscending | branches/canopy/backend/scrapers/scraperManager.js:113-115 | the buckets come out in strictly ascending order of lower end |
| Analysis.BucketsAscend | branches/canopy/backend/scrapers/scraperManager.js:115 | distinct labels in bucket order name ascending lower ends |
| Analysis.AnalyzeResults | branches/canopy/backend/scrapers/scraperManager.js:62-128 | the jobs are returned unchanged, `totalJobs` is their number, and the insights are the three rankings and the salary ranges |
| Analysis.TopSkillsCarried | branches/canopy/backend/scrapers/scraperManager.js:75-111 | every ranked skill is carried by some listing |
| Analysis.RankedKeysOccur | branches/canopy/backend/scrapers/scraperManager.js:108-125 | every ranked value occurs in its column |
| Analysis.SalaryCountsAddUp | branches/canopy/backend/scrapers/scraperManager.js:90-115 | the bucket counts add up to the number of priced listings, which is at most `totalJobs` |
| ScraperManager.ScrapeJobs | branches/canopy/backend/scrapers/scraperManager.js:12-36 | the call fails exactly when the JSearch adapter is the unconfigured placeholder. Otherwise it warns exactly when fewer than five listings were collected, counts the listings of both adapters, and analyzes Indeed's followed by JSearch's |
| ScraperManager.IndeedFailureIsolated | branches/canopy/backend/scrapers/scraperManager.js:17-28 | a failing Indeed scrape leaves exactly the JSearch listings; otherwise Indeed's come first, then JSearch's |
| ScraperManager.ListingsFromAdapters | branches/canopy/backend/scrapers/scraperManager.js:27-28 | every listing has a title and a description, comes from one of the two adapters, and is stamped with a reading of that adapter's clock taken while one of its pages was read |
| ScraperManager.JSearchSalaryBucket | branches/canopy/backend/scrapers/jsearchScraper.js:69-70 | a JSearch listing with a minimum salary is counted in the bucket of that minimum |
| ScraperManager.ClosedSalaryBucket | branches/canopy/backend/scrapers/scraperManager.js:83-89 | `min-max currency`, trimmed, falls in the bucket of `min` |
| ScraperManager.OpenSalaryBucket | branches/canopy/backend/scrapers/scraperManager.js:83-89 | `min- currency`, trimmed, with no digit in the currency, falls in the bucket of `min` |
| ProgenixGate.LastNamed | branches/canopy/backend/agents/progenixgpt.js:160 | a member lookup finds the last member with that name, or none when there is no such member |
| ProgenixGate.CheckProjects | branches/canopy/backend/agents/progenixgpt.js:172-179 | the per-project checks pass exactly when every project has a truthy title and description and an array `techStack` |
| ProgenixGate.Validate | branches/canopy/backend/agents/progenixgpt.js:163-182 | validation passes exactly the values of the accepted shape, and returns them unchanged |
| ProgenixGate.DropClosing | branches/canopy/backend/agents/progenixgpt.js:156-157 | a trailing newline and fence is removed when the text ends with one, else a trailing fence, else nothing |
| ProgenixGate.UnfencedOnlyTrimmed | branches/canopy/backend/agents/progenixgpt.js:151-158 | an answer that does not start with a fence is only trimmed |
| ProgenixGate.FenceRoundTrip | branches/canopy/backend/agents/progenixgpt.js:154-158 | a body wrapped in either fence comes back unchanged |
| ProgenixGate.ParseResponse | branches/canopy/backend/agents/progenixgpt.js:148-189 | the answer is accepted exactly when its unfenced text parses to a value of the accepted shape, and then that value is returned. Every failure is the one error "Invalid GPT response format" |
| ProgenixGate.ParseResponseOfTrimmed | branches/canopy/backend/agents/progenixgpt.js:151 | trimming the answer first changes nothing |
| ProgenixGate.SameUnfencedSameParse | branches/canopy/backend/agents/progenixgpt.js:151-160 | answers with the same unfenced text give the same result |
| Progenix.JobBlock | branches/canopy/backend/agents/progenixgpt.js:61-67 | a job's block starts with `Job <number>:` |
| Progenix.JobBlockLines | branches/canopy/backend/agents/progenixgpt.js:61-67 | a block whose fields hold no newline reads back line by line as `Job n:`, the title, company and description lines, the skills joined with `, `, and an empty line |
| Progenix.Blocks | branches/canopy/backend/agents/progenixgpt.js:61-67 | the blocks fail exactly when a job has no skill array; otherwise they start with the first job's number |
| Progenix.BlocksNumbered | branches/canopy/backend/agents/progenixgpt.js:61-67 | when every job has a skill array, the blocks are one block per job, in order, the `k`-th numbered `first + k` |
| Progenix.PrepareJobSummary | branches/canopy/backend/agents/progenixgpt.js:54-70 | no data, an empty list or a non-list whose length is 0 gives the limited-data sentence. Any other non-list fails at `forEach`. A list fails exactly when a job has no skill array; otherwise the summary is the header followed by the jobs' blocks numbered from 1 |
| Progenix.IdeaMembers | branches/canopy/backend/agents/progenixgpt.js:199-286 | an idea's object carries its title, description and tech stack, and tasks and difficulty exactly when the idea has them |
| Progenix.IdeaValid | branches/canopy/backend/agents/progenixgpt.js:172-179 | an idea with a title and a description passes the project check |
| Progenix.AnswerAccepted | branches/canopy/backend/agents/progenixgpt.js:163-182 | an answer's object carries its insights and one object per idea, in order; a complete answer passes the gate |
| Progenix.FullStackComplete | branches/canopy/backend/agents/progenixgpt.js:196-215 | the full-stack answer is complete and has five insights |
| Progenix.DataScientistComplete | branches/canopy/backend/agents/progenixgpt.js:216-235 | the data-scientist answer is complete and has five insights |
| Progenix.GenericComplete | branches/canopy/backend/agents/progenixgpt.js:246-289 | the generic answer is complete and has five insights |
| Progenix.CatalogEntry | branches/canopy/backend/agents/progenixgpt.js:194-243 | exactly the two keys "full stack developer" and "data scientist" have a catalog entry |
| Progenix.CatalogComplete | branches/canopy/backend/agents/progenixgpt.js:196-235 | a catalog answer is complete, has five insights, and gives no tasks or difficulty |
| Progenix.FallbackComplete | branches/canopy/backend/agents/progenixgpt.js:192-290 | every fallback has five insights and three ideas with titles and descriptions |
| Progenix.FallbackAccepted | branches/canopy/backend/agents/progenixgpt.js:192-290 | every fallback has five insights and three projects and passes the same check as a model answer |
| Progenix.GenericIdeas | branches/canopy/backend/agents/progenixgpt.js:246-289 | the generic titles end with the job title as given, and each idea has five tasks, at difficulties 2, 3 and 3 |
| Progenix.FallbackSelection | branches/canopy/backend/agents/progenixgpt.js:239-246 | the trimmed, lower-cased title selects the full-stack or data-scientist entry; any other title gets the generic answer |
| Progenix.ModelAnswer | branches/canopy/backend/agents/progenixgpt.js:15-41 | a model answer that gets through passes the gate |
| Progenix.ModelAnswerGate | branches/canopy/backend/agents/progenixgpt.js:15-41 | the model's answer gets through exactly when the summary is built, the call answers, and the unfenced answer parses and passes; it is then the parsed value |
| Progenix.AnswerToGate | branches/canopy/backend/agents/progenixgpt.js:15-41 | the same, for a summary already built or failed |
| Progenix.GenerateProjectIdeas | branches/canopy/backend/agents/progenixgpt.js:10-51 | the result always passes the gate: the model's answer when it gets through, the fallback for the title otherwise |
| Progenix.RouteJobData | branches/canopy/backend/routes/progenixRoutes.js:30 | a request without a job list passes an empty object, which is not a list |
| Progenix.AsWrittenRouteSkipsModel | branches/canopy/backend/routes/progenixRoutes.js:30-33 | as written, a request without a job list makes the summary fail at `forEach`, so the model is never asked |
| Progenix.RouteJobDataCorrected | branches/canopy/backend/routes/progenixRoutes.js:30 | with the empty-list default, a request without a job list passes the empty list |
| Progenix.CorrectedRouteAsksModel | branches/canopy/backend/routes/progenixRoutes.js:30-33 | with the empty-list default, a request without a job list asks the model with the limited-data sentence, and its answer is returned when it gets through |
| CanopySearch.DropSuffix | branches/canopy/frontend/Canopy.js:69 | removes exactly one trailing `Branch`, and leaves other text alone |
| CanopySearch.BranchName | branches/canopy/frontend/Canopy.js:68-70 | a missing title gives "Unknown Branch"; otherwise the name is trimmed, and it is the trimmed title when that has no `Branch` suffix |
| CanopySearch.BranchNameOfLabel | branches/canopy/frontend/Canopy.js:68-70 | a title `<n> Branch` names the branch `n` |
| CanopySearch.BranchClass | branches/canopy/frontend/Canopy.js:91-94 | the first of technical, financial, marketing, legal, project and canopy on the card, and `unknown` exactly when none is |
| CanopySearch.ExtractBranch | branches/canopy/frontend/Canopy.js:66-84 | a card's record keeps its classes, has its branch class, one sub-branch per item, and a search text built from name and sub-branches |
| CanopySearch.ExtractBranchData | branches/canopy/frontend/Canopy.js:62-86 | one record per card, in page order |
| CanopySearch.Term | branches/canopy/frontend/Canopy.js:220 | the term is lower-case, and empty exactly when the query is blank |
| CanopySearch.Found | branches/canopy/frontend/Canopy.js:231-240 | the results are exactly the branches that match the term and are in the filtered class |
| CanopySearch.PerformSearch | branches/canopy/frontend/Canopy.js:219-247 | a blank query shows the cards by filter only; otherwise the results are exactly the matching branches in the class |
| CanopySearch.FoundInOrder | branches/canopy/frontend/Canopy.js:231-262 | the two passes are one filter that keeps the original order |
| CanopySearch.SearchVisibility | branches/canopy/frontend/Canopy.js:219-298 | which cards are shown after a blank and a non-blank query, and that "no results" appears exactly when nothing matches |
| CanopySearch.AdvancedSearch | branches/canopy/frontend/Canopy.js:433-446 | the results are exactly the branches whose search text contains every word of the lower-cased query, with no class filter |
| CanopySearch.AdvancedTermMatches | branches/canopy/frontend/Canopy.js:252-262 | a word without white space is in the search text exactly when the name or a sub-branch contains it |
| CanopySearch.EscapeRegex | branches/canopy/frontend/Canopy.js:412-414 | escaping never shortens the text, and text without special characters is unchanged |
| CanopySearch.EscapeRegexChar | branches/canopy/frontend/Canopy.js:412-414 | each of the fourteen special characters gets a backslash in front; any other character is kept |
| CanopySearch.EscapeRegexAppend | branches/canopy/frontend/Canopy.js:412-414 | escaping works character by character: a concatenation escapes part by part |
| CanopySearch.UnescapeEscapeRegex | branches/canopy/frontend/Canopy.js:412-414 | removing the escapes gives back the original text |
| CanopySearch.AllSubBranches | branches/canopy/frontend/Canopy.js:531-539 | every entry is a sub-branch of some branch, carrying that branch's name and class |
| CanopySearch.AllSubBranchesAppend | branches/canopy/frontend/Canopy.js:531-539 | the listing of two runs of branches is the first run's followed by the second's |
| CanopySearch.AllSubBranchesAt | branches/canopy/frontend/Canopy.js:531-539 | every sub-branch is listed, in order: the `k`-th sub-branch of branch `i`, with that branch's name and class, comes right after the entries of the branches before `i` and the first `k` of its own |
| CanopySearch.SearchStats | branches/canopy/frontend/Canopy.js:419-428 | the statistics count the branches, the current results and every sub-branch, and carry the filter |
| CanopySearch.SubBranchTotalCounts | branches/canopy/frontend/Canopy.js:419-428 | the per-branch sum of sub-branch counts equals the length of the sub-branch listing |
| CanopySearch.FindBranch | branches/canopy/frontend/Canopy.js:511-515 | the first branch whose name contains the argument, ignoring case, or none exactly when no name does |
| CanopySearch.FindBranchBySubBranch | branches/canopy/frontend/Canopy.js:520-526 | exactly the branches with a sub-branch containing the argument, ignoring case, in their original order and as often as they are listed |
| CanopySearch.AllTerms | branches/canopy/frontend/Canopy.js:555-558 | the candidate terms are exactly the branch names and sub-branches |
| CanopySearch.Qualifying | branches/canopy/frontend/Canopy.js:553-562 | the qualifying terms are the terms that contain the query without being it, ignoring case, in term order and with repeats |
| CanopySearch.GenerateSuggestions | branches/canopy/frontend/Canopy.js:553-565 | at most five distinct terms, each containing the query, ignoring case, and not equal to it |
| CanopySearch.SuggestionsInFirstSeenOrder | branches/canopy/frontend/Canopy.js:553-565 | the suggestions come in the order their terms first qualify, and no term that first qualifies before a suggestion is left out |
| CanopySearch.SuggestionsComplete | branches/canopy/frontend/Canopy.js:553-565 | fewer than five suggestions means every qualifying term was suggested |
| CanopySearch.ExportSearchResults | branches/canopy/frontend/Canopy.js:451-469 | `json` and `csv` select their formats; non-CSV exports carry one record per result, in order |
| CanopySearch.CsvLines | branches/canopy/frontend/Canopy.js:460-465 | a CSV export is the header line and exactly one line per result, in order |
| AgentSearch.Category | branches/canopy/frontend/agent.js:67-68 | the first of technical, financial, canopy and universal on the card, and `other` exactly when none is |
| AgentSearch.TextOf | branches/canopy/frontend/agent.js:64-66 | a missing element reads as empty; every text is trimmed |
| AgentSearch.SplitAgent | branches/canopy/frontend/agent.js:73-79 | the name and the description read from an agent's text are trimmed |
| AgentSearch.SplitAgentRoundTrip | branches/canopy/frontend/agent.js:73-79 | `name - description` reads back as that name and description when neither holds `" - "` and the name does not end in `" -"`; hyphens elsewhere are allowed |
| AgentSearch.NameHoldsNoSeparator | branches/canopy/frontend/agent.js:73 | `split(' - ')` cannot cut inside a trimmed name that holds no separator and does not end in `" -"` |
| AgentSearch.HyphenatedNameRoundTrip | branches/canopy/frontend/agent.js:73-77 | `Co-Pilot - Drafts` reads back as the name `Co-Pilot` and the description `Drafts` |
| AgentSearch.ReadAgent | branches/canopy/frontend/agent.js:71-81 | an agent has a trimmed name and description, and a link exactly when its element has a non-empty one, which it then keeps |
| AgentSearch.ExtractGroup | branches/canopy/frontend/agent.js:58-94 | a group has the card's category, one agent per agent element in order, trimmed texts, and its search text |
| AgentSearch.SearchableTextHasCategory | branches/canopy/frontend/agent.js:102-105 | a query that is part of the category finds every group of that category |
| AgentSearch.Normalized | branches/canopy/frontend/agent.js:170 | the normalized query is empty exactly when the query is blank |
| AgentSearch.HandleSearch | branches/canopy/frontend/agent.js:169-203 | a blank query shows everything; otherwise the results are exactly the groups in the filter whose text contains the query |
| AgentSearch.SearchVisibility | branches/canopy/frontend/agent.js:169-203 | a card is visible exactly when its group is selected, and "no results" shows exactly when no group is |
| AgentSearch.AllAgents | branches/canopy/frontend/agent.js:229-231 | exactly the agents of the groups |
| AgentSearch.FindAgent | branches/canopy/frontend/agent.js:210-213 | the first agent whose name equals the argument, ignoring case, or none exactly when no agent's does |
| AgentSearch.FindAgentsByRole | branches/canopy/frontend/agent.js:220-223 | exactly the agents whose description contains the role, ignoring case, in order and as often as they are listed |
| AgentSearch.FirstContaining | branches/canopy/frontend/agent.js:238-247 | the suggestions are the texts that contain the query, in order and with repeats, cut off after five |
| AgentSearch.GenerateSuggestions | branches/canopy/frontend/agent.js:238-247 | the first five of the texts that contain the normalized query, in text order with repeats, or all of them when fewer qualify |
| AgentSearch.SuggestionsComplete | branches/canopy/frontend/agent.js:238-247 | fewer than five suggestions means every text containing the query was suggested |
| AgentSearch.SuggestionsKeepRepeats | branches/canopy/frontend/agent.js:238-247 | two groups of the same category without agents, whose category holds the query, suggest that category twice: repeats are not removed, unlike in the branch directory |
| Accounts.ParseDepartment | Core/backend/controller/authController.js:8-18 | a department is recognized exactly when its name is given |
| Accounts.Code | Core/backend/controller/authController.js:8-16 | every code has three letters and no hyphen |
| Accounts.DepartmentOfCode | Core/backend/controller/authController.js:8-16 | the table is one-to-one: a code names exactly its department |
| Accounts.CodeText | Core/backend/controller/authController.js:18 | a known name gives its code; an unknown one gives text without a hyphen |
| Accounts.ParseInt | Core/backend/controller/authController.js:24 | a number is read exactly when digits follow the leading white space |
| Accounts.SequenceText | Core/backend/controller/authController.js:29 | the number is padded with zeros to at least three digits and never cut; `NaN` stays `NaN` |
| Accounts.NextSequence | Core/backend/controller/authController.js:23-27 | 1 without a previous id, else one more than the previous number |
| Accounts.GenerateUserId | Core/backend/controller/authController.js:7-30 | the id starts with the code and a hyphen; it is `<code>-001` without a previous id |
| Accounts.SequenceTextReadsBack | Core/backend/controller/authController.js:24-29 | a padded number reads back as itself from an id |
| Accounts.UserIdReadsBack | Core/backend/controller/authController.js:7-30 | an id reads back as its department and as the number after the previous one |
| Accounts.NextAfter | Core/backend/controller/authController.js:23-29 | the id after number `n` is the id of number `n + 1` |
| Accounts.ThousandIsNotCut | Core/backend/controller/authController.js:29 | the id after `TEC-999` is `TEC-1000` |
| Accounts.LastInStringOrder | Core/backend/controller/authController.js:20-21 | the lookup finds the department's id that comes last in string order, or none when there is none |
| Accounts.IssueUserIdAsWritten | Core/backend/controller/authController.js:18-29 | the issued id carries the department's code |
| Accounts.AsWrittenRepeatsAfter999 | Core/backend/controller/authController.js:20-29 | with `TEC-999` and `TEC-1000` stored, the next Technical id is `TEC-1000` again |
| Accounts.HighestNumbered | Core/backend/controller/authController.js:20-21 | the department's id with the highest number |
| Accounts.IssueUserId | Core/backend/controller/authController.js:7-30 | the issued id carries the department's code |
| Accounts.IssuedUserIdIsFresh | Core/backend/controller/authController.js:7-30 | the id issued is never one already stored |
| Accounts.Password | Core/backend/controller/authController.js:33-41 | twelve characters, each from the alphabet |
| Accounts.EveryPasswordDrawable | Core/backend/controller/authController.js:33-41 | every twelve-character password over the alphabet can be drawn |
| Accounts.Save | Core/backend/models/Users.js:5-34 | a user the schema rejects (an empty required field, a department outside the seven, a role other than employee or admin) or that clashes on id or email is refused with 500 and nothing is stored; otherwise it is appended and its credentials are returned with 201 |
| Accounts.NewUserSchemaValid | Core/backend/models/Users.js:5-34 | a new user with a non-empty id and password meets the schema exactly when its registration has a name and an email, a known department and an admitted role |
| Accounts.RegisterAsWritten | Core/backend/controller/authController.js:44-77 | a registration either succeeds with 201 or fails with 500 and "Registration failed" |
| Accounts.AsWrittenRegistrationStalls | Core/backend/controller/authController.js:20-63 | with `TEC-999` and `TEC-1000` stored, every Technical registration fails |
| Accounts.Register | Core/backend/controller/authController.js:44-77 | corrected register (numeric id lookup): success is 201 with the drawn password; failure is 500 with "Registration failed" |
| Accounts.IssuedIdUnused | Core/backend/controller/authController.js:7-30 | corrected register (numeric id lookup): no stored user has the id a registration is given |
| Accounts.RegisterFailsOnlyOnEmail | Core/backend/controller/authController.js:44-77 | corrected register (numeric id lookup): a registration succeeds exactly when the schema accepts its fields and its lower-cased email is not yet stored; the issued id never clashes |
| Accounts.RegisterKeepsIdsUnique | Core/backend/controller/authController.js:44-77 | corrected register (numeric id lookup): registering keeps ids unique, keeps the stored users, and adds exactly one user on success |
| Accounts.FindUser | Core/backend/controller/authController.js:85 | the first stored user with the id, or none exactly when there is none |
| Accounts.Login | Core/backend/controller/authController.js:80-122 | 200 exactly when the user exists and the password is theirs, with a session carrying that id and the found user's department and role; otherwise 401 with "Invalid credentials" |
| Accounts.RegisteredUserFound | Core/backend/controller/authController.js:63-85 | corrected register (numeric id lookup): after a successful registration the reported id finds the new user with the reported password |
| Accounts.RegisteredCredentialsLogIn | Core/backend/controller/authController.js:66-116 | corrected register (numeric id lookup): the reported credentials log the new user in, with their department and role |
| Accounts.FoundOtherPasswordRefused | Core/backend/controller/authController.js:93-98 | a password other than the found user's is refused |
| Accounts.OtherPasswordRefused | Core/backend/controller/authController.js:85-98 | only the stored password logs a user in |
| AuthValidation.StringRule | Core/backend/validator/authvalidator.js:5-26 | a string rule passes exactly for a non-empty string within the length bounds |
| AuthValidation.EmailRule | Core/backend/validator/authvalidator.js:9-11 | passes exactly for a non-empty string that is an email address |
| AuthValidation.ChoiceRule | Core/backend/validator/authvalidator.js:12-17 | passes exactly for one of the allowed values |
| AuthValidation.DepartmentNames | Core/backend/validator/authvalidator.js:12-14 | the allowed departments are exactly the seven the id table knows |
| AuthValidation.FirstIssue | Core/backend/validator/authvalidator.js:30-53 | no issue exactly when every key passes and no unknown key is present; otherwise the first failing key, in schema order, and when every key passes, the first unknown key |
| AuthValidation.ValidateRegisterAccepts | Core/backend/validator/authvalidator.js:4-18 | the register schema accepts exactly the good registrations |
| AuthValidation.ValidateLoginAccepts | Core/backend/validator/authvalidator.js:21-27 | the login schema accepts exactly the good logins |
| AuthValidation.LoginReportsUserIdFirst | Core/backend/validator/authvalidator.js:21-53 | a problem with the user id is reported before any problem with the password |
| AuthValidation.Middleware | Core/backend/validator/authvalidator.js:30-53 | the handler runs exactly when there is no issue; otherwise the reply is 400, "Validation failed" and the issue |
| AuthValidation.RegisterValidator | Core/backend/validator/authvalidator.js:30-40 | the handler runs exactly for good registrations; any other body gets 400 and its first issue |
| AuthValidation.LoginValidator | Core/backend/validator/authvalidator.js:43-53 | the handler runs exactly for good logins; any other body gets 400 and its first issue |
| AuthValidation.ValidatedDepartmentHasCode | Core/backend/validator/authvalidator.js:12-14 | a validated department has an id code |
| AuthValidation.RegisterRoute | Core/backend/validator/authvalidator.js:30-40 | corrected register (numeric id lookup): a bad body is answered with 400 and changes nothing; a good one is registered |
| AuthValidation.ValidatedRegistrationStorable | Core/backend/validator/authvalidator.js:4-18 | every body the register schema accepts gives fields the `users` schema stores: the two department lists and the two role lists agree |
| AuthValidation.RegisterRouteFailsOnlyOnEmail | Core/backend/validator/authvalidator.js:30-40 | corrected register (numeric id lookup): behind the validator a registration fails only when its lower-cased email is taken |
| RegisterForm.FirstProblem | Core/frontend/register.js:22-41 | each message is reported exactly when its check is the first to fail, in the page's order; no message exactly when the form passes |
| RegisterForm.SubmitAsWritten | Core/frontend/register.js:13-96 | the request is sent exactly when the form passes, carrying the trimmed fields. The first problem is shown otherwise. A refusal shows "Registration failed". A success shows a dialog with the page's own drawn password |
| RegisterForm.Submit | Core/frontend/register.js:13-96 | as above, but the dialog shows the password the server returned |
| RegisterForm.SentFormValidated | Core/frontend/register.js:22-43 | a form that passes the page reaches the handler exactly when its name is not too long, its email is valid and its role is known |
| RegisterForm.AsWrittenShownPasswordRefused | Core/frontend/register.js:64 | when the page's draws differ from the server's, the credentials the dialog shows are refused at login |
| RegisterForm.ShownCredentialsLogIn | Core/frontend/register.js:61-85 | the credentials shown from the server's reply log the new user in |
| RegisterForm.DrawsCanDiffer | Core/frontend/register.js:2-10 | the page can draw a password different from the server's |

## Left out

- Network and browser I/O are left out: axios, Puppeteer, `fetchPage`'s fallback path, the shared browser and `close()`. Every fetch result is an oracle parameter.
- Timers are left out: the limiter's wait and the retry delay are returned as durations, and the one-second pause between JSearch pages is dropped.
- The HTTP query string of a JSearch request (`URLSearchParams`) and `encodeURIComponent` on Indeed URLs are parameters, not modelled encodings.
- Number parsing is simplified. `parseFloat` is modelled on the integer part only, since the bucket depends on nothing else. Numbers beyond 2^53 are exact here. `parseInt`'s sign and hexadecimal forms are left out.
- Case folding is ASCII only, and lengths count characters rather than UTF-16 code units.
- `Object.entries` puts integer-like keys first. Counters are modelled as association lists in insertion order, which is the order for non-integer keys.
- The Progenix catalog lookup is a two-key map. A title such as `constructor` that hits an inherited object key is not modelled.
- The rate limiter is modelled as the transition functions of one limiter and is not threaded through the JSearch page loop. A page whose call the limiter refuses throws, and the loop catches that and skips the page. The `respond` oracle answering that page with an error covers this case. The Indeed adapter does not call `fetchApi`.
- The clock readings are free parameters. Their values, their order in time, the one-second pause between JSearch pages and the concurrency of the two adapters are not modelled. Each listing is only known to carry a reading of its own adapter's clock taken for one of the pages read.
- The prompt text, `createAnalysisPrompt` and the model call are left out. The model call is the `complete` oracle and `JSON.parse` is the `parse` oracle.
- Joi's message wording is left out: a problem is the key and the kind of rule it breaks. Whether a text is an email address is a parameter. Joi's type conversions are not modelled.
- Password hashing is equality of passwords, and the JWT is left out: a successful login carries the token's claims (user id, department, role). Mongo's error details are collapsed into the one 500 reply.
- The DOM work in the two directories is left out: highlighting, `innerHTML`, scrolling, `autoExpand` and event wiring. `searchWithSuggestions` only combines two modelled calls.
- The JSON export's printing by `JSON.stringify` is left out: the JSON export is modelled as the list of records.
- The registration page's `localStorage` writes, the redirect timer and the network-failure path are left out.
- progenixBuilder.js, progenix.js, the login and index pages, route, server, configuration and database files are not part of this model. The one exception is the job-list default of branches/canopy/backend/routes/progenixRoutes.js:30, which decides what `prepareJobSummary` receives.
- Accounts.Register: this member and IssuedIdUnused, RegisterFailsOnlyOnEmail, RegisterKeepsIdsUnique, RegisteredUserFound, RegisteredCredentialsLogIn, AuthValidation.RegisterRoute and AuthValidation.RegisterRouteFailsOnlyOnEmail describe the register with the corrected, numeric id lookup (see Findings). The register as written is RegisterAsWritten. Its id lookup repeats `TEC-1000`, so there registration can fail on an id clash even for a new email (AsWrittenRegistrationStalls).
- Analysis.AnalyzeResults: the skill, location and company counters are plain objects read with `(counter[key] || 0) + 1`. A key that names an inherited property (`constructor`, `toString`, `__proto__`…) is miscounted there: it starts from the inherited value, so it becomes text and sorts as NaN, or with `__proto__` it makes no entry at all. The model counts every key alike, as if the counters had no prototype. This covers Locations, Companies, AllSkills and their Count lemmas too.
- AllSkillsCount: it requires each listing's skill list to be free of duplicates. Skills extracted from a description always are, but an array the record carried can repeat a skill, and then that listing adds every repeat to the count.
- JobBlockLines: it requires fields without a newline. A newline inside a title, company, description or skill splits that field over more lines.
- Progenix.PrepareJobSummary: a non-list `jobData` is modelled only by whether its `length` is 0. The string and array-like objects that have both a `length` and a `forEach` are not modelled.
- ScraperManager.JSearchSalaryBucket: when there is no maximum it requires a currency without digits. A digit in the currency could start a range pattern match of its own.
- Some descriptions of the system promise more than the code does, and the code is followed:
  - The language-model gateway has no response cache and no rate limiter of its own.
  - Fewer than five listings only logs a warning; no error is raised.
  - The Indeed adapter has no per-page isolation.

## Findings

| source | as written | input that shows it | evidently intended | confidence | as-written member | corrected member |
|---|---|---|---|---|---|---|
| branches/canopy/backend/scrapers/baseScraper.js:44-95 | `validateStatus` resolves every status below 500, so a 429 reply never throws and the 429 retry branch is dead; the 429 counts as a delivered request | any reply with status 429 | a 429 reply is retried after `1000 * retryCount` ms while retries remain | not executed | RateLimiter.AsWrittenNeverRetries | RateLimiter.Settle |
| Core/backend/controller/authController.js:20-29 | the last id is chosen by `sort('-userId')`, which compares strings, so after `TEC-1000` exists `TEC-999` still sorts last and `TEC-1000` is issued again; the unique index then fails every later Technical registration | stored ids `TEC-999` and `TEC-1000`, then a Technical registration | the next id follows the numerically highest one, so it is always fresh | not executed | Accounts.AsWrittenRepeatsAfter999 | Accounts.IssuedUserIdIsFresh |
| branches/canopy/backend/routes/progenixRoutes.js:30 | a missing job list defaults to `{}`. The early return of `prepareJobSummary` (`!jobData \|\| jobData.length === 0`) does not take it, then `forEach` throws, and the fallback is returned without asking the model | a request with a job title and no `jobData` | a missing job list is treated as an empty one, so the model is asked with the limited-data sentence | not executed | Progenix.AsWrittenRouteSkipsModel | Progenix.CorrectedRouteAsksModel |
| Core/frontend/register.js:64 | the success dialog shows a password the page draws itself, not the one the server created and stored | page draws that differ from the server's (RegisterForm.DrawsCanDiffer) | the dialog shows the password in the server's reply, which logs the user in | not executed | RegisterForm.AsWrittenShownPasswordRefused | RegisterForm.ShownCredentialsLogIn |

=== FILE: accounts.dfy ===
/**
  Account creation and sign-in of the core back end: the department table, the user
  id a new account receives, the generated password, and the register and login
  handlers over the stored users.

  The database is a sequence of users. The password hash is abstracted away: a user
  keeps the password it was created with, and a password matches when it is equal.
 */
module Accounts {

  import opened Wrappers
  import opened Text
  import Collections

  // ---------------------------------------------------------------------------
  // Departments
  // ---------------------------------------------------------------------------

  datatype Department = Technical | Financial | Project | Legal | Compliance | Marketing | Canopy

  /** The department as it is written in a request. */
  function Name(d: Department): string {
    match d
    case Technical => "Technical"
    case Financial => "Financial"
    case Project => "Project"
    case Legal => "Legal"
    case Compliance => "Compliance"
    case Marketing => "Marketing"
    case Canopy => "Canopy"
  }

  /** The department a request names, if it names one of the seven. */
  function ParseDepartment(s: string): (r: Option<Department>)
    ensures forall d: Department :: r == Some(d) <==> Name(d) == s
  {
    if s == "Technical" then Some(Technical)
    else if s == "Financial" then Some(Financial)
    else if s == "Project" then Some(Project)
    else if s == "Legal" then Some(Legal)
    else if s == "Compliance" then Some(Compliance)
    else if s == "Marketing" then Some(Marketing)
    else if s == "Canopy" then Some(Canopy)
    else None
  }

  /** The three-letter code that starts the ids of a department. */
  function Code(d: Department): (c: string)
    ensures |c| == 3 && '-' !in c
  {
    match d
    case Technical => "TEC"
    case Financial => "FIN"
    case Project => "PRO"
    case Legal => "LEG"
    case Compliance => "COM"
    case Marketing => "MAR"
    case Canopy => "CAN"
  }

  /** The department of a code: the table read backwards, so no two departments
      share a code. */
  function DepartmentOfCode(code: string): (r: Option<Department>)
    ensures forall d: Department :: r == Some(d) <==> Code(d) == code
  {
    if code == "TEC" then Some(Technical)
    else if code == "FIN" then Some(Financial)
    else if code == "PRO" then Some(Project)
    else if code == "LEG" then Some(Legal)
    else if code == "COM" then Some(Compliance)
    else if code == "MAR" then Some(Marketing)
    else if code == "CAN" then Some(Canopy)
    else None
  }

  /** `departmentCodes[department]` as it lands in the id template: a name outside the
      table looks up `undefined`. */
  function CodeText(department: string): (c: string)
    ensures '-' !in c
    ensures forall d: Department :: Name(d) == department ==> c == Code(d)
  {
    match ParseDepartment(department)
    case Some(d) => Code(d)
    case None => "undefined"
  }

  // ---------------------------------------------------------------------------
  // User ids
  // ---------------------------------------------------------------------------

  /** A JavaScript number as this code produces it: a natural number or `NaN`. */
  datatype Number = Num(n: nat) | NaN

  function Succ(x: Number): (y: Number)
    ensures y.NaN? <==> x.NaN?
    ensures x.Num? ==> y.n == x.n + 1
  {
    match x
    case Num(n) => Num(n + 1)
    case NaN => NaN
  }

  /** `parseInt(s)`: leading white space is skipped, then the decimal digits are read;
      no digit gives `NaN`. */
  function ParseInt(s: string): (r: Number)
    ensures r.Num? <==> ParseLeadingNat(TrimStart(s)).Some?
  {
    match ParseLeadingNat(TrimStart(s))
    case Some(n) => Num(n)
    case None => NaN
  }

  /** `parseInt(id.split('-')[1])`: the number after the first hyphen, `NaN` when there
      is no hyphen (`parseInt(undefined)`). */
  function SequenceOf(id: string): Number {
    var parts := SplitOn(id, "-");
    if |parts| < 2 then NaN else ParseInt(parts[1])
  }

  /** `n.toString().padStart(3, '0')`. */
  function SequenceText(x: Number): (r: string)
    ensures x.NaN? ==> r == "NaN"
    ensures x.Num? ==> |r| == (if |NatToString(x.n)| >= 3 then |NatToString(x.n)| else 3)
    ensures x.Num? ==> AllDigits(r) && EndsWith(r, NatToString(x.n))
  {
    match x
    case NaN => PadStart("NaN", 3, '0')
    case Num(n) =>
      var r := PadStart(NatToString(n), 3, '0');
      assert AllDigits(r) by {
        var N := NatToString(n);
        forall i | 0 <= i < |r| ensures IsDigit(r[i]) {
          if i >= |r| - |N| {
            assert r[i] == N[i - (|r| - |N|)];
          }
        }
      }
      r
  }

  /** The sequence number following the last id found: 1 when there is none. */
  function NextSequence(last: Option<string>): (x: Number)
    ensures last.None? ==> x == Num(1)
    ensures last.Some? ==> x == Succ(SequenceOf(last.value))
  {
    match last
    case None => Num(1)
    case Some(id) => Succ(SequenceOf(id))
  }

  /** `generateUserId(department)`, given the id the database query returned (`None`
      when no id of the department exists). */
  function GenerateUserId(department: string, last: Option<string>): (id: string)
    ensures StartsWith(id, CodeText(department) + "-")
    ensures last.None? ==> id == CodeText(department) + "-001"
    ensures last.Some? && SequenceOf(last.value).NaN? ==> id == CodeText(department) + "-NaN"
  {
    var id := CodeText(department) + "-" + SequenceText(NextSequence(last));
    assert id[..|CodeText(department) + "-"|] == CodeText(department) + "-";
    id
  }

  /** A padded sequence number reads back as that number from an id whose code holds
      no hyphen. */
  lemma SequenceTextReadsBack(code: string, n: nat)
    requires '-' !in code
    ensures SequenceOf(code + "-" + SequenceText(Num(n))) == Num(n)
  {
    var p := SequenceText(Num(n));
    SequenceTextValue(n);
    DigitsAfterCode(code, p);
  }

  /** The padded text of `n` is digits worth `n`. */
  lemma SequenceTextValue(n: nat)
    ensures var p := SequenceText(Num(n)); |p| > 0 && AllDigits(p) && DigitsValue(p) == n
  {
    var N := NatToString(n);
    var p := SequenceText(Num(n));
    NatToStringValue(n);
    if |N| < 3 {
      DigitsValueLeadingZeros(3 - |N|, N);
    }
  }

  /** The digits after the first hyphen of an id are read as their value. */
  lemma DigitsAfterCode(code: string, p: string)
    requires '-' !in code && |p| > 0 && AllDigits(p)
    ensures SequenceOf(code + "-" + p) == Num(DigitsValue(p))
  {
    assert '-' !in p by {
      forall i | 0 <= i < |p| ensures p[i] != '-' {
        assert IsDigit(p[i]);
      }
    }
    SplitOnCharAfterPrefix(code, '-', p);
    SplitOnCharAbsent(p, '-');
    assert code + "-" + p == code + ['-'] + p;
    assert SplitOn(code + "-" + p, "-") == [code, p];
    assert TrimStart(p) == p by {
      assert !IsSpace(p[0]) by { assert IsDigit(p[0]); }
    }
    LeadingDigitsOfDigits(p);
  }

  /** An id reads back as its department and as the number after the last one found,
      or 1 when none was found. */
  lemma UserIdReadsBack(d: Department, last: Option<string>)
    requires last.Some? ==> SequenceOf(last.value).Num?
    ensures var id := GenerateUserId(Name(d), last);
      && DepartmentOfCode(id[..3]) == Some(d)
      && id[3] == '-'
      && SequenceOf(id) == (if last.None? then Num(1) else Num(SequenceOf(last.value).n + 1))
  {
    var x := NextSequence(last);
    GeneratedIdOf(d, last);
    SequenceTextReadsBack(Code(d), x.n);
    IdSplitsAtCode(Code(d), SequenceText(x));
    CodeReadsBack(d);
  }

  /** The id of a known department is its code, a hyphen and the padded next number. */
  lemma GeneratedIdOf(d: Department, last: Option<string>)
    ensures GenerateUserId(Name(d), last) == Code(d) + "-" + SequenceText(NextSequence(last))
  {
    assert CodeText(Name(d)) == Code(d);
  }

  /** A three-letter code is the first three characters of the id, the hyphen the fourth. */
  lemma IdSplitsAtCode(code: string, p: string)
    requires |code| == 3
    ensures (code + "-" + p)[..3] == code && (code + "-" + p)[3] == '-'
  {
  }

  /** A department's code names that department. */
  lemma CodeReadsBack(d: Department)
    ensures DepartmentOfCode(Code(d)) == Some(d)
  {
  }

  /** Reading back the id of number `n` and stepping on gives the id of number `n + 1`. */
  lemma NextAfter(department: string, n: nat)
    ensures GenerateUserId(department, Some(CodeText(department) + "-" + SequenceText(Num(n))))
      == CodeText(department) + "-" + SequenceText(Num(n + 1))
  {
    SequenceTextReadsBack(CodeText(department), n);
  }

  lemma SequenceText999()
    ensures SequenceText(Num(999)) == "999"
  {
    assert NatToString(9) == "9";
    assert NatToString(99) == "99";
    assert NatToString(999) == "999";
  }

  lemma SequenceText1000()
    ensures SequenceText(Num(1000)) == "1000"
  {
    assert NatToString(1) == "1";
    assert NatToString(10) == "10";
    assert NatToString(100) == "100";
    assert NatToString(1000) == "1000";
  }

  lemma TechnicalId(p: string, digits: string, id: string)
    requires p == digits && id == "TEC-" + digits
    ensures "TEC" + "-" + p == id
  {
  }

  lemma SpellTechnical999(p: string)
    requires p == "999"
    ensures "TEC" + "-" + p == "TEC-999"
  {
  }

  lemma TechnicalId999()
    ensures "TEC" + "-" + SequenceText(Num(999)) == "TEC-999"
  {
    SequenceText999();
    SpellTechnical999(SequenceText(Num(999)));
  }

  lemma TechnicalId1000(p: string)
    requires p == SequenceText(Num(1000))
    ensures "TEC" + "-" + p == "TEC-1000"
  {
    SequenceText1000();
    TechnicalId(p, "1000", "TEC-1000");
  }

  /** The number is padded to three digits and never cut: the id after `TEC-999` is
      `TEC-1000`. */
  lemma ThousandIsNotCut()
    ensures GenerateUserId("Technical", Some("TEC-999")) == "TEC-1000"
  {
    var code := CodeText("Technical");
    assert code == "TEC" by {
      assert Name(Technical) == "Technical";
    }
    TechnicalId999();
    TechnicalId1000(SequenceText(Num(1000)));
    NextAfter("Technical", 999);
  }

  /** The id belongs to the department with code `code`: the query's `^code-`. */
  predicate HasCode(id: string, code: string) {
    StartsWith(id, code + "-")
  }

  /** Strict order of strings by character code, as the database sorts them. */
  predicate Less(a: string, b: string) {
    if |a| == 0 then |b| > 0
    else if |b| == 0 then false
    else if a[0] != b[0] then a[0] < b[0]
    else Less(a[1..], b[1..])
  }

  lemma {:induction false} LessIrreflexive(a: string)
    ensures !Less(a, a)
  {
    if |a| > 0 {
      LessIrreflexive(a[1..]);
    }
  }

  lemma {:induction false} LessAsymmetric(a: string, b: string)
    requires Less(a, b)
    ensures !Less(b, a)
  {
    if |a| > 0 && |b| > 0 && a[0] == b[0] {
      LessAsymmetric(a[1..], b[1..]);
    }
  }

  /** Strings that agree before position `i` compare as their characters at `i`. */
  lemma {:induction false} LessAt(a: string, b: string, i: nat)
    requires i < |a| && i < |b| && a[..i] == b[..i] && a[i] != b[i]
    ensures Less(a, b) <==> a[i] < b[i]
  {
    if i > 0 {
      assert a[0] == b[0] by { assert a[..i][0] == b[..i][0]; }
      assert a[1..][..i - 1] == b[1..][..i - 1] by {
        assert a[1..][..i - 1] == a[..i][1..];
        assert b[1..][..i - 1] == b[..i][1..];
      }
      LessAt(a[1..], b[1..], i - 1);
    }
  }

  lemma {:induction false} NotLessTransitive(a: string, b: string, c: string)
    requires !Less(a, b) && !Less(b, c)
    ensures !Less(a, c)
  {
    if |a| > 0 && |b| > 0 && |c| > 0 && a[0] == b[0] && b[0] == c[0] {
      NotLessTransitive(a[1..], b[1..], c[1..]);
    }
  }

  /** `findOne({ userId: /^code-/ }).sort('-userId')`: the id of the department that
      comes last in string order. */
  function LastInStringOrder(ids: seq<string>, code: string): (r: Option<string>)
    ensures r.None? <==> forall k :: 0 <= k < |ids| ==> !HasCode(ids[k], code)
    ensures r.Some? ==> r.value in ids && HasCode(r.value, code)
    ensures r.Some? ==> forall k :: 0 <= k < |ids| && HasCode(ids[k], code) ==> !Less(r.value, ids[k])
  {
    if |ids| == 0 then None
    else
      var rest := LastInStringOrder(ids[1..], code);
      assert forall k :: 1 <= k < |ids| ==> ids[k] == ids[1..][k - 1];
      if !HasCode(ids[0], code) then rest
      else match rest
        case None =>
          LessIrreflexive(ids[0]);
          Some(ids[0])
        case Some(m) =>
          if Less(ids[0], m) then
            LessAsymmetric(ids[0], m);
            rest
          else
            LessIrreflexive(ids[0]);
            assert forall k :: 1 <= k < |ids| && HasCode(ids[k], code) ==> !Less(ids[0], ids[k]) by {
              forall k | 1 <= k < |ids| && HasCode(ids[k], code) ensures !Less(ids[0], ids[k]) {
                NotLessTransitive(ids[0], m, ids[k]);
              }
            }
            Some(ids[0])
  }

  /** The ids a department's next id is chosen from, as the source looks it up. */
  function IssueUserIdAsWritten(department: string, ids: seq<string>): (id: string)
    ensures HasCode(id, CodeText(department))
  {
    GenerateUserId(department, LastInStringOrder(ids, CodeText(department)))
  }

  /** Once `TEC-1000` exists, `TEC-999` still sorts last, so the next Technical id is
      `TEC-1000` again. */
  lemma AsWrittenRepeatsAfter999()
    ensures var ids := ["TEC-999", "TEC-1000"];
      IssueUserIdAsWritten("Technical", ids) == "TEC-1000" && "TEC-1000" in ids
  {
    var ids := ["TEC-999", "TEC-1000"];
    assert HasCode(ids[0], "TEC") && HasCode(ids[1], "TEC");
    assert !Less(ids[0], ids[1]) by {
      assert ids[0][..4] == ids[1][..4];
      LessAt(ids[0], ids[1], 4);
    }
    assert LastInStringOrder(ids[1..], "TEC") == Some("TEC-1000");
    assert LastInStringOrder(ids, "TEC") == Some("TEC-999");
    ThousandIsNotCut();
  }

  /** The id carries a number after the code of the department. */
  predicate Numbered(id: string, code: string) {
    HasCode(id, code) && SequenceOf(id).Num?
  }

  /** The id of the department with the largest number, compared as numbers. */
  function HighestNumbered(ids: seq<string>, code: string): (r: Option<string>)
    ensures r.None? <==> forall k :: 0 <= k < |ids| ==> !Numbered(ids[k], code)
    ensures r.Some? ==> r.value in ids && Numbered(r.value, code)
    ensures r.Some? ==> forall k :: 0 <= k < |ids| && Numbered(ids[k], code) ==>
      SequenceOf(ids[k]).n <= SequenceOf(r.value).n
  {
    if |ids| == 0 then None
    else
      var rest := HighestNumbered(ids[1..], code);
      var r := if !Numbered(ids[0], code) then rest
        else match rest
          case None => Some(ids[0])
          case Some(m) => if SequenceOf(ids[0]).n < SequenceOf(m).n then rest else Some(ids[0]);
      HighestStep(ids, code, rest, r);
      r
  }

  /** One more id in front: the highest of the rest, or that id when it is numbered and
      not below the rest's highest, is the highest of all. */
  lemma HighestStep(ids: seq<string>, code: string, rest: Option<string>, r: Option<string>)
    requires |ids| > 0
    requires rest.None? <==> forall k :: 1 <= k < |ids| ==> !Numbered(ids[k], code)
    requires rest.Some? ==> rest.value in ids[1..] && Numbered(rest.value, code)
    requires rest.Some? ==> forall k :: 1 <= k < |ids| && Numbered(ids[k], code) ==>
      SequenceOf(ids[k]).n <= SequenceOf(rest.value).n
    requires r == if !Numbered(ids[0], code) then rest
      else match rest
        case None => Some(ids[0])
        case Some(m) => if SequenceOf(ids[0]).n < SequenceOf(m).n then rest else Some(ids[0])
    ensures r.None? <==> forall k :: 0 <= k < |ids| ==> !Numbered(ids[k], code)
    ensures r.Some? ==> r.value in ids && Numbered(r.value, code)
    ensures r.Some? ==> forall k :: 0 <= k < |ids| && Numbered(ids[k], code) ==>
      SequenceOf(ids[k]).n <= SequenceOf(r.value).n
  {
  }

  /** The next id of a department, chosen after the numerically highest one. */
  function IssueUserId(department: string, ids: seq<string>): (id: string)
    ensures HasCode(id, CodeText(department))
  {
    GenerateUserId(department, HighestNumbered(ids, CodeText(department)))
  }

  /** The id issued is never one of the existing ids. */
  lemma IssuedUserIdIsFresh(department: string, ids: seq<string>)
    ensures IssueUserId(department, ids) !in ids
  {
    var code := CodeText(department);
    var last := HighestNumbered(ids, code);
    var x := NextSequence(last);
    var id := IssueUserId(department, ids);
    assert id == code + "-" + SequenceText(x);
    SequenceTextReadsBack(code, x.n);
    forall k | 0 <= k < |ids| ensures ids[k] != id {
      if Numbered(ids[k], code) {
        assert SequenceOf(ids[k]).n <= SequenceOf(last.value).n < x.n;
      }
    }
  }

  // ---------------------------------------------------------------------------
  // Passwords
  // ---------------------------------------------------------------------------

  const PasswordLength: nat := 12
  const Capitals: string := "ABCDEFGHIJKLMNOPQRSTUVWXYZ"
  const Smalls: string := "abcdefghijklmnopqrstuvwxyz"
  const DigitsAndSigns: string := "0123456789!@#$%^&*()"
  /** The 72 characters a password is drawn from. */
  const Alphabet: string := Capitals + Smalls + DigitsAndSigns

  /** `generatePassword()`, with `draws[i]` the value of
      `Math.floor(Math.random() * chars.length)` in round `i`. */
  function Password(draws: seq<nat>): (p: string)
    requires |draws| == PasswordLength
    requires forall i :: 0 <= i < |draws| ==> draws[i] < |Alphabet|
    ensures |p| == PasswordLength
    ensures forall i :: 0 <= i < |p| ==> p[i] in Alphabet
  {
    seq(PasswordLength, i requires 0 <= i < PasswordLength => Alphabet[draws[i]])
  }

  /** Every twelve-character password over the alphabet is the result of some draws. */
  lemma EveryPasswordDrawable(p: string)
    requires |p| == PasswordLength
    requires forall i :: 0 <= i < |p| ==> p[i] in Alphabet
    ensures exists draws: seq<nat> ::
      |draws| == PasswordLength && (forall i :: 0 <= i < |draws| ==> draws[i] < |Alphabet|)
      && Password(draws) == p
  {
    var draws := seq(PasswordLength, i requires 0 <= i < PasswordLength => Collections.IndexOf(Alphabet, p[i]));
    assert Password(draws) == p;
  }

  // ---------------------------------------------------------------------------
  // Register and login
  // ---------------------------------------------------------------------------

  /** A stored user; the email is kept lower-cased. */
  datatype User = User(
    userId: string, password: string, name: string, email: string, department: string, role: string)

  /** The fields of a registration request. */
  datatype Registration = Registration(name: string, email: string, department: string, role: string)

  /** A reply: its status and the JSON body. The signed token of a login is left out;
      `Session` carries the claims it signs. */
  datatype Reply = Reply(status: nat, body: Body)
  datatype Body =
    | Credentials(userId: string, password: string, message: string)
    | Session(userId: string, department: string, role: string)
    | Problem(error: string)

  const Registered: string := "Registration successful"
  const RegistrationFailed: string := "Registration failed"
  const InvalidCredentials: string := "Invalid credentials"

  function Ids(users: seq<User>): (r: seq<string>)
    ensures |r| == |users| && forall k :: 0 <= k < |users| ==> r[k] == users[k].userId
  {
    seq(|users|, k requires 0 <= k < |users| => users[k].userId)
  }

  /** Saving would break a unique index: the id or the lower-cased email is taken. */
  predicate Clashes(users: seq<User>, u: User) {
    exists k :: 0 <= k < |users| && (users[k].userId == u.userId || users[k].email == u.email)
  }

  /** The user a registration creates, under the id `userId`. */
  function NewUser(r: Registration, userId: string, password: string): User {
    User(userId, password, r.name, ToLower(r.email), r.department, r.role)
  }

  /** The roles the `users` schema admits. */
  const UserRoles: seq<string> := ["employee", "admin"]

  /** The validators of the `users` schema: every field `required` (a string, not empty),
      the department and the role from their `enum` lists. */
  predicate SchemaValid(u: User) {
    && u.userId != "" && u.password != "" && u.name != "" && u.email != ""
    && ParseDepartment(u.department).Some?
    && u.role in UserRoles
  }

  /** The fields of a registration the schema would accept, whatever id and password it gets. */
  predicate Storable(r: Registration) {
    && r.name != "" && r.email != ""
    && ParseDepartment(r.department).Some?
    && r.role in UserRoles
  }

  /** Save `u` and report its credentials, or refuse with status 500 when the schema rejects
      it or it clashes with a stored user. */
  function Save(users: seq<User>, u: User): (result: (Reply, seq<User>))
    ensures !SchemaValid(u) || Clashes(users, u) ==> result == (Reply(500, Problem(RegistrationFailed)), users)
    ensures SchemaValid(u) && !Clashes(users, u) ==>
      result == (Reply(201, Credentials(u.userId, u.password, Registered)), users + [u])
  {
    if !SchemaValid(u) || Clashes(users, u) then (Reply(500, Problem(RegistrationFailed)), users)
    else (Reply(201, Credentials(u.userId, u.password, Registered)), users + [u])
  }

  /** A new user with a non-empty id and password meets the schema exactly when its
      registration is storable. */
  lemma NewUserSchemaValid(r: Registration, userId: string, password: string)
    requires userId != "" && password != ""
    ensures SchemaValid(NewUser(r, userId, password)) <==> Storable(r)
  {
    assert |ToLower(r.email)| == |r.email|;
  }

  /** `register` with the id lookup the source performs. */
  function RegisterAsWritten(users: seq<User>, r: Registration, draws: seq<nat>): (result: (Reply, seq<User>))
    requires |draws| == PasswordLength
    requires forall i :: 0 <= i < |draws| ==> draws[i] < |Alphabet|
    ensures result.0.status == 201 || result.0 == Reply(500, Problem(RegistrationFailed))
  {
    Save(users, NewUser(r, IssueUserIdAsWritten(r.department, Ids(users)), Password(draws)))
  }

  /** With `TEC-999` and `TEC-1000` stored, every Technical registration fails. */
  lemma AsWrittenRegistrationStalls(u999: User, u1000: User, r: Registration, draws: seq<nat>)
    requires u999.userId == "TEC-999" && u1000.userId == "TEC-1000"
    requires r.department == "Technical"
    requires |draws| == PasswordLength
    requires forall i :: 0 <= i < |draws| ==> draws[i] < |Alphabet|
    ensures RegisterAsWritten([u999, u1000], r, draws).0 == Reply(500, Problem(RegistrationFailed))
  {
    var users := [u999, u1000];
    assert Ids(users) == ["TEC-999", "TEC-1000"];
    AsWrittenRepeatsAfter999();
    var u := NewUser(r, IssueUserIdAsWritten(r.department, Ids(users)), Password(draws));
    assert u.userId == "TEC-1000";
    assert Clashes(users, u) by {
      assert users[1].userId == u.userId;
    }
  }

  /** `register` choosing the id after the numerically highest one. */
  function Register(users: seq<User>, r: Registration, draws: seq<nat>): (result: (Reply, seq<User>))
    requires |draws| == PasswordLength
    requires forall i :: 0 <= i < |draws| ==> draws[i] < |Alphabet|
    ensures result.0.status == 201 || result.0 == Reply(500, Problem(RegistrationFailed))
    ensures result.0.status == 201 ==> result.0.body.Credentials? && result.0.body.password == Password(draws)
  {
    Save(users, NewUser(r, IssueUserId(r.department, Ids(users)), Password(draws)))
  }

  /** No stored user has the id a registration is given. */
  lemma IssuedIdUnused(users: seq<User>, department: string)
    ensures forall k :: 0 <= k < |users| ==> users[k].userId != IssueUserId(department, Ids(users))
  {
    IssuedUserIdIsFresh(department, Ids(users));
    forall k | 0 <= k < |users| ensures users[k].userId != IssueUserId(department, Ids(users)) {
      assert Ids(users)[k] == users[k].userId;
    }
  }

  /** A registration succeeds exactly when the schema accepts its fields and its lower-cased
      email is not yet stored: the issued id never clashes. */
  lemma RegisterFailsOnlyOnEmail(users: seq<User>, r: Registration, draws: seq<nat>)
    requires |draws| == PasswordLength
    requires forall i :: 0 <= i < |draws| ==> draws[i] < |Alphabet|
    ensures Register(users, r, draws).0.status == 201 <==>
      Storable(r) && forall k :: 0 <= k < |users| ==> users[k].email != ToLower(r.email)
  {
    var id := IssueUserId(r.department, Ids(users));
    var u := NewUser(r, id, Password(draws));
    assert |id| > 0 by {
      assert HasCode(id, CodeText(r.department));
    }
    NewUserSchemaValid(r, id, Password(draws));
    IssuedIdUnused(users, r.department);
    assert Clashes(users, u) <==> exists k :: 0 <= k < |users| && users[k].email == u.email;
  }

  /** No two stored users share an id. */
  predicate UniqueIds(users: seq<User>) {
    forall i, j :: 0 <= i < j < |users| ==> users[i].userId != users[j].userId
  }

  /** Registering keeps ids unique and adds at most the one new user. */
  lemma RegisterKeepsIdsUnique(users: seq<User>, r: Registration, draws: seq<nat>)
    requires |draws| == PasswordLength
    requires forall i :: 0 <= i < |draws| ==> draws[i] < |Alphabet|
    requires UniqueIds(users)
    ensures var (reply, after) := Register(users, r, draws);
      && UniqueIds(after)
      && after[..|users|] == users
      && |after| == (if reply.status == 201 then |users| + 1 else |users|)
  {
    var u := NewUser(r, IssueUserId(r.department, Ids(users)), Password(draws));
    IssuedIdUnused(users, r.department);
    if SchemaValid(u) && !Clashes(users, u) {
      AppendKeepsUnique(users, u);
    }
  }

  lemma AppendKeepsUnique(users: seq<User>, u: User)
    requires UniqueIds(users)
    requires forall k :: 0 <= k < |users| ==> users[k].userId != u.userId
    ensures UniqueIds(users + [u]) && (users + [u])[..|users|] == users
  {
    var all := users + [u];
    assert forall k :: 0 <= k < |users| ==> all[k] == users[k];
  }

  /** `User.findOne({ userId })`: the first stored user with that id. */
  function FindUser(users: seq<User>, userId: string): (r: Option<User>)
    ensures r.None? <==> forall k :: 0 <= k < |users| ==> users[k].userId != userId
    ensures r.Some? ==>
      exists k :: 0 <= k < |users| && users[k] == r.value && r.value.userId == userId && forall j :: 0 <= j < k ==> users[j].userId != userId
  {
    if |users| == 0 then None
    else if users[0].userId == userId then Some(users[0])
    else
      var r := FindUser(users[1..], userId);
      assert forall k :: 1 <= k < |users| ==> users[k] == users[1..][k - 1];
      r
  }

  /** `login`: an unknown id and a wrong password give the same refusal. */
  function Login(users: seq<User>, userId: string, password: string): (reply: Reply)
    ensures reply.status == 200 || reply == Reply(401, Problem(InvalidCredentials))
    ensures reply.status == 200 <==> FindUser(users, userId).Some? && FindUser(users, userId).value.password == password
    ensures reply.status == 200 ==> reply.body.Session? && reply.body.userId == userId
    ensures reply.status == 200 ==>
      && reply.body.department == FindUser(users, userId).value.department
      && reply.body.role == FindUser(users, userId).value.role
  {
    match FindUser(users, userId)
    case None => Reply(401, Problem(InvalidCredentials))
    case Some(u) =>
      if u.password != password then Reply(401, Problem(InvalidCredentials))
      else Reply(200, Session(u.userId, u.department, u.role))
  }

  /** After a successful registration, looking up the reported id finds the new user,
      holding the reported password. */
  lemma RegisteredUserFound(users: seq<User>, r: Registration, draws: seq<nat>)
    requires |draws| == PasswordLength
    requires forall i :: 0 <= i < |draws| ==> draws[i] < |Alphabet|
    requires Register(users, r, draws).0.status == 201
    ensures var (reply, after) := Register(users, r, draws);
      FindUser(after, reply.body.userId) == Some(NewUser(r, reply.body.userId, Password(draws)))
  {
    var u := NewUser(r, IssueUserId(r.department, Ids(users)), Password(draws));
    assert !Clashes(users, u);
    FindAppended(users, u);
  }

  lemma FindAppended(users: seq<User>, u: User)
    requires forall k :: 0 <= k < |users| ==> users[k].userId != u.userId
    ensures FindUser(users + [u], u.userId) == Some(u)
  {
    var all := users + [u];
    assert all[|users|] == u;
    assert forall k :: 0 <= k < |users| ==> all[k] == users[k];
  }

  /** The credentials a successful registration reports sign the new user in, with the
      department and role it registered. */
  lemma RegisteredCredentialsLogIn(users: seq<User>, r: Registration, draws: seq<nat>)
    requires |draws| == PasswordLength
    requires forall i :: 0 <= i < |draws| ==> draws[i] < |Alphabet|
    requires Register(users, r, draws).0.status == 201
    ensures var (reply, after) := Register(users, r, draws);
      Login(after, reply.body.userId, reply.body.password) == Reply(200, Session(reply.body.userId, r.department, r.role))
  {
    RegisteredUserFound(users, r, draws);
  }

  /** A password other than the found user's is refused. */
  lemma FoundOtherPasswordRefused(users: seq<User>, userId: string, password: string)
    requires FindUser(users, userId).Some? && FindUser(users, userId).value.password != password
    ensures Login(users, userId, password) == Reply(401, Problem(InvalidCredentials))
  {
  }

  /** Only the stored password signs a user in. */
  lemma OtherPasswordRefused(users: seq<User>, u: User, password: string)
    requires UniqueIds(users) && u in users && password != u.password
    ensures Login(users, u.userId, password) == Reply(401, Problem(InvalidCredentials))
  {
  }
}

=== FILE: agent_search.dfy ===
/**
  The search of the agent dashboard, without its page work. Each card of the page is
  an agent group: a category taken from its class list and the agents listed on it,
  each written `name - description`. A search yields which groups stay visible.
 */
module AgentSearch {

  import opened Wrappers
  import opened Text
  import opened Collections

  /** An agent group card as the search reads it: the texts of its title, role and
      description elements (`None` when absent), its class list, and the text and
      `href` of each agent element. */
  datatype Card = Card(
    title: Option<string>,
    role: Option<string>,
    description: Option<string>,
    classes: set<string>,
    agentElements: seq<(string, Option<string>)>)

  datatype Agent = Agent(name: string, description: string, href: Option<string>)

  datatype Group = Group(
    title: string,
    role: string,
    description: string,
    category: string,
    agents: seq<Agent>,
    searchableText: string)

  // ---------------------------------------------------------------------------
  // Reading a card
  // ---------------------------------------------------------------------------

  /** The categories tried, in order. */
  const CategoryOrder: seq<string> := ["technical", "financial", "canopy", "universal"]
  const OtherCategory: string := "other"

  /** The first category of `CategoryOrder` on the card, else `other`. */
  function Category(classes: set<string>): (r: string)
    ensures r == OtherCategory <==> forall k :: 0 <= k < |CategoryOrder| ==> CategoryOrder[k] !in classes
    ensures r != OtherCategory ==>
      exists k :: 0 <= k < |CategoryOrder| && CategoryOrder[k] == r && r in classes
        && forall j :: 0 <= j < k ==> CategoryOrder[j] !in classes
  {
    FindFirst(CategoryOrder, c => c in classes).GetOr(OtherCategory)
  }

  /** `el?.textContent.trim() || ''`. */
  function TextOf(element: Option<string>): (r: string)
    ensures IsTrimmed(r)
    ensures element.None? ==> r == ""
  {
    match element
    case None => ""
    case Some(t) => Trim(t)
  }

  const Dash: string := " - "

  /** An agent's text split at `" - "`: the trimmed first piece is the name, the trimmed
      second piece (or nothing) the description; later pieces are dropped. */
  function SplitAgent(text: string): (r: (string, string))
    ensures IsTrimmed(r.0) && IsTrimmed(r.1)
  {
    var parts := SplitOn(Trim(text), Dash);
    (Trim(parts[0]), if |parts| >= 2 then Trim(parts[1]) else "")
  }

  /** No `" - "` starts inside `s`. */
  predicate HasNoSeparator(s: string) {
    NoSeparatorBefore(s, Dash, |s|)
  }

  /** A name that a following `" - "` cannot be found inside of: it holds no separator and
      does not end in `" -"`. */
  predicate EndsClear(name: string) {
    HasNoSeparator(name) && !(|name| >= 2 && name[|name| - 2..] == " -")
  }

  /** In `name + " - " + description`, no separator starts inside the name. */
  lemma NameHoldsNoSeparator(name: string, description: string)
    requires IsTrimmed(name) && EndsClear(name)
    ensures NoSeparatorBefore(name + Dash + description, Dash, |name|)
  {
    var s := name + Dash + description;
    forall i | 0 <= i < |name| && i <= |s|
      ensures !StartsWith(s[i..], Dash)
    {
      if i + |Dash| <= |name| {
        assert s[i..][..|Dash|] == name[i..][..|Dash|];
        assert !StartsWith(name[i..], Dash);
      } else if i == |name| - 1 {
        assert s[i..][0] == name[|name| - 1];
      } else {
        assert i == |name| - 2;
        assert s[i..][..|Dash|] == [name[i], name[i + 1], ' '];
        assert name[|name| - 2..] == [name[i], name[i + 1]];
      }
    }
  }

  /** Splitting `name - description` at the dash, when the name is clear of a separator
      at its end and the description holds none, gives the two sides. */
  lemma SplitAtDash(name: string, description: string)
    requires IsTrimmed(name) && EndsClear(name) && HasNoSeparator(description)
    ensures SplitOn(name + Dash + description, Dash) == [name, description]
  {
    NameHoldsNoSeparator(name, description);
    SplitOnFirst(name, Dash, description);
    SplitOnNone(description, Dash);
  }

  /** An agent written `name - description`, both trimmed, with no `" - "` inside either
      and the name not ending in `" -"`, reads back as that name and that description. */
  lemma SplitAgentRoundTrip(name: string, description: string)
    requires IsTrimmed(name) && IsTrimmed(description) && |name| > 0 && |description| > 0
    requires EndsClear(name) && HasNoSeparator(description)
    ensures SplitAgent(name + Dash + description) == (name, description)
  {
    var s := name + Dash + description;
    assert s[0] == name[0] && s[|s| - 1] == description[|description| - 1];
    assert Trim(s) == s;
    SplitAtDash(name, description);
  }

  /** Text without a space holds no separator and does not end in `" -"`. */
  lemma NoSpaceEndsClear(s: string)
    requires ' ' !in s
    ensures EndsClear(s)
  {
    forall i | 0 <= i < |s| && i <= |s| ensures !StartsWith(s[i..], Dash) {
      assert s[i..][0] == s[i];
    }
    if |s| >= 2 {
      assert s[|s| - 2..][0] == s[|s| - 2];
    }
  }

  /** Text without a hyphen holds no separator. */
  lemma NoHyphenNoSeparator(s: string)
    requires '-' !in s
    ensures HasNoSeparator(s)
  {
    forall i | 0 <= i < |s| && i <= |s| ensures !StartsWith(s[i..], Dash) {
      if i + |Dash| <= |s| {
        assert s[i..][1] == s[i + 1];
      }
    }
  }

  /** A hyphenated name such as `Co-Pilot` splits back too. */
  lemma HyphenatedNameRoundTrip()
    ensures SplitAgent("Co-Pilot - Drafts") == ("Co-Pilot", "Drafts")
  {
    var name, description := "Co-Pilot", "Drafts";
    assert name + Dash + description == "Co-Pilot - Drafts";
    NoSpaceEndsClear(name);
    NoHyphenNoSeparator(description);
    SplitAgentRoundTrip(name, description);
  }

  /** `createSearchableText`: the category, then each agent's name and description,
      space-separated and lower-cased. */
  function SearchableText(category: string, agents: seq<Agent>): string {
    var agentTexts := seq(|agents|, k requires 0 <= k < |agents| => agents[k].name + " " + agents[k].description);
    ToLower(category + " " + Join(agentTexts, " "))
  }

  /** One agent element: its text split into name and description, and its `href`, of
      which an empty one counts as none (`href || null`). */
  function ReadAgent(element: (string, Option<string>)): (a: Agent)
    ensures IsTrimmed(a.name) && IsTrimmed(a.description)
    ensures a.href.Some? <==> element.1.Some? && element.1.value != ""
    ensures a.href.Some? ==> a.href == element.1
  {
    var (name, description) := SplitAgent(element.0);
    Agent(name, description, if element.1 == Some("") then None else element.1)
  }

  /** The group of one card. */
  function ExtractGroup(card: Card): (g: Group)
    ensures g.category == Category(card.classes)
    ensures g.searchableText == SearchableText(g.category, g.agents)
    ensures |g.agents| == |card.agentElements|
    ensures forall k :: 0 <= k < |g.agents| ==> g.agents[k] == ReadAgent(card.agentElements[k])
    ensures IsTrimmed(g.title) && IsTrimmed(g.role) && IsTrimmed(g.description)
  {
    var category := Category(card.classes);
    var agents := seq(|card.agentElements|, k requires 0 <= k < |card.agentElements| => ReadAgent(card.agentElements[k]));
    Group(TextOf(card.title), TextOf(card.role), TextOf(card.description), category, agents,
      SearchableText(category, agents))
  }

  /** The search text starts with the lower-cased category, so a query that is part
      of the category finds every group of that category. */
  lemma SearchableTextHasCategory(category: string, agents: seq<Agent>, q: string)
    requires Contains(ToLower(category), q)
    ensures Contains(SearchableText(category, agents), q)
  {
    var agentTexts := seq(|agents|, k requires 0 <= k < |agents| => agents[k].name + " " + agents[k].description);
    var rest := " " + Join(agentTexts, " ");
    ToLowerAppend(category, rest);
    assert category + " " + Join(agentTexts, " ") == category + rest;
    var t := SearchableText(category, agents);
    assert t[..|category|] == ToLower(category);
    ContainsWithin(t, 0, |category|, q);
  }

  // ---------------------------------------------------------------------------
  // Searching
  // ---------------------------------------------------------------------------

  /** The query as searched: lower-cased and trimmed. */
  function Normalized(query: string): (q: string)
    ensures q == "" <==> AllSpace(query)
  {
    LowerKeepsSpace(query);
    Trim(ToLower(query))
  }

  /** A group is a result when its category passes the filter and its text contains
      the query. */
  predicate Selected(g: Group, q: string, filter: string) {
    (filter == "all" || g.category == filter) && Contains(g.searchableText, q)
  }

  /** After a search: every card visible (a blank query, whatever the filter), or the
      cards of the results. */
  datatype View = Everything | Results(results: seq<Group>)

  /** `handleSearch(query)` under the category filter `filter`. */
  function HandleSearch(query: string, groups: seq<Group>, filter: string): (v: View)
    ensures v.Everything? <==> AllSpace(query)
    ensures v.Results? ==> forall g :: g in v.results <==> g in groups && Selected(g, Normalized(query), filter)
  {
    var q := Normalized(query);
    if q == "" then Everything
    else Results(Filter(groups, g => Selected(g, q, filter)))
  }

  predicate Visible(v: View, g: Group) {
    v.Everything? || g in v.results
  }

  predicate NoResultsShown(v: View) {
    v.Results? && |v.results| == 0
  }

  /** A blank query shows every card, whatever the filter; any other shows a card
      exactly when its group is selected, and the message appears exactly when no
      group is. */
  lemma SearchVisibility(query: string, groups: seq<Group>, filter: string, g: Group)
    requires g in groups
    ensures var v := HandleSearch(query, groups, filter);
      && (AllSpace(query) ==> Visible(v, g))
      && (!AllSpace(query) ==> (Visible(v, g) <==> Selected(g, Normalized(query), filter)))
      && (NoResultsShown(v) <==> !AllSpace(query) && forall h :: h in groups ==> !Selected(h, Normalized(query), filter))
  {
    var v := HandleSearch(query, groups, filter);
    if v.Results? && |v.results| > 0 {
      assert v.results[0] in v.results;
    }
  }

  // ---------------------------------------------------------------------------
  // Lookups and suggestions
  // ---------------------------------------------------------------------------

  /** `getAllAgents`: the agents of every group, group by group. */
  function AllAgents(groups: seq<Group>): (r: seq<Agent>)
    ensures forall a :: a in r <==> exists g :: g in groups && a in g.agents
  {
    if |groups| == 0 then []
    else
      var rest := AllAgents(groups[1..]);
      assert forall g :: g in groups <==> g == groups[0] || g in groups[1..];
      groups[0].agents + rest
  }

  /** `findAgent(name)`: the first agent whose name equals the argument, ignoring case. */
  function FindAgent(name: string, groups: seq<Group>): (r: Option<Agent>)
    ensures r.Some? ==> r.value in AllAgents(groups) && ToLower(r.value.name) == ToLower(name)
    ensures r.None? <==> forall a :: a in AllAgents(groups) ==> ToLower(a.name) != ToLower(name)
    ensures r.Some? ==>
      exists k :: 0 <= k < |AllAgents(groups)| && AllAgents(groups)[k] == r.value &&
        forall j :: 0 <= j < k ==> ToLower(AllAgents(groups)[j].name) != ToLower(name)
  {
    FindFirst(AllAgents(groups), (a: Agent) => ToLower(a.name) == ToLower(name))
  }

  /** `findAgentsByRole(role)`: the agents whose description contains the role, ignoring
      case, in order. */
  function FindAgentsByRole(role: string, groups: seq<Group>): (r: seq<Agent>)
    ensures forall a :: a in r <==> a in AllAgents(groups) && Contains(ToLower(a.description), ToLower(role))
    ensures IsSubsequence(r, AllAgents(groups))
    ensures forall a ::
      Count(r, a) == if Contains(ToLower(a.description), ToLower(role)) then Count(AllAgents(groups), a) else 0
  {
    var holds := (a: Agent) => Contains(ToLower(a.description), ToLower(role));
    FilterInOrder(AllAgents(groups), holds);
    Filter(AllAgents(groups), holds)
  }

  /** The texts suggestions are drawn from: per group its lower-cased category, then
      `name description` of each agent, lower-cased. */
  function SuggestionTexts(groups: seq<Group>): seq<string> {
    if |groups| == 0 then []
    else
      var g := groups[0];
      [ToLower(g.category)]
        + seq(|g.agents|, k requires 0 <= k < |g.agents| => ToLower(g.agents[k].name) + " " + ToLower(g.agents[k].description))
        + SuggestionTexts(groups[1..])
  }

  const MaxSuggestions: nat := 5

  /** The texts that contain `q`. */
  function Containing(q: string): string -> bool {
    t => Contains(t, q)
  }

  /** The first five of `texts` that contain `q`: the texts containing it, in order and
      with repeats, cut off after five. */
  function FirstContaining(texts: seq<string>, q: string): (r: seq<string>)
    ensures |r| <= MaxSuggestions
    ensures forall k :: 0 <= k < |r| ==> Contains(r[k], q) && r[k] in texts
    ensures var all := Filter(texts, Containing(q));
      && |r| == (if |all| <= MaxSuggestions then |all| else MaxSuggestions)
      && r == all[..|r|]
  {
    var r := Take(Filter(texts, Containing(q)), MaxSuggestions);
    assert forall k :: 0 <= k < |r| ==> r[k] in Filter(texts, Containing(q));
    r
  }

  /** `generateSuggestions(query)`: the first five texts containing the normalized query;
      repeated texts are kept. */
  function GenerateSuggestions(query: string, groups: seq<Group>): (r: seq<string>)
    ensures |r| <= MaxSuggestions
    ensures forall k :: 0 <= k < |r| ==> Contains(r[k], Normalized(query)) && r[k] in SuggestionTexts(groups)
    ensures var all := Filter(SuggestionTexts(groups), Containing(Normalized(query)));
      && |r| == (if |all| <= MaxSuggestions then |all| else MaxSuggestions)
      && r == all[..|r|]
  {
    FirstContaining(SuggestionTexts(groups), Normalized(query))
  }

  /** Fewer than five suggestions means every text containing the query was suggested. */
  lemma SuggestionsComplete(query: string, groups: seq<Group>, t: string)
    requires |GenerateSuggestions(query, groups)| < MaxSuggestions
    requires t in SuggestionTexts(groups) && Contains(t, Normalized(query))
    ensures t in GenerateSuggestions(query, groups)
  {
    var q := Normalized(query);
    assert t in Filter(SuggestionTexts(groups), Containing(q));
  }

  /** A group without agents contributes only its lower-cased category. */
  lemma SuggestionTextsOfAgentless(g: Group, rest: seq<Group>)
    requires g.agents == []
    ensures SuggestionTexts([g] + rest) == [ToLower(g.category)] + SuggestionTexts(rest)
  {
    assert ([g] + rest)[1..] == rest;
  }

  /** Two groups without agents contribute their category twice. */
  lemma AgentlessPairTexts(g: Group)
    requires g.agents == []
    ensures SuggestionTexts([g, g]) == [ToLower(g.category), ToLower(g.category)]
  {
    assert [g] + [] == [g] && [g] + [g] == [g, g];
    SuggestionTextsOfAgentless(g, []);
    SuggestionTextsOfAgentless(g, [g]);
  }

  /** Two groups of the same category with no agents, when the category holds the query,
      suggest that category twice: repeats are not removed. */
  lemma SuggestionsKeepRepeats(g: Group, query: string)
    requires g.agents == [] && Contains(ToLower(g.category), Normalized(query))
    ensures var c := ToLower(g.category); GenerateSuggestions(query, [g, g]) == [c, c]
  {
    AgentlessPairTexts(g);
    PairContaining(ToLower(g.category), Normalized(query));
  }

  /** A text that contains the query, given twice, is kept twice. */
  lemma PairContaining(c: string, q: string)
    requires Contains(c, q)
    ensures FirstContaining([c, c], q) == [c, c]
  {
    FilterAll([c, c], Containing(q));
  }
}

=== FILE: analysis.dfy ===
/**
  `ScraperManager.analyzeResults`: the summary of a batch of listings — how many
  there are, the ten most frequent skills, locations and companies, and the number
  of listings per salary bucket of width 10000, lowest bucket first.
 */
module Analysis {

  import opened Wrappers
  import opened Text
  import opened Collections
  import opened Listings

  /** How many entries each ranking keeps. */
  const TopCount: nat := 10
  /** Width of a salary bucket. */
  const BucketWidth: nat := 10000

  /** A counter read back as `[key, count]` pairs. */
  type Entries = seq<(string, nat)>

  datatype Insights = Insights(
    topSkills: Entries,
    salaryRanges: Entries,
    locations: Entries,
    companies: Entries)

  datatype Summary = Summary(totalJobs: nat, insights: Insights)

  /** What `analyzeResults(jobs)` returns: the listings and their summary. */
  datatype Results = Results(jobs: seq<Job>, analysis: Summary)

  // ---------------------------------------------------------------------------
  // Rankings: count, sort by descending count, keep the first ten
  // ---------------------------------------------------------------------------

  /** Sorting with `(a, b) => b[1] - a[1]` is sorting by ascending negated count. */
  function DescendingCount(e: (string, nat)): int {
    -(e.1 as int)
  }

  predicate NonIncreasing(t: Entries) {
    forall i, j :: 0 <= i < j < |t| ==> t[i].1 >= t[j].1
  }

  /** The counter of `xs`, sorted by descending count (ties in first-seen order). */
  function SortedTally(xs: seq<string>): (r: Entries)
    ensures multiset(r) == multiset(TallyOf(xs))
    ensures |r| == |Dedupe(xs)|
    ensures NonIncreasing(r)
  {
    var r := SortBy(TallyOf(xs), DescendingCount);
    PermutationLength(r, TallyOf(xs));
    r
  }

  /** Equal counts keep the order in which their values were first seen in `xs`. */
  lemma SortedTallyTiesInFirstSeenOrder(xs: seq<string>)
    ensures forall i, j :: 0 <= i < j < |SortedTally(xs)| && SortedTally(xs)[i].1 == SortedTally(xs)[j].1 ==>
      FirstSeen(xs, SortedTally(xs)[i].0) < FirstSeen(xs, SortedTally(xs)[j].0)
  {
    var t := TallyOf(xs);
    var rank := (e: (string, nat)) => FirstSeen(xs, e.0);
    TallyInFirstSeenOrder(xs, rank);
    SortByStable(t, DescendingCount, rank);
  }

  /** A tally lists its keys in the order they were first seen. */
  lemma TallyInFirstSeenOrder(xs: seq<string>, rank: ((string, nat)) -> int)
    requires forall e :: rank(e) == FirstSeen(xs, e.0)
    ensures forall i, j :: 0 <= i < j < |TallyOf(xs)| ==> rank(TallyOf(xs)[i]) < rank(TallyOf(xs)[j])
  {
    var t := TallyOf(xs);
    var d := Dedupe(xs);
    DedupeKeepsFirstOccurrenceOrder(xs);
    forall i, j | 0 <= i < j < |t| ensures rank(t[i]) < rank(t[j]) {
      assert KeysOf(t)[i] == t[i].0 && KeysOf(t)[j] == t[j].0;
      assert d[i] in xs && d[j] in xs;
    }
  }

  /** Each entry pairs a value of `xs` with its number of occurrences there. */
  predicate ExactCounts(t: Entries, xs: seq<string>) {
    forall i :: 0 <= i < |t| ==> t[i].0 in xs && t[i].1 == Count(xs, t[i].0)
  }

  /** `Object.entries(counter).sort(byCountDescending).slice(0, 10)`. */
  function TopOf(xs: seq<string>): seq<(string, nat)> {
    Take(SortedTally(xs), TopCount)
  }

  /** A ranking holds the (at most) ten most frequent distinct values with their exact
      counts, most frequent first, and values of equal count in the order they were
      first seen. */
  lemma TopOfRanks(xs: seq<string>)
    ensures |TopOf(xs)| == if |Dedupe(xs)| <= TopCount then |Dedupe(xs)| else TopCount
    ensures NonIncreasing(TopOf(xs))
    ensures DistinctKeys(TopOf(xs))
    ensures ExactCounts(TopOf(xs), xs)
    ensures forall i, j :: 0 <= i < j < |TopOf(xs)| && TopOf(xs)[i].1 == TopOf(xs)[j].1 ==>
      FirstSeen(xs, TopOf(xs)[i].0) < FirstSeen(xs, TopOf(xs)[j].0)
  {
    TopOfShape(xs);
    TopOfTies(xs);
  }

  lemma TopOfTies(xs: seq<string>)
    ensures forall i, j :: 0 <= i < j < |TopOf(xs)| && TopOf(xs)[i].1 == TopOf(xs)[j].1 ==>
      FirstSeen(xs, TopOf(xs)[i].0) < FirstSeen(xs, TopOf(xs)[j].0)
  {
    SortedTallyTiesInFirstSeenOrder(xs);
    var s := SortedTally(xs);
    assert TopOf(xs) == s[..|TopOf(xs)|];
  }

  lemma TopOfShape(xs: seq<string>)
    ensures |TopOf(xs)| == if |Dedupe(xs)| <= TopCount then |Dedupe(xs)| else TopCount
    ensures NonIncreasing(TopOf(xs))
    ensures DistinctKeys(TopOf(xs))
    ensures ExactCounts(TopOf(xs), xs)
  {
    var s := SortedTally(xs);
    PermutedTallyDistinct(xs, s);
    TakeDistinctKeys(s, TopCount);
    var r := Take(s, TopCount);
    forall i | 0 <= i < |r| ensures r[i].0 in xs && r[i].1 == Count(xs, r[i].0) {
      PermutedTallyEntry(xs, s, i);
    }
  }

  /** Nothing left out of a ranking is more frequent than anything in it: a value that
      misses the ranking only does so when the ranking is full of values at least as
      frequent. */
  lemma TopOfComplete(xs: seq<string>, x: string)
    requires x in xs && x !in KeysOf(TopOf(xs))
    ensures |TopOf(xs)| == TopCount
    ensures forall i :: 0 <= i < TopCount ==> Count(xs, x) <= TopOf(xs)[i].1
  {
    var s := SortedTally(xs);
    var r := TopOf(xs);
    assert r == Take(s, TopCount);
    PermutedTallyHas(xs, s, x);
    var m :| 0 <= m < |s| && s[m] == (x, Count(xs, x));
    forall i | 0 <= i < |r| ensures r[i] == s[i] && r[i].0 != x {
      assert KeysOf(r)[i] == r[i].0;
    }
    assert m >= |r|;
    assert |r| == TopCount;
    forall i | 0 <= i < TopCount ensures Count(xs, x) <= r[i].1 {
      assert r[i] == s[i];
      assert i < m;
      assert s[i].1 >= s[m].1;
    }
  }

  /** A value that occurs more often than the tenth entry of a full ranking is ranked. */
  lemma TopOfIncludesFrequent(xs: seq<string>, x: string)
    requires x in xs
    requires |TopOf(xs)| < TopCount || Count(xs, x) > TopOf(xs)[TopCount - 1].1
    ensures x in KeysOf(TopOf(xs))
  {
    if x !in KeysOf(TopOf(xs)) {
      TopOfComplete(xs, x);
      assert false;
    }
  }

  // ---------------------------------------------------------------------------
  // Salary buckets
  // ---------------------------------------------------------------------------

  /** A character of `[\d,\.]`. */
  predicate SalaryChar(c: char) {
    IsDigit(c) || c == ',' || c == '.'
  }

  /** End of the run of `[\d,\.]` characters that starts at `i`. */
  function RunEnd(s: string, i: nat): (e: nat)
    requires i <= |s|
    ensures i <= e <= |s|
    ensures forall k :: i <= k < e ==> SalaryChar(s[k])
    ensures e == |s| || !SalaryChar(s[e])
    decreases |s| - i
  {
    if i < |s| && SalaryChar(s[i]) then RunEnd(s, i + 1) else i
  }

  /** End of the run of white space that starts at `i`. */
  function SpaceEnd(s: string, i: nat): (e: nat)
    requires i <= |s|
    ensures i <= e <= |s|
    ensures forall k :: i <= k < e ==> IsSpace(s[k])
    ensures e == |s| || !IsSpace(s[e])
    decreases |s| - i
  {
    if i < |s| && IsSpace(s[i]) then SpaceEnd(s, i + 1) else i
  }

  /** `/(\d+[\d,\.]*)\s*-\s*(\d+[\d,\.]*)/` matches at `i`. A shorter first group or
      fewer spaces would leave a character that is neither white space nor `-`, so the
      match uses the whole run and all the spaces. */
  predicate RangeAt(s: string, i: nat) {
    && i < |s| && IsDigit(s[i])
    && var d := SpaceEnd(s, RunEnd(s, i));
    && d < |s| && s[d] == '-'
    && var f := SpaceEnd(s, d + 1);
    && f < |s| && IsDigit(s[f])
  }

  /** The leftmost position from `i` on where the range pattern matches. */
  function FirstRange(s: string, i: nat): (r: Option<nat>)
    requires i <= |s|
    ensures r.Some? ==> i <= r.value < |s| && RangeAt(s, r.value)
    ensures r.Some? ==> forall k :: i <= k < r.value ==> !RangeAt(s, k)
    ensures r.None? ==> forall k :: i <= k < |s| ==> !RangeAt(s, k)
    decreases |s| - i
  {
    if i == |s| then None
    else if RangeAt(s, i) then Some(i)
    else FirstRange(s, i + 1)
  }

  /** The leftmost digit from `i` on: where `/(\d+[\d,\.]*)/` matches. */
  function FirstDigit(s: string, i: nat): (r: Option<nat>)
    requires i <= |s|
    ensures r.Some? ==> i <= r.value < |s| && IsDigit(s[r.value])
    ensures r.Some? ==> forall k :: i <= k < r.value ==> !IsDigit(s[k])
    ensures r.None? ==> forall k :: i <= k < |s| ==> !IsDigit(s[k])
    decreases |s| - i
  {
    if i == |s| then None
    else if IsDigit(s[i]) then Some(i)
    else FirstDigit(s, i + 1)
  }

  predicate HasDigit(s: string) {
    exists k :: 0 <= k < |s| && IsDigit(s[k])
  }

  /** Somewhere in `s` the range pattern matches. */
  predicate HasRange(s: string) {
    exists k :: 0 <= k < |s| && RangeAt(s, k)
  }

  /** `i` is where the range pattern first matches. */
  predicate LeftmostRange(s: string, i: nat) {
    i < |s| && RangeAt(s, i) && forall k :: 0 <= k < i ==> !RangeAt(s, k)
  }

  /** `i` is the first digit of `s`. */
  predicate LeftmostDigit(s: string, i: nat) {
    i < |s| && IsDigit(s[i]) && forall k :: 0 <= k < i ==> !IsDigit(s[k])
  }

  /** Where the minimum salary starts: at the leftmost match of the range pattern when
      there is one, else at the leftmost digit. */
  function MinSalaryStart(s: string): (i: Option<nat>)
    ensures i.Some? <==> HasDigit(s)
    ensures HasRange(s) ==> i.Some? && LeftmostRange(s, i.value)
    ensures !HasRange(s) && i.Some? ==> LeftmostDigit(s, i.value)
  {
    match FirstRange(s, 0)
    case Some(i) => Some(i)
    case None => FirstDigit(s, 0)
  }

  /** The first capture group of the range pattern, or else of the single-number
      pattern: the whole run of `[\d,\.]` from where the minimum salary starts. */
  function MinSalaryText(s: string): (r: Option<string>)
    ensures r.Some? <==> HasDigit(s)
    ensures r.Some? ==> |r.value| > 0 && IsDigit(r.value[0])
    ensures r.Some? ==> forall k :: 0 <= k < |r.value| ==> SalaryChar(r.value[k])
  {
    match FirstRange(s, 0)
    case Some(i) => Some(s[i..RunEnd(s, i)])
    case None =>
      match FirstDigit(s, 0)
      case Some(i) => Some(s[i..RunEnd(s, i)])
      case None => None
  }

  /** The minimum salary's text is the longest run of `[\d,\.]` from where it starts. */
  lemma MinSalaryTextFromStart(s: string)
    requires HasDigit(s)
    ensures MinSalaryStart(s).Some? && MinSalaryText(s).Some?
    ensures var i := MinSalaryStart(s).value; MinSalaryText(s).value == s[i..RunEnd(s, i)]
  {
  }

  /** A character `/[^0-9.]/` does not match. */
  predicate DigitOrDot(c: char) {
    IsDigit(c) || c == '.'
  }

  /** `.replace(/[^0-9.]/g, '')`. */
  function KeepDigitsAndDots(s: string): (r: string)
    ensures forall k :: 0 <= k < |r| ==> DigitOrDot(r[k])
    ensures |s| > 0 && IsDigit(s[0]) ==> |r| > 0 && r[0] == s[0]
  {
    if |s| == 0 then ""
    else (if DigitOrDot(s[0]) then [s[0]] else []) + KeepDigitsAndDots(s[1..])
  }

  /** Removing every other character keeps the digits and dots, in order, and nothing else. */
  lemma {:induction false} KeepDigitsAndDotsFilters(s: string)
    ensures KeepDigitsAndDots(s) == Filter(s, DigitOrDot)
  {
    if |s| > 0 {
      KeepDigitsAndDotsFilters(s[1..]);
      FilterCons(s, DigitOrDot);
    }
  }

  /** The minimum salary a salary text states, rounded down to a whole number: the
      whole part of `parseFloat` of its first number with commas removed. `None` when
      the text is empty or has no digit. */
  function MinimumSalary(salary: string): (m: Option<nat>)
    ensures m.Some? <==> HasDigit(salary)
  {
    match MinSalaryText(salary)
    case None => None
    case Some(t) => Some(DigitsValue(LeadingDigits(KeepDigitsAndDots(t))))
  }

  /** The minimum salary is the whole number the digits and dots of the run of
      `[\d,\.]` at the minimum's start spell: the leftmost range's start, else the
      leftmost digit. */
  lemma MinimumSalaryOfRun(s: string)
    requires HasDigit(s)
    ensures MinSalaryStart(s).Some?
    ensures var i := MinSalaryStart(s).value;
      MinimumSalary(s) == Some(DigitsValue(LeadingDigits(Filter(s[i..RunEnd(s, i)], DigitOrDot))))
  {
    MinSalaryTextFromStart(s);
    KeepDigitsAndDotsFilters(MinSalaryText(s).value);
  }

  /** `Math.floor(min / 10000) * 10000`: the bucket a listing's salary falls into. */
  function SalaryBucket(salary: string): (b: Option<nat>)
    ensures b.Some? <==> HasDigit(salary)
    ensures b.Some? ==> b.value % BucketWidth == 0
    ensures b.Some? ==> b.value <= MinimumSalary(salary).value < b.value + BucketWidth
  {
    match MinimumSalary(salary)
    case None => None
    case Some(m) => Some(m / BucketWidth * BucketWidth)
  }

  /** The key of a bucket: `${range}-${range + 9999}`. */
  function BucketLabel(origin: nat): string {
    NatToString(origin) + "-" + NatToString(origin + BucketWidth - 1)
  }

  /** `parseInt` of a bucket's key is the bucket's lower end, which is what the bucket
      sort compares. */
  lemma BucketLabelParses(origin: nat)
    ensures ParseLeadingNat(BucketLabel(origin)) == Some(origin)
  {
    var head := NatToString(origin);
    var rest := "-" + NatToString(origin + BucketWidth - 1);
    assert BucketLabel(origin) == head + rest;
    LeadingDigitsPrefix(head, rest);
    NatToStringValue(origin);
  }

  lemma BucketLabelInjective(a: nat, b: nat)
    requires BucketLabel(a) == BucketLabel(b)
    ensures a == b
  {
    BucketLabelParses(a);
    BucketLabelParses(b);
  }

  /** The sort key of a bucket entry: `parseInt` of its key. */
  function BucketOrder(e: (string, nat)): int {
    ParseLeadingNat(e.0).GetOr(0)
  }

  /** `s` starts with the digits of `a` and a `-`. */
  predicate NumberThenDash(a: nat, s: string) {
    var A := NatToString(a);
    |s| > |A| && s[..|A|] == A && s[|A|] == '-'
  }

  /** From any digit of that leading number, the run of `[\d,\.]` ends at the `-`. */
  lemma LeadingNumberRun(a: nat, s: string, k: nat)
    requires NumberThenDash(a, s) && k <= |NatToString(a)|
    ensures RunEnd(s, k) == |NatToString(a)|
  {
    var A := NatToString(a);
    forall m | k <= m < |A| ensures SalaryChar(s[m]) {
      assert s[m] == s[..|A|][m];
    }
    RunEndAt(s, k, |A|);
  }

  /** When the match that decides the minimum starts at the front, the bucket is `a`'s. */
  lemma BucketOfLeadingNumber(a: nat, s: string)
    requires NumberThenDash(a, s)
    requires FirstRange(s, 0) == Some(0) || FirstRange(s, 0).None?
    ensures SalaryBucket(s) == Some(a / BucketWidth * BucketWidth)
  {
    var A := NatToString(a);
    LeadingNumberRun(a, s, 0);
    assert s[0] == A[0];
    if FirstRange(s, 0).None? {
      assert FirstDigit(s, 0) == Some(0);
    }
    assert MinSalaryText(s) == Some(A);
    KeepDigitsOnly(A);
    LeadingDigitsOfDigits(A);
    NatToStringValue(a);
  }

  /** A salary the first pattern reads as a range `min-max` falls in the bucket of its
      minimum, whatever follows the maximum. */
  lemma RangeSalaryBucket(a: nat, b: nat, tail: string)
    ensures SalaryBucket(NatToString(a) + "-" + NatToString(b) + tail) == Some(a / BucketWidth * BucketWidth)
  {
    var A := NatToString(a);
    var s := A + "-" + NatToString(b) + tail;
    assert s[..|A|] == A && s[|A|] == '-';
    LeadingNumberRun(a, s, 0);
    assert SpaceEnd(s, |A|) == |A|;
    assert s[|A| + 1] == NatToString(b)[0];
    assert SpaceEnd(s, |A| + 1) == |A| + 1;
    assert RangeAt(s, 0);
    BucketOfLeadingNumber(a, s);
  }

  /** A salary `min-` followed by text without digits falls in the bucket of `min`. */
  lemma OpenRangeSalaryBucket(a: nat, tail: string)
    requires !HasDigit(tail)
    ensures SalaryBucket(NatToString(a) + "-" + tail) == Some(a / BucketWidth * BucketWidth)
  {
    var A := NatToString(a);
    var s := A + "-" + tail;
    assert s[..|A|] == A && s[|A|] == '-';
    forall k | 0 <= k < |s| ensures !RangeAt(s, k) {
      if k < |A| {
        NoRangeInLeadingNumber(a, tail, k);
      } else if k > |A| {
        assert s[k] == tail[k - |A| - 1];
      }
    }
    BucketOfLeadingNumber(a, s);
  }

  /** No range starts inside the leading number when nothing after its `-` is a digit. */
  lemma NoRangeInLeadingNumber(a: nat, tail: string, k: nat)
    requires !HasDigit(tail) && k < |NatToString(a)|
    ensures !RangeAt(NatToString(a) + "-" + tail, k)
  {
    var A := NatToString(a);
    var s := A + "-" + tail;
    assert s[..|A|] == A && s[|A|] == '-';
    LeadingNumberRun(a, s, k);
    assert SpaceEnd(s, |A|) == |A|;
    var f := SpaceEnd(s, |A| + 1);
    if f < |s| {
      assert s[f] == tail[f - |A| - 1];
    }
  }

  /** A run of `[\d,\.]` from `i` to a character outside the class ends there. */
  lemma {:induction false} RunEndAt(s: string, i: nat, e: nat)
    requires i <= e < |s| && !SalaryChar(s[e])
    requires forall k :: i <= k < e ==> SalaryChar(s[k])
    ensures RunEnd(s, i) == e
    decreases e - i
  {
    if i < e {
      RunEndAt(s, i + 1, e);
    }
  }

  lemma {:induction false} KeepDigitsOnly(s: string)
    requires AllDigits(s)
    ensures KeepDigitsAndDots(s) == s
  {
    if |s| > 0 {
      KeepDigitsOnly(s[1..]);
      assert [s[0]] + s[1..] == s;
    }
  }

  /** Keeping digits and dots works piece by piece. */
  lemma {:induction false} KeepDigitsAndDotsAppend(x: string, y: string)
    ensures KeepDigitsAndDots(x + y) == KeepDigitsAndDots(x) + KeepDigitsAndDots(y)
  {
    if |x| > 0 {
      assert (x + y)[1..] == x[1..] + y;
      KeepDigitsAndDotsAppend(x[1..], y);
    } else {
      assert x + y == y;
    }
  }

  /** A number written with a thousands separator is read with the comma dropped. */
  lemma CommaGroupedMinimum(a: string, b: string)
    requires |a| > 0 && AllDigits(a) && AllDigits(b)
    ensures AllDigits(a + b)
    ensures MinimumSalary(a + "," + b) == Some(DigitsValue(a + b))
  {
    var s := a + "," + b;
    WholeRunText(a, b);
    KeepDropsComma(a, b);
    LeadingDigitsOfDigits(a + b);
  }

  /** Digits, a comma and digits form one run of `[\d,\.]`, which is the minimum's text. */
  lemma WholeRunText(a: string, b: string)
    requires |a| > 0 && AllDigits(a) && AllDigits(b)
    ensures MinSalaryText(a + "," + b) == Some(a + "," + b)
  {
    var s := a + "," + b;
    forall k | 0 <= k < |s| ensures SalaryChar(s[k]) {
      if k > |a| {
        assert s[k] == b[k - |a| - 1];
      } else if k < |a| {
        assert s[k] == a[k];
      }
    }
    assert RunEnd(s, 0) == |s|;
    assert FirstRange(s, 0).None?;
    assert FirstDigit(s, 0) == Some(0);
    assert s[0..|s|] == s;
  }

  /** Keeping digits and dots drops the comma between two runs of digits. */
  lemma KeepDropsComma(a: string, b: string)
    requires AllDigits(a) && AllDigits(b)
    ensures AllDigits(a + b)
    ensures KeepDigitsAndDots(a + "," + b) == a + b
  {
    KeepDigitsAndDotsAppend(a + ",", b);
    KeepDigitsAndDotsAppend(a, ",");
    KeepDigitsOnly(a);
    KeepDigitsOnly(b);
    assert KeepDigitsAndDots(",") == "";
    forall k | 0 <= k < |a + b| ensures IsDigit((a + b)[k]) {
      if k >= |a| {
        assert (a + b)[k] == b[k - |a|];
      } else {
        assert (a + b)[k] == a[k];
      }
    }
  }

  /** `"54,321"` falls in the bucket `50000-59999`. */
  lemma ThousandsSeparatedBucket()
    ensures SalaryBucket("54,321") == Some(50000)
  {
    CommaGroupedMinimum("54", "321");
    assert "54" + "," + "321" == "54,321";
    assert "54" + "321" == "54321";
    assert DigitsValue("54321") == 54321 by {
      assert "54321"[..4] == "5432" && "5432"[..3] == "543" && "543"[..2] == "54" && "54"[..1] == "5";
      assert "5"[..0] == "";
    }
  }

  // ---------------------------------------------------------------------------
  // The columns that are counted
  // ---------------------------------------------------------------------------

  /** Every skill of every listing, listing by listing. */
  function AllSkills(jobs: seq<Job>): (xs: seq<string>)
    ensures forall x :: x in xs <==> exists j :: j in jobs && x in j.skills
  {
    if |jobs| == 0 then []
    else
      var rest := AllSkills(jobs[1..]);
      assert forall j :: j in jobs <==> j == jobs[0] || j in jobs[1..];
      jobs[0].skills + rest
  }

  /** The non-empty locations of the listings, in order. */
  function Locations(jobs: seq<Job>): (xs: seq<string>)
    ensures forall x :: x in xs <==> x != "" && exists j :: j in jobs && j.location == x
  {
    if |jobs| == 0 then []
    else
      var rest := Locations(jobs[1..]);
      assert forall j :: j in jobs <==> j == jobs[0] || j in jobs[1..];
      (if jobs[0].location != "" then [jobs[0].location] else []) + rest
  }

  /** The non-empty company names of the listings, in order. */
  function Companies(jobs: seq<Job>): (xs: seq<string>)
    ensures forall x :: x in xs <==> x != "" && exists j :: j in jobs && j.company == x
  {
    if |jobs| == 0 then []
    else
      var rest := Companies(jobs[1..]);
      assert forall j :: j in jobs <==> j == jobs[0] || j in jobs[1..];
      (if jobs[0].company != "" then [jobs[0].company] else []) + rest
  }

  /** The listings that carry skill `x`. */
  function Carries(x: string): Job -> bool {
    (j: Job) => x in j.skills
  }

  /** The listings at location `x`. */
  function At(x: string): Job -> bool {
    (j: Job) => j.location == x
  }

  /** The listings of company `x`. */
  function Of(x: string): Job -> bool {
    (j: Job) => j.company == x
  }

  /** With no skill listed twice on one listing, a skill is counted once for each
      listing that carries it. */
  lemma {:induction false} AllSkillsCount(jobs: seq<Job>, x: string)
    requires forall k :: 0 <= k < |jobs| ==> NoDups(jobs[k].skills)
    ensures Count(AllSkills(jobs), x) == |Filter(jobs, Carries(x))|
  {
    if |jobs| > 0 {
      AllSkillsCount(jobs[1..], x);
      CountAppend(jobs[0].skills, AllSkills(jobs[1..]), x);
      CountNoDups(jobs[0].skills, x);
    }
  }

  /** A non-empty location is counted once for each listing at it. */
  lemma {:induction false} LocationsCount(jobs: seq<Job>, x: string)
    requires x != ""
    ensures Count(Locations(jobs), x) == |Filter(jobs, At(x))|
  {
    if |jobs| > 0 {
      LocationsCount(jobs[1..], x);
      var head := if jobs[0].location != "" then [jobs[0].location] else [];
      CountAppend(head, Locations(jobs[1..]), x);
      assert Count(head, x) == if jobs[0].location == x then 1 else 0 by {
        if jobs[0].location != "" {
          assert head == [] + [jobs[0].location];
        }
      }
    }
  }

  /** A non-empty company name is counted once for each of its listings. */
  lemma {:induction false} CompaniesCount(jobs: seq<Job>, x: string)
    requires x != ""
    ensures Count(Companies(jobs), x) == |Filter(jobs, Of(x))|
  {
    if |jobs| > 0 {
      CompaniesCount(jobs[1..], x);
      var head := if jobs[0].company != "" then [jobs[0].company] else [];
      CountAppend(head, Companies(jobs[1..]), x);
      assert Count(head, x) == if jobs[0].company == x then 1 else 0 by {
        if jobs[0].company != "" {
          assert head == [] + [jobs[0].company];
        }
      }
    }
  }

  /** A listing whose salary text yields a bucket. */
  predicate Priced(j: Job) {
    HasDigit(j.salary)
  }

  /** The bucket keys of the priced listings, in order. */
  function SalaryLabels(jobs: seq<Job>): (xs: seq<string>)
    ensures |xs| == |Filter(jobs, Priced)|
    ensures forall x :: x in xs ==> exists o: nat :: o % BucketWidth == 0 && x == BucketLabel(o)
  {
    if |jobs| == 0 then []
    else
      var rest := SalaryLabels(jobs[1..]);
      match SalaryBucket(jobs[0].salary)
      case None => rest
      case Some(o) => [BucketLabel(o)] + rest
  }

  /** The `k`-th bucket key is the bucket of the `k`-th priced listing. */
  lemma {:induction false} SalaryLabelsInOrder(jobs: seq<Job>)
    ensures forall k :: 0 <= k < |SalaryLabels(jobs)| ==>
      Priced(Filter(jobs, Priced)[k]) &&
      SalaryLabels(jobs)[k] == BucketLabel(SalaryBucket(Filter(jobs, Priced)[k].salary).value)
  {
    if |jobs| > 0 {
      SalaryLabelsInOrder(jobs[1..]);
      FilterCons(jobs, Priced);
      LabelStep(jobs[0], Filter(jobs[1..], Priced), SalaryLabels(jobs[1..]));
    }
  }

  /** The induction step of `SalaryLabelsInOrder`: one more listing in front. */
  lemma LabelStep(j: Job, P: seq<Job>, L: seq<string>)
    requires |L| == |P|
    requires forall k :: 0 <= k < |L| ==> Priced(P[k]) && L[k] == BucketLabel(SalaryBucket(P[k].salary).value)
    ensures var P' := (if Priced(j) then [j] else []) + P;
      var L' := (match SalaryBucket(j.salary) case None => L case Some(o) => [BucketLabel(o)] + L);
      |L'| == |P'| &&
      forall k :: 0 <= k < |L'| ==> Priced(P'[k]) && L'[k] == BucketLabel(SalaryBucket(P'[k].salary).value)
  {
    if Priced(j) {
      var o := SalaryBucket(j.salary).value;
      var P', L' := [j] + P, [BucketLabel(o)] + L;
      forall k | 0 <= k < |L'| ensures Priced(P'[k]) && L'[k] == BucketLabel(SalaryBucket(P'[k].salary).value) {
        if k > 0 {
          assert P'[k] == P[k - 1] && L'[k] == L[k - 1];
        }
      }
    }
  }

  /** `Object.entries(salaryRanges).sort((a, b) => parseInt(a[0]) - parseInt(b[0]))`:
      every bucket once, with its number of listings, lowest bucket first. */
  function SalaryRanges(jobs: seq<Job>): (r: Entries)
    ensures SortedBy(r, BucketOrder)
    ensures DistinctKeys(r)
    ensures ExactCounts(r, SalaryLabels(jobs))
    ensures SumCounts(r) == |Filter(jobs, Priced)|
  {
    var labels := SalaryLabels(jobs);
    var r := SortBy(TallyOf(labels), BucketOrder);
    PermutedTallyDistinct(labels, r);
    forall i | 0 <= i < |r| ensures r[i].0 in labels && r[i].1 == Count(labels, r[i].0) {
      PermutedTallyEntry(labels, r, i);
    }
    SumCountsTallyOf(labels);
    SumCountsPermutation(TallyOf(labels), r);
    r
  }

  /** Every bucket entry is the key of a bucket of width 10000, and the entries come
      out in strictly ascending order of their lower ends. */
  lemma SalaryRangesAscending(jobs: seq<Job>, i: nat, j: nat)
    requires i < j < |SalaryRanges(jobs)|
    ensures exists a: nat, b: nat ::
      && a % BucketWidth == 0 && b % BucketWidth == 0 && a < b
      && SalaryRanges(jobs)[i].0 == BucketLabel(a) && SalaryRanges(jobs)[j].0 == BucketLabel(b)
  {
    var r := SalaryRanges(jobs);
    var labels := SalaryLabels(jobs);
    assert r[i].0 in labels && r[j].0 in labels;
    var a: nat :| a % BucketWidth == 0 && r[i].0 == BucketLabel(a);
    var b: nat :| b % BucketWidth == 0 && r[j].0 == BucketLabel(b);
    BucketsAscend(r, i, j, a, b);
  }

  /** Two distinct bucket keys in bucket order name ascending lower ends. */
  lemma BucketsAscend(r: Entries, i: nat, j: nat, a: nat, b: nat)
    requires i < j < |r| && SortedBy(r, BucketOrder) && DistinctKeys(r)
    requires r[i].0 == BucketLabel(a) && r[j].0 == BucketLabel(b)
    ensures a < b
  {
    BucketLabelParses(a);
    BucketLabelParses(b);
    assert BucketOrder(r[i]) <= BucketOrder(r[j]);
    assert KeysOf(r)[i] != KeysOf(r)[j];
  }

  // ---------------------------------------------------------------------------
  // analyzeResults
  // ---------------------------------------------------------------------------

  function AnalyzeResults(jobs: seq<Job>): (res: Results)
    ensures res.jobs == jobs && res.analysis.totalJobs == |jobs|
    ensures res.analysis.insights.topSkills == TopOf(AllSkills(jobs))
    ensures res.analysis.insights.locations == TopOf(Locations(jobs))
    ensures res.analysis.insights.companies == TopOf(Companies(jobs))
    ensures res.analysis.insights.salaryRanges == SalaryRanges(jobs)
  {
    Results(jobs, Summary(|jobs|, Insights(
      topSkills := TopOf(AllSkills(jobs)),
      salaryRanges := SalaryRanges(jobs),
      locations := TopOf(Locations(jobs)),
      companies := TopOf(Companies(jobs)))))
  }

  /** Every ranked skill (the `topSkills` of `AnalyzeResults`) is carried by some listing. */
  lemma TopSkillsCarried(jobs: seq<Job>)
    ensures forall i :: 0 <= i < |TopOf(AllSkills(jobs))| ==> exists j :: j in jobs && TopOf(AllSkills(jobs))[i].0 in j.skills
  {
    var top := TopOf(AllSkills(jobs));
    RankedKeysOccur(AllSkills(jobs));
    forall i | 0 <= i < |top| ensures exists j :: j in jobs && top[i].0 in j.skills {
      assert top[i].0 in AllSkills(jobs);
    }
  }

  /** Every ranked value occurs in the ranked column. */
  lemma RankedKeysOccur(xs: seq<string>)
    ensures forall i :: 0 <= i < |TopOf(xs)| ==> TopOf(xs)[i].0 in xs
  {
    TopOfRanks(xs);
  }

  /** The bucket counts add up to the number of listings with a digit in their salary. */
  lemma SalaryCountsAddUp(jobs: seq<Job>)
    ensures SumCounts(AnalyzeResults(jobs).analysis.insights.salaryRanges) == |Filter(jobs, Priced)|
    ensures SumCounts(AnalyzeResults(jobs).analysis.insights.salaryRanges) <= AnalyzeResults(jobs).analysis.totalJobs
  {
  }
}

=== FILE: auth_validation.dfy ===
/**
  The request validators that run before the register and login handlers. Each checks
  the JSON body against a schema, key by key in schema order, and stops at the first
  problem: the request then gets status 400 and that problem, otherwise the handler
  runs.

  The wording of the schema library's messages is not modelled: a problem is reported
  as the key and the kind of rule it breaks. Whether a text is an email address is a
  parameter.
 */
module AuthValidation {

  import opened Wrappers
  import Accounts
  import Text

  /** One member of the JSON body: missing, a string, or a value of another JSON type. */
  datatype Field = Absent | Text(s: string) | Other

  /** The rule a key breaks. */
  datatype Rule = Required | NotAString | Empty | TooShort(min: nat) | TooLong(max: nat) | NotAnEmail | NotAllowed | Unknown

  datatype Issue = Issue(key: string, rule: Rule)

  datatype RegisterBody = RegisterBody(name: Field, email: Field, department: Field, role: Field, others: seq<string>)
  datatype LoginBody = LoginBody(userId: Field, password: Field, others: seq<string>)

  /** What the middleware does: hand over to the handler, or answer 400 itself. */
  datatype Outcome = Next | Respond(status: nat, error: string, details: Issue)

  const ValidationFailed: string := "Validation failed"

  const NameMin: nat := 2
  const NameMax: nat := 100
  const PasswordMin: nat := 6
  const Roles: seq<string> := ["employee", "admin"]

  // ---------------------------------------------------------------------------
  // Rules of one key
  // ---------------------------------------------------------------------------

  /** A required string of length `min..max` (`max` absent when unbounded). */
  function StringRule(f: Field, min: nat, max: Option<nat>): (r: Option<Rule>)
    ensures r.None? <==> f.Text? && f.s != "" && min <= |f.s| && (max.Some? ==> |f.s| <= max.value)
  {
    match f
    case Absent => Some(Required)
    case Other => Some(NotAString)
    case Text(s) =>
      if s == "" then Some(Empty)
      else if |s| < min then Some(TooShort(min))
      else if max.Some? && |s| > max.value then Some(TooLong(max.value))
      else None
  }

  /** A required string that is an email address. */
  function EmailRule(f: Field, isEmail: string -> bool): (r: Option<Rule>)
    ensures r.None? <==> f.Text? && f.s != "" && isEmail(f.s)
  {
    match f
    case Absent => Some(Required)
    case Other => Some(NotAString)
    case Text(s) => if s == "" then Some(Empty) else if !isEmail(s) then Some(NotAnEmail) else None
  }

  /** A required value among `allowed`; any other value breaks `valid`. */
  function ChoiceRule(f: Field, allowed: seq<string>): (r: Option<Rule>)
    ensures r.None? <==> f.Text? && f.s in allowed
  {
    match f
    case Absent => Some(Required)
    case Other => Some(NotAllowed)
    case Text(s) => if s in allowed then None else Some(NotAllowed)
  }

  function DepartmentNames(): (names: seq<string>)
    ensures forall s :: s in names <==> Accounts.ParseDepartment(s).Some?
  {
    var names := [Accounts.Name(Accounts.Technical), Accounts.Name(Accounts.Financial), Accounts.Name(Accounts.Project),
      Accounts.Name(Accounts.Legal), Accounts.Name(Accounts.Compliance), Accounts.Name(Accounts.Marketing),
      Accounts.Name(Accounts.Canopy)];
    assert forall s :: Accounts.ParseDepartment(s).Some? ==> s in names by {
      forall s | Accounts.ParseDepartment(s).Some? ensures s in names {
        var d := Accounts.ParseDepartment(s).value;
        assert Accounts.Name(d) == s;
      }
    }
    names
  }

  /** The first issue among the keys in order, then the first key the schema does not
      know. */
  function FirstIssue(checks: seq<(string, Option<Rule>)>, others: seq<string>): (r: Option<Issue>)
    ensures r.None? <==> (forall k :: 0 <= k < |checks| ==> checks[k].1.None?) && others == []
    ensures r.Some? && r.value.rule != Unknown ==>
      exists k :: 0 <= k < |checks| && checks[k].1 == Some(r.value.rule) && checks[k].0 == r.value.key
        && forall j :: 0 <= j < k ==> checks[j].1.None?
    ensures (forall k :: 0 <= k < |checks| ==> checks[k].1.None?) && others != [] ==>
      r == Some(Issue(others[0], Unknown))
  {
    if |checks| > 0 then
      match checks[0].1
      case Some(rule) => Some(Issue(checks[0].0, rule))
      case None =>
        var r := FirstIssue(checks[1..], others);
        assert forall k :: 1 <= k < |checks| ==> checks[k] == checks[1..][k - 1];
        r
    else if |others| > 0 then Some(Issue(others[0], Unknown))
    else None
  }

  // ---------------------------------------------------------------------------
  // The two schemas
  // ---------------------------------------------------------------------------

  /** The register schema's keys in order, each with the rule it breaks, if any. */
  function RegisterChecks(b: RegisterBody, isEmail: string -> bool): seq<(string, Option<Rule>)> {
    [("name", StringRule(b.name, NameMin, Some(NameMax))),
     ("email", EmailRule(b.email, isEmail)),
     ("department", ChoiceRule(b.department, DepartmentNames())),
     ("role", ChoiceRule(b.role, Roles))]
  }

  /** A registration body the schema accepts. */
  predicate GoodRegistration(b: RegisterBody, isEmail: string -> bool) {
    && b.name.Text? && NameMin <= |b.name.s| <= NameMax
    && b.email.Text? && b.email.s != "" && isEmail(b.email.s)
    && b.department.Text? && Accounts.ParseDepartment(b.department.s).Some?
    && b.role.Text? && b.role.s in Roles
    && b.others == []
  }

  function ValidateRegister(b: RegisterBody, isEmail: string -> bool): Option<Issue> {
    FirstIssue(RegisterChecks(b, isEmail), b.others)
  }

  /** The register schema accepts exactly the good registrations. */
  lemma ValidateRegisterAccepts(b: RegisterBody, isEmail: string -> bool)
    ensures ValidateRegister(b, isEmail).None? <==> GoodRegistration(b, isEmail)
  {
    var checks := RegisterChecks(b, isEmail);
    assert checks[0].1.None? ==> b.name.s != "";
    assert (forall k :: 0 <= k < |checks| ==> checks[k].1.None?)
      <==> checks[0].1.None? && checks[1].1.None? && checks[2].1.None? && checks[3].1.None?;
  }

  function LoginChecks(b: LoginBody): seq<(string, Option<Rule>)> {
    [("userId", StringRule(b.userId, 0, None)),
     ("password", StringRule(b.password, PasswordMin, None))]
  }

  /** A login body the schema accepts. */
  predicate GoodLogin(b: LoginBody) {
    && b.userId.Text? && b.userId.s != ""
    && b.password.Text? && |b.password.s| >= PasswordMin
    && b.others == []
  }

  function ValidateLogin(b: LoginBody): Option<Issue> {
    FirstIssue(LoginChecks(b), b.others)
  }

  /** The login schema accepts exactly the good logins. */
  lemma ValidateLoginAccepts(b: LoginBody)
    ensures ValidateLogin(b).None? <==> GoodLogin(b)
  {
    var checks := LoginChecks(b);
    assert (forall k :: 0 <= k < |checks| ==> checks[k].1.None?) <==> checks[0].1.None? && checks[1].1.None?;
  }

  /** A problem with the user id is reported before any problem with the password. */
  lemma LoginReportsUserIdFirst(b: LoginBody)
    requires StringRule(b.userId, 0, None).Some?
    ensures ValidateLogin(b) == Some(Issue("userId", StringRule(b.userId, 0, None).value))
  {
  }

  // ---------------------------------------------------------------------------
  // Middleware
  // ---------------------------------------------------------------------------

  function Middleware(issue: Option<Issue>): (o: Outcome)
    ensures o.Next? <==> issue.None?
    ensures o.Respond? ==> o.status == 400 && o.error == ValidationFailed && o.details == issue.value
  {
    match issue
    case None => Next
    case Some(i) => Respond(400, ValidationFailed, i)
  }

  /** `registerValidator`: the handler runs exactly for good registrations; any other
      body is answered with 400 and the first issue. */
  function RegisterValidator(b: RegisterBody, isEmail: string -> bool): (o: Outcome)
    ensures o.Next? <==> GoodRegistration(b, isEmail)
    ensures o.Respond? ==> o.status == 400 && o.error == ValidationFailed && ValidateRegister(b, isEmail) == Some(o.details)
  {
    ValidateRegisterAccepts(b, isEmail);
    Middleware(ValidateRegister(b, isEmail))
  }

  /** `loginValidator`. */
  function LoginValidator(b: LoginBody): (o: Outcome)
    ensures o.Next? <==> GoodLogin(b)
    ensures o.Respond? ==> o.status == 400 && o.error == ValidationFailed && ValidateLogin(b) == Some(o.details)
  {
    ValidateLoginAccepts(b);
    Middleware(ValidateLogin(b))
  }

  /** A registration the validator lets through names one of the seven departments, so
      its id carries that department's code. */
  lemma ValidatedDepartmentHasCode(b: RegisterBody, isEmail: string -> bool)
    requires RegisterValidator(b, isEmail).Next?
    ensures exists d: Accounts.Department ::
      Accounts.Name(d) == b.department.s && Accounts.CodeText(b.department.s) == Accounts.Code(d)
  {
    var d := Accounts.ParseDepartment(b.department.s).value;
    assert Accounts.Name(d) == b.department.s;
  }

  // ---------------------------------------------------------------------------
  // The register route
  // ---------------------------------------------------------------------------

  /** The registration the handler reads from a body. */
  function Fields(b: RegisterBody): Accounts.Registration
    requires b.name.Text? && b.email.Text? && b.department.Text? && b.role.Text?
  {
    Accounts.Registration(b.name.s, b.email.s, b.department.s, b.role.s)
  }

  /** `POST /register`: the validator, then the handler on the stored users. */
  function RegisterRoute(users: seq<Accounts.User>, b: RegisterBody, isEmail: string -> bool, draws: seq<nat>)
    : (result: (Accounts.Reply, seq<Accounts.User>))
    requires |draws| == Accounts.PasswordLength
    requires forall i :: 0 <= i < |draws| ==> draws[i] < |Accounts.Alphabet|
    ensures !GoodRegistration(b, isEmail) ==> result == (Accounts.Reply(400, Accounts.Problem(ValidationFailed)), users)
    ensures GoodRegistration(b, isEmail) ==> result == Accounts.Register(users, Fields(b), draws)
  {
    match RegisterValidator(b, isEmail)
    case Next => Accounts.Register(users, Fields(b), draws)
    case Respond(status, error, _) => (Accounts.Reply(status, Accounts.Problem(error)), users)
  }

  /** What the validator lets through, the `users` schema stores: the name and email are not
      empty, and the department and role lists agree. */
  lemma ValidatedRegistrationStorable(b: RegisterBody, isEmail: string -> bool)
    requires GoodRegistration(b, isEmail)
    ensures Accounts.Storable(Fields(b))
  {
    assert Roles == Accounts.UserRoles;
  }

  /** Behind the validator, a registration fails only when its lower-cased email is taken. */
  lemma RegisterRouteFailsOnlyOnEmail(users: seq<Accounts.User>, b: RegisterBody, isEmail: string -> bool, draws: seq<nat>)
    requires |draws| == Accounts.PasswordLength
    requires forall i :: 0 <= i < |draws| ==> draws[i] < |Accounts.Alphabet|
    requires GoodRegistration(b, isEmail)
    ensures RegisterRoute(users, b, isEmail, draws).0.status == 201 <==>
      forall k :: 0 <= k < |users| ==> users[k].email != Text.ToLower(b.email.s)
  {
    ValidatedRegistrationStorable(b, isEmail);
    Accounts.RegisterFailsOnlyOnEmail(users, Fields(b), draws);
  }
}

=== FILE: canopy_search.dfy ===
/**
  The search of the Canopy branch dashboard, without its page work: each branch card
  is read into a record (its name, sub-branches, class and lower-cased search text),
  and the searches, the suggestions, the statistics and the export are functions of
  those records.

  A card of the page is seen as the text of its title (if it has one), the texts of
  its sub-branch elements and its class list. Showing, hiding, highlighting and
  scrolling are left to the caller: a search yields which cards are to be shown.
 */
module CanopySearch {

  import opened Wrappers
  import opened Text
  import opened Collections

  /** A branch card as the search reads it. */
  datatype Card = Card(title: Option<string>, subBranchTexts: seq<string>, classes: set<string>)

  /** The record kept per card. `classes` is the card's own class list, which the view
      of a blank query consults. */
  datatype Branch = Branch(
    name: string,
    subBranches: seq<string>,
    branchClass: string,
    classes: set<string>,
    searchableText: string)

  // ---------------------------------------------------------------------------
  // Reading a card
  // ---------------------------------------------------------------------------

  const Suffix: string := "Branch"
  const UnknownName: string := "Unknown Branch"

  /** `.replace(/Branch$/, '')`: one trailing `Branch` removed. */
  function DropSuffix(s: string): (r: string)
    ensures EndsWith(s, Suffix) ==> s == r + Suffix
    ensures !EndsWith(s, Suffix) ==> r == s
  {
    if EndsWith(s, Suffix) then s[..|s| - |Suffix|] else s
  }

  /** The name shown for a card: the trimmed title without a trailing `Branch`,
      trimmed again; a card without a title is the unknown branch. */
  function BranchName(title: Option<string>): (r: string)
    ensures title.None? ==> r == UnknownName
    ensures title.Some? ==> IsTrimmed(r)
    ensures title.Some? && !EndsWith(Trim(title.value), Suffix) ==> r == Trim(title.value)
  {
    match title
    case None => UnknownName
    case Some(t) => Trim(DropSuffix(Trim(t)))
  }

  lemma TrimWithTrailingSpace(n: string)
    requires IsTrimmed(n) && |n| > 0
    ensures Trim(n + " ") == n
  {
    var s := n + " ";
    assert TrimStart(s) == s;
    assert s[..|s| - 1] == n;
    assert TrimEnd(s) == TrimEnd(n);
  }

  /** A title reading `<n> Branch` names the branch `n`. */
  lemma BranchNameOfLabel(n: string)
    requires IsTrimmed(n)
    ensures BranchName(Some(n + " " + Suffix)) == n
  {
    if |n| > 0 {
      LabelOfName(n);
    } else {
      LabelOfNothing(n);
    }
  }

  lemma LabelOfName(n: string)
    requires IsTrimmed(n) && |n| > 0
    ensures BranchName(Some(n + " " + Suffix)) == n
  {
    var t := n + " " + Suffix;
    assert t[0] == n[0] && t[|t| - 1] == 'h';
    assert IsTrimmed(t);
    assert t[..|t| - |Suffix|] == n + " ";
    assert DropSuffix(t) == n + " ";
    TrimWithTrailingSpace(n);
  }

  lemma LabelOfNothing(n: string)
    requires n == []
    ensures BranchName(Some(n + " " + Suffix)) == n
  {
    var w := Suffix;
    assert w[0] == 'B' && w[|w| - 1] == 'h';
    assert n + " " + Suffix == " " + w;
    TrimLeadingSpace(w);
    assert w[|w| - |Suffix|..] == Suffix;
  }

  lemma TrimLeadingSpace(w: string)
    requires |w| > 0 && IsTrimmed(w)
    ensures Trim(" " + w) == w
  {
    var s := " " + w;
    assert s[1..] == w;
    assert TrimStart(s) == TrimStart(w) == w;
  }

  /** The classes tried, in order; the first one on the card is the branch's class. */
  const ClassOrder: seq<string> := ["technical", "financial", "marketing", "legal", "project", "canopy"]
  const UnknownClass: string := "unknown"

  /** `getBranchClass`: the first class of `ClassOrder` on the card, else `unknown`. */
  function BranchClass(classes: set<string>): (r: string)
    ensures r == UnknownClass <==> forall k :: 0 <= k < |ClassOrder| ==> ClassOrder[k] !in classes
    ensures r != UnknownClass ==>
      exists k :: 0 <= k < |ClassOrder| && ClassOrder[k] == r && r in classes
        && forall j :: 0 <= j < k ==> ClassOrder[j] !in classes
  {
    FindFirst(ClassOrder, c => c in classes).GetOr(UnknownClass)
  }

  /** `createSearchableText`: the name and the sub-branches, space-separated, lower-cased. */
  function SearchableText(name: string, subBranches: seq<string>): string {
    ToLower(Join([name] + subBranches, " "))
  }

  function TrimAll(texts: seq<string>): (r: seq<string>)
    ensures |r| == |texts| && forall k :: 0 <= k < |texts| ==> r[k] == Trim(texts[k])
  {
    seq(|texts|, k requires 0 <= k < |texts| => Trim(texts[k]))
  }

  /** The record of one card. */
  function ExtractBranch(card: Card): (b: Branch)
    ensures Extracted(b)
    ensures b.classes == card.classes && b.branchClass == BranchClass(card.classes)
    ensures |b.subBranches| == |card.subBranchTexts|
    ensures card.title.Some? ==> IsTrimmed(b.name)
  {
    var name := BranchName(card.title);
    var subs := TrimAll(card.subBranchTexts);
    Branch(name, subs, BranchClass(card.classes), card.classes, SearchableText(name, subs))
  }

  /** A record whose search text was built from its own name and sub-branches, each of
      them trimmed. */
  predicate Extracted(b: Branch) {
    && b.searchableText == SearchableText(b.name, b.subBranches)
    && forall k :: 0 <= k < |b.subBranches| ==> IsTrimmed(b.subBranches[k])
  }

  /** `extractBranchData`: one record per card, in page order. */
  function ExtractBranchData(cards: seq<Card>): (bs: seq<Branch>)
    ensures |bs| == |cards|
    ensures forall k :: 0 <= k < |cards| ==> bs[k] == ExtractBranch(cards[k]) && Extracted(bs[k])
  {
    seq(|cards|, k requires 0 <= k < |cards| => ExtractBranch(cards[k]))
  }

  // ---------------------------------------------------------------------------
  // Searching
  // ---------------------------------------------------------------------------

  /** What a search leaves on screen: every card the class filter lets through (a blank
      query), or exactly the cards of the results. */
  datatype View = AllByFilter | Results(results: seq<Branch>)

  /** The search term: the query trimmed and lower-cased. */
  function Term(query: string): (t: string)
    ensures t == "" <==> AllSpace(query)
    ensures IsLower(t)
  {
    ToLowerIsLower(Trim(query));
    ToLower(Trim(query))
  }

  /** `matchesSearch`: the name or some sub-branch contains the term, ignoring case. */
  predicate MatchesSearch(b: Branch, term: string) {
    || Contains(ToLower(b.name), term)
    || exists k :: 0 <= k < |b.subBranches| && Contains(ToLower(b.subBranches[k]), term)
  }

  predicate InClass(b: Branch, filter: string) {
    filter == "all" || b.branchClass == filter
  }

  function Matcher(term: string): Branch -> bool {
    b => MatchesSearch(b, term)
  }

  function ClassIs(filter: string): Branch -> bool {
    (b: Branch) => b.branchClass == filter
  }

  /** The results of a search for a non-blank term: the branches that match it, then
      those of the filtered class. */
  function Found(term: string, branches: seq<Branch>, filter: string): (r: seq<Branch>)
    ensures |r| <= |branches|
    ensures forall b :: b in r <==> b in branches && MatchesSearch(b, term) && InClass(b, filter)
  {
    var found := Filter(branches, Matcher(term));
    if filter != "all" then Filter(found, ClassIs(filter)) else found
  }

  /** `performSearch(query)` under the class filter `filter`. */
  function PerformSearch(query: string, branches: seq<Branch>, filter: string): (v: View)
    ensures v.AllByFilter? <==> AllSpace(query)
    ensures v.Results? ==> |v.results| <= |branches|
    ensures v.Results? ==> forall b :: b in v.results <==>
      b in branches && MatchesSearch(b, Term(query)) && InClass(b, filter)
  {
    var term := Term(query);
    if term == "" then AllByFilter else Results(Found(term, branches, filter))
  }

  /** The two passes of a search are one filter: the results are the branches that
      match and are in the class, in their original order. */
  lemma FoundInOrder(term: string, branches: seq<Branch>, filter: string)
    ensures Found(term, branches, filter) == Filter(branches, b => MatchesSearch(b, term) && InClass(b, filter))
  {
    var selected := b => MatchesSearch(b, term) && InClass(b, filter);
    if filter != "all" {
      FilterFilter(branches, Matcher(term), ClassIs(filter), selected);
    } else {
      FilterSame(branches, Matcher(term), selected);
    }
    assert Found(term, branches, filter) == Filter(branches, selected);
  }

  /** Whether a card is on screen after a search under `filter`. A blank query consults
      the card's class list; a search consults the record's class. */
  predicate Shown(v: View, filter: string, b: Branch) {
    match v
    case AllByFilter => filter == "all" || filter in b.classes
    case Results(rs) => b in rs
  }

  /** The no-results message is shown after a search that found nothing. */
  predicate NoResultsShown(v: View) {
    v.Results? && |v.results| == 0
  }

  /** A blank query shows every card the filter lets through; any other query shows a
      card exactly when it matches and its class passes the filter, and the message
      appears exactly when no card does. */
  lemma SearchVisibility(query: string, branches: seq<Branch>, filter: string, b: Branch)
    requires b in branches
    ensures var v := PerformSearch(query, branches, filter);
      && (AllSpace(query) ==> (Shown(v, filter, b) <==> filter == "all" || filter in b.classes))
      && (!AllSpace(query) ==> (Shown(v, filter, b) <==> MatchesSearch(b, Term(query)) && InClass(b, filter)))
      && (NoResultsShown(v) <==>
            !AllSpace(query) && forall c :: c in branches ==> !(MatchesSearch(c, Term(query)) && InClass(c, filter)))
  {
    var v := PerformSearch(query, branches, filter);
    if v.Results? && |v.results| > 0 {
      assert v.results[0] in v.results;
    }
  }

  /** `advancedSearch(query)`: the branches whose search text contains every word of the
      lower-cased query; the class filter is not applied. */
  function AdvancedSearch(query: string, branches: seq<Branch>): (v: View)
    ensures v.AllByFilter? <==> AllSpace(query)
    ensures v.Results? ==> forall b :: b in v.results <==>
      b in branches && forall t :: t in Words(ToLower(query)) ==> Contains(b.searchableText, t)
  {
    WordsOfBlank(ToLower(query));
    LowerKeepsSpace(query);
    var terms := Words(ToLower(query));
    if |terms| == 0 then AllByFilter
    else Results(Filter(branches, (b: Branch) => forall t :: t in terms ==> Contains(b.searchableText, t)))
  }

  /** A word without white space is in a record's search text exactly when the name or
      a sub-branch contains it: so a one-word advanced search agrees with the plain
      search's matching. */
  lemma AdvancedTermMatches(b: Branch, t: string)
    requires Extracted(b)
    requires |t| > 0 && forall i :: 0 <= i < |t| ==> !IsSpace(t[i])
    ensures Contains(b.searchableText, t) <==> MatchesSearch(b, t)
  {
    var parts := [b.name] + b.subBranches;
    ToLowerJoin(parts, " ");
    assert ' ' !in t by {
      forall i | 0 <= i < |t| ensures t[i] != ' ' {
        assert !IsSpace(t[i]);
      }
    }
    ContainsJoin(LowerAll(parts), ' ', t);
    assert forall k :: 0 <= k < |b.subBranches| ==> LowerAll(parts)[k + 1] == ToLower(b.subBranches[k]);
    if Contains(b.searchableText, t) {
      var k :| 0 <= k < |parts| && Contains(LowerAll(parts)[k], t);
      if k > 0 {
        assert Contains(ToLower(b.subBranches[k - 1]), t);
      }
    }
    if MatchesSearch(b, t) && !Contains(ToLower(b.name), t) {
      var k :| 0 <= k < |b.subBranches| && Contains(ToLower(b.subBranches[k]), t);
      assert Contains(LowerAll(parts)[k + 1], t);
    }
  }

  // ---------------------------------------------------------------------------
  // Regular-expression escaping
  // ---------------------------------------------------------------------------

  /** The characters `escapeRegex` escapes. */
  predicate IsRegexSpecial(c: char) {
    c in ".*+?^${}()|[]\\"
  }

  /** `escapeRegex`: a backslash in front of every special character. */
  function EscapeRegex(s: string): (r: string)
    ensures |r| >= |s|
    ensures (forall i :: 0 <= i < |s| ==> !IsRegexSpecial(s[i])) ==> r == s
  {
    if |s| == 0 then ""
    else (if IsRegexSpecial(s[0]) then ['\\', s[0]] else [s[0]]) + EscapeRegex(s[1..])
  }

  /** Escaping works character by character: a special character gets a backslash in
      front, any other is kept. */
  lemma EscapeRegexChar(c: char)
    ensures EscapeRegex([c]) == if IsRegexSpecial(c) then ['\\', c] else [c]
  {
    assert [c][1..] == [];
  }

  /** Escaping a concatenation escapes each part. */
  lemma {:induction false} EscapeRegexAppend(s: string, t: string)
    ensures EscapeRegex(s + t) == EscapeRegex(s) + EscapeRegex(t)
  {
    if |s| == 0 {
      assert s + t == t;
    } else {
      assert (s + t)[0] == s[0] && (s + t)[1..] == s[1..] + t;
      EscapeRegexAppend(s[1..], t);
    }
  }

  /** Reading an escaped text back: a backslash stands for the character after it. */
  function Unescape(r: string): string
    decreases |r|
  {
    if |r| == 0 then ""
    else if r[0] == '\\' && |r| >= 2 then [r[1]] + Unescape(r[2..])
    else [r[0]] + Unescape(r[1..])
  }

  /** Escaping loses nothing: every character comes back. */
  lemma {:induction false} UnescapeEscapeRegex(s: string)
    ensures Unescape(EscapeRegex(s)) == s
  {
    if |s| > 0 {
      UnescapeEscapeRegex(s[1..]);
      var r := EscapeRegex(s);
      if IsRegexSpecial(s[0]) {
        assert r == ['\\', s[0]] + EscapeRegex(s[1..]);
        assert r[2..] == EscapeRegex(s[1..]);
      } else {
        assert s[0] != '\\';
        assert r == [s[0]] + EscapeRegex(s[1..]);
        assert r[1..] == EscapeRegex(s[1..]);
      }
    }
  }

  // ---------------------------------------------------------------------------
  // Statistics, sub-branch listing and lookups
  // ---------------------------------------------------------------------------

  /** One entry of `getAllSubBranches`. */
  datatype SubBranchEntry = SubBranchEntry(subBranch: string, parentBranch: string, branchClass: string)

  /** The entries of one branch's sub-branches, in order. */
  function OwnEntries(b: Branch): (es: seq<SubBranchEntry>)
    ensures |es| == |b.subBranches|
    ensures forall j :: 0 <= j < |es| ==> es[j] == SubBranchEntry(b.subBranches[j], b.name, b.branchClass)
  {
    seq(|b.subBranches|, j requires 0 <= j < |b.subBranches| => SubBranchEntry(b.subBranches[j], b.name, b.branchClass))
  }

  /** `getAllSubBranches`: every sub-branch with its branch's name and class, branch by
      branch. */
  function AllSubBranches(branches: seq<Branch>): (r: seq<SubBranchEntry>)
    ensures forall e :: e in r ==>
      exists b :: b in branches && e.subBranch in b.subBranches && e.parentBranch == b.name && e.branchClass == b.branchClass
  {
    if |branches| == 0 then []
    else
      var b := branches[0];
      var own := OwnEntries(b);
      assert forall e :: e in own ==> e.subBranch in b.subBranches;
      own + AllSubBranches(branches[1..])
  }

  lemma {:induction false} AllSubBranchesAppend(a: seq<Branch>, b: seq<Branch>)
    ensures AllSubBranches(a + b) == AllSubBranches(a) + AllSubBranches(b)
  {
    if |a| == 0 {
      assert a + b == b;
    } else {
      assert (a + b)[0] == a[0] && (a + b)[1..] == a[1..] + b;
      AllSubBranchesAppend(a[1..], b);
    }
  }

  /** Nothing is missing and the order is kept: the `k`-th sub-branch of branch `i` is
      listed, with its branch's name and class, right after the entries of the branches
      before `i` and the first `k` sub-branches of `i`. */
  lemma AllSubBranchesAt(branches: seq<Branch>, i: nat, k: nat)
    requires i < |branches| && k < |branches[i].subBranches|
    ensures var at := |AllSubBranches(branches[..i])| + k;
      at < |AllSubBranches(branches)| &&
      AllSubBranches(branches)[at] == SubBranchEntry(branches[i].subBranches[k], branches[i].name, branches[i].branchClass)
  {
    var pre, b, post := branches[..i], branches[i], branches[i + 1..];
    assert branches == pre + ([b] + post);
    AllSubBranchesAppend(pre, [b] + post);
    assert ([b] + post)[0] == b && ([b] + post)[1..] == post;
  }

  /** The `reduce` that adds up the sub-branch counts, from a running total. */
  function SubBranchTotal(branches: seq<Branch>, total: nat): nat {
    if |branches| == 0 then total else SubBranchTotal(branches[1..], total + |branches[0].subBranches|)
  }

  datatype Stats = Stats(totalBranches: nat, totalSubBranches: nat, currentResults: nat, currentFilter: string)

  /** `getSearchStats`, with `results` the results of the last search. */
  function SearchStats(branches: seq<Branch>, results: seq<Branch>, filter: string): (st: Stats)
    ensures st.totalBranches == |branches| && st.currentResults == |results| && st.currentFilter == filter
    ensures st.totalSubBranches == |AllSubBranches(branches)|
  {
    SubBranchTotalCounts(branches, 0);
    Stats(|branches|, SubBranchTotal(branches, 0), |results|, filter)
  }

  /** The running total ends at the number of entries the sub-branch listing has. */
  lemma {:induction false} SubBranchTotalCounts(branches: seq<Branch>, total: nat)
    ensures SubBranchTotal(branches, total) == total + |AllSubBranches(branches)|
  {
    if |branches| > 0 {
      SubBranchTotalCounts(branches[1..], total + |branches[0].subBranches|);
      AllSubBranchesCons(branches);
    }
  }

  lemma AllSubBranchesCons(branches: seq<Branch>)
    requires |branches| > 0
    ensures |AllSubBranches(branches)| == |branches[0].subBranches| + |AllSubBranches(branches[1..])|
  {
  }

  /** `findBranch(name)`: the first branch whose name contains the argument, ignoring case. */
  function FindBranch(name: string, branches: seq<Branch>): (r: Option<Branch>)
    ensures r.Some? ==> r.value in branches && Contains(ToLower(r.value.name), ToLower(name))
    ensures r.None? <==> forall b :: b in branches ==> !Contains(ToLower(b.name), ToLower(name))
    ensures r.Some? ==>
      exists k :: 0 <= k < |branches| && branches[k] == r.value &&
        forall j :: 0 <= j < k ==> !Contains(ToLower(branches[j].name), ToLower(name))
  {
    FindFirst(branches, (b: Branch) => Contains(ToLower(b.name), ToLower(name)))
  }

  predicate HasSubBranch(b: Branch, sub: string) {
    exists k :: 0 <= k < |b.subBranches| && Contains(ToLower(b.subBranches[k]), ToLower(sub))
  }

  /** `findBranchBySubBranch(sub)`: the branches with a sub-branch containing the argument,
      ignoring case, in order. */
  function FindBranchBySubBranch(sub: string, branches: seq<Branch>): (r: seq<Branch>)
    ensures forall b :: b in r <==> b in branches && HasSubBranch(b, sub)
    ensures IsSubsequence(r, branches)
    ensures forall b :: Count(r, b) == if HasSubBranch(b, sub) then Count(branches, b) else 0
  {
    var holds := (b: Branch) => HasSubBranch(b, sub);
    FilterInOrder(branches, holds);
    Filter(branches, holds)
  }

  // ---------------------------------------------------------------------------
  // Suggestions
  // ---------------------------------------------------------------------------

  /** Every branch name followed by its sub-branches, branch by branch. */
  function AllTerms(branches: seq<Branch>): (ts: seq<string>)
    ensures forall t :: t in ts <==> exists b :: b in branches && (t == b.name || t in b.subBranches)
  {
    if |branches| == 0 then []
    else
      var rest := AllTerms(branches[1..]);
      assert forall b :: b in branches <==> b == branches[0] || b in branches[1..];
      [branches[0].name] + branches[0].subBranches + rest
  }

  const MaxSuggestions: nat := 5

  /** A term is suggested for a query it contains without being it, ignoring case. */
  predicate Suggests(term: string, query: string) {
    Contains(ToLower(term), ToLower(query)) && ToLower(term) != ToLower(query)
  }

  /** The terms suggested for `query`, in term order, repeats included. */
  function Qualifying(query: string, branches: seq<Branch>): (ts: seq<string>)
    ensures IsSubsequence(ts, AllTerms(branches))
    ensures forall t :: Count(ts, t) == if Suggests(t, query) then Count(AllTerms(branches), t) else 0
  {
    var suggested := (t: string) => Suggests(t, query);
    FilterInOrder(AllTerms(branches), suggested);
    Filter(AllTerms(branches), suggested)
  }

  /** `generateSuggestions(query)`: the first five distinct suggested terms. */
  function GenerateSuggestions(query: string, branches: seq<Branch>): (r: seq<string>)
    ensures |r| <= MaxSuggestions && NoDups(r)
    ensures forall k :: 0 <= k < |r| ==> Suggests(r[k], query) && r[k] in AllTerms(branches)
  {
    var found := Qualifying(query, branches);
    var r := Take(Dedupe(found), MaxSuggestions);
    assert forall k :: 0 <= k < |r| ==> r[k] in Dedupe(found);
    r
  }

  /** The suggestions are the qualifying terms in the order they first appear, with no
      qualifying term that appears earlier than a suggestion left out. */
  lemma SuggestionsInFirstSeenOrder(query: string, branches: seq<Branch>)
    ensures var r, Q := GenerateSuggestions(query, branches), Qualifying(query, branches);
      && (forall i, j :: 0 <= i < j < |r| ==> FirstSeen(Q, r[i]) < FirstSeen(Q, r[j]))
      && (forall k, t :: 0 <= k < |r| && t in Q && FirstSeen(Q, t) < FirstSeen(Q, r[k]) ==> t in r[..k])
  {
    var Q := Qualifying(query, branches);
    assert GenerateSuggestions(query, branches) == Take(Dedupe(Q), MaxSuggestions);
    TakeDedupeFirstSeen(Q, MaxSuggestions);
  }

  /** Fewer than five suggestions means every term that qualifies was suggested. */
  lemma SuggestionsComplete(query: string, branches: seq<Branch>, t: string)
    requires |GenerateSuggestions(query, branches)| < MaxSuggestions
    requires t in AllTerms(branches) && Suggests(t, query)
    ensures t in GenerateSuggestions(query, branches)
  {
    var found := Qualifying(query, branches);
    assert t in found by {
      CountPositive(AllTerms(branches), t);
      CountPositive(found, t);
    }
    assert t in Dedupe(found);
  }

  // ---------------------------------------------------------------------------
  // Export
  // ---------------------------------------------------------------------------

  /** What is exported per result. */
  datatype Record = Record(name: string, branchClass: string, subBranches: seq<string>)

  /** The export: JSON text of the records (its printing is not modelled), CSV text,
      or, for any other format, the records themselves. */
  datatype Export = JsonOf(records: seq<Record>) | CsvText(text: string) | RecordsOf(records: seq<Record>)

  const CsvHeader: string := "Branch Name,Class,Sub-Branches"

  /** One CSV line without its line break: three quoted fields. */
  function CsvRow(r: Record): string {
    "\"" + r.name + "\",\"" + r.branchClass + "\",\"" + Join(r.subBranches, "; ") + "\""
  }

  function CsvRows(rs: seq<Record>): string {
    if |rs| == 0 then "" else CsvRow(rs[0]) + "\n" + CsvRows(rs[1..])
  }

  function ExportCsv(rs: seq<Record>): string {
    CsvHeader + "\n" + CsvRows(rs)
  }

  function RecordOf(b: Branch): Record {
    Record(b.name, b.branchClass, b.subBranches)
  }

  /** `exportSearchResults(format)` of the given results. */
  function ExportSearchResults(format: string, results: seq<Branch>): (e: Export)
    ensures format == "json" <==> e.JsonOf?
    ensures format == "csv" <==> e.CsvText?
    ensures !e.CsvText? ==>
      |e.records| == |results| && forall k :: 0 <= k < |results| ==> e.records[k] == RecordOf(results[k])
  {
    var records := seq(|results|, k requires 0 <= k < |results| => RecordOf(results[k]));
    if format == "json" then JsonOf(records)
    else if format == "csv" then CsvText(ExportCsv(records))
    else RecordsOf(records)
  }

  /** No field of the record holds a line break. */
  predicate SingleLine(r: Record) {
    '\n' !in r.name && '\n' !in r.branchClass && forall k :: 0 <= k < |r.subBranches| ==> '\n' !in r.subBranches[k]
  }

  lemma RowSingleLine(r: Record)
    requires SingleLine(r)
    ensures '\n' !in CsvRow(r)
  {
    JoinAvoids(r.subBranches, "; ", '\n');
  }

  /** Split at line breaks, the rows are one line per record and an empty last piece. */
  lemma {:induction false} CsvRowsLines(rs: seq<Record>)
    requires forall k :: 0 <= k < |rs| ==> SingleLine(rs[k])
    ensures SplitOn(CsvRows(rs), "\n") == seq(|rs|, k requires 0 <= k < |rs| => CsvRow(rs[k])) + [""]
  {
    if |rs| > 0 {
      CsvRowsLines(rs[1..]);
      RowSingleLine(rs[0]);
      SplitOnCharAfterPrefix(CsvRow(rs[0]), '\n', CsvRows(rs[1..]));
      assert CsvRow(rs[0]) + "\n" + CsvRows(rs[1..]) == CsvRow(rs[0]) + ['\n'] + CsvRows(rs[1..]);
    }
  }

  /** Read back line by line, a CSV export is the header and exactly one row per result,
      in order, followed by the empty piece after the last line break. */
  lemma CsvLines(rs: seq<Record>)
    requires forall k :: 0 <= k < |rs| ==> SingleLine(rs[k])
    ensures SplitOn(ExportCsv(rs), "\n") == [CsvHeader] + seq(|rs|, k requires 0 <= k < |rs| => CsvRow(rs[k])) + [""]
  {
    CsvRowsLines(rs);
    SplitOnCharAfterPrefix(CsvHeader, '\n', CsvRows(rs));
    assert ExportCsv(rs) == CsvHeader + ['\n'] + CsvRows(rs);
  }
}

=== FILE: collections.dfy ===
/**
  Sequence operations the aggregation and search code is built from: counting,
  flattening (`flatMap`), `filter`, `slice(0, n)`, de-duplication through a `Set`
  (which keeps first occurrences in insertion order), per-key counters kept in
  insertion order (what `Object.entries` of a counter object yields), and the
  stable `Array.prototype.sort` by an integer key.
 */
module Collections {

  import opened Wrappers

  // ---------------------------------------------------------------------------
  // Basic sequence functions
  // ---------------------------------------------------------------------------

  /** Number of occurrences of `x` in `xs`. */
  function Count<T(==)>(xs: seq<T>, x: T): nat {
    if |xs| == 0 then 0 else Count(xs[..|xs| - 1], x) + (if xs[|xs| - 1] == x then 1 else 0)
  }

  lemma {:induction false} CountPositive<T>(xs: seq<T>, x: T)
    ensures Count(xs, x) > 0 <==> x in xs
  {
    if |xs| > 0 {
      CountPositive(xs[..|xs| - 1], x);
      assert xs == xs[..|xs| - 1] + [xs[|xs| - 1]];
    }
  }

  lemma {:induction false} CountAppend<T>(a: seq<T>, b: seq<T>, x: T)
    ensures Count(a + b, x) == Count(a, x) + Count(b, x)
    decreases |b|
  {
    if |b| > 0 {
      assert (a + b)[..|a + b| - 1] == a + b[..|b| - 1];
      CountAppend(a, b[..|b| - 1], x);
    } else {
      assert a + b == a;
    }
  }

  /** `xss.flat()`: the inner sequences one after the other. */
  function Flatten<T>(xss: seq<seq<T>>): seq<T> {
    if |xss| == 0 then [] else xss[0] + Flatten(xss[1..])
  }

  lemma {:induction false} FlattenAppend<T>(a: seq<seq<T>>, b: seq<seq<T>>)
    ensures Flatten(a + b) == Flatten(a) + Flatten(b)
    decreases |a|
  {
    if |a| == 0 {
      assert a + b == b;
    } else {
      assert (a + b)[1..] == a[1..] + b;
      FlattenAppend(a[1..], b);
    }
  }

  lemma {:induction false} FlattenLength<T>(xss: seq<seq<T>>)
    ensures |Flatten(xss)| == SumLengths(xss)
  {
    if |xss| > 0 {
      FlattenLength(xss[1..]);
    }
  }

  /** `f(1) + f(2) + ... + f(n)`: the results of a loop over `1..n`, appended in order. */
  function Gather<T>(n: int, f: nat -> seq<T>): seq<T>
    decreases if n < 0 then 0 else n
  {
    if n <= 0 then [] else Gather(n - 1, f) + f(n)
  }

  /** An element is gathered exactly when some iteration produced it. */
  lemma {:induction false} GatherMembers<T>(n: int, f: nat -> seq<T>, x: T)
    ensures x in Gather(n, f) <==> exists p: nat :: 1 <= p <= n && x in f(p)
    decreases if n < 0 then 0 else n
  {
    if n > 0 {
      GatherMembers(n - 1, f, x);
      if x in f(n) {
        assert 1 <= n <= n && x in f(n);
      } else if x !in Gather(n - 1, f) {
        forall p: nat | 1 <= p <= n
          ensures x !in f(p)
        {
          if p < n {
            assert !(1 <= p <= n - 1 && x in f(p));
          }
        }
      }
    }
  }

  /** Sum of the lengths of the inner sequences. */
  function SumLengths<T>(xss: seq<seq<T>>): nat {
    if |xss| == 0 then 0 else |xss[0]| + SumLengths(xss[1..])
  }

  /** `xs.slice(0, n)`. */
  function Take<T>(xs: seq<T>, n: nat): (r: seq<T>)
    ensures |r| == if |xs| <= n then |xs| else n
    ensures r == xs[..|r|]
  {
    if |xs| <= n then xs else xs[..n]
  }

  /** `a` is `b` with some of its elements left out, the rest kept in order. */
  predicate IsSubsequence<T(==)>(a: seq<T>, b: seq<T>)
    decreases |b|
  {
    if |a| == 0 then true
    else if |b| == 0 then false
    else (a[0] == b[0] && IsSubsequence(a[1..], b[1..])) || IsSubsequence(a, b[1..])
  }

  /** `xs.filter(p)`: the elements satisfying `p`, in their original order.
      `FilterInOrder` adds that the result is a subsequence of `xs` holding every
      occurrence of an element that satisfies `p` and none of any other. */
  function Filter<T(==,!new)>(xs: seq<T>, p: T -> bool): (r: seq<T>)
    ensures |r| <= |xs|
    ensures forall x :: x in r <==> x in xs && p(x)
  {
    if |xs| == 0 then []
    else (if p(xs[0]) then [xs[0]] else []) + Filter(xs[1..], p)
  }

  /** What determines `Filter(xs, p)`: it keeps the order of `xs`, and holds each
      element satisfying `p` as often as `xs` does and no other element. */
  lemma {:induction false} FilterInOrder<T(!new)>(xs: seq<T>, p: T -> bool)
    ensures IsSubsequence(Filter(xs, p), xs)
    ensures forall x :: Count(Filter(xs, p), x) == if p(x) then Count(xs, x) else 0
  {
    if |xs| > 0 {
      var head := if p(xs[0]) then [xs[0]] else [];
      var rest := Filter(xs[1..], p);
      FilterInOrder(xs[1..], p);
      assert Filter(xs, p) == head + rest;
      forall x ensures Count(head + rest, x) == if p(x) then Count(xs, x) else 0 {
        CountAppend(head, rest, x);
        CountAppend([xs[0]], xs[1..], x);
        assert [xs[0]] + xs[1..] == xs;
      }
      if p(xs[0]) {
        assert (head + rest)[0] == xs[0] && (head + rest)[1..] == rest;
      } else {
        assert head + rest == rest;
      }
    }
  }

  /** `Filter` looks at the first element, then filters the rest. */
  lemma FilterCons<T(!new)>(xs: seq<T>, p: T -> bool)
    requires |xs| > 0
    ensures Filter(xs, p) == (if p(xs[0]) then [xs[0]] else []) + Filter(xs[1..], p)
  {
  }

  lemma {:induction false} FilterAppend<T(!new)>(a: seq<T>, b: seq<T>, p: T -> bool)
    ensures Filter(a + b, p) == Filter(a, p) + Filter(b, p)
    decreases |a|
  {
    if |a| == 0 {
      assert a + b == b;
    } else {
      var head := if p(a[0]) then [a[0]] else [];
      assert (a + b)[0] == a[0] && (a + b)[1..] == a[1..] + b;
      FilterCons(a + b, p);
      FilterCons(a, p);
      FilterAppend(a[1..], b, p);
      assert Filter(a + b, p) == head + (Filter(a[1..], p) + Filter(b, p));
    }
  }

  /** Filtering keeps any property every element has. */
  lemma {:induction false} FilterKeeps<T(!new)>(xs: seq<T>, p: T -> bool, q: T -> bool)
    requires forall i :: 0 <= i < |xs| ==> q(xs[i])
    ensures forall i :: 0 <= i < |Filter(xs, p)| ==> q(Filter(xs, p)[i]) && p(Filter(xs, p)[i])
  {
    if |xs| > 0 {
      FilterKeeps(xs[1..], p, q);
    }
  }

  lemma {:induction false} FilterAll<T(!new)>(xs: seq<T>, p: T -> bool)
    requires forall i :: 0 <= i < |xs| ==> p(xs[i])
    ensures Filter(xs, p) == xs
  {
    if |xs| > 0 {
      FilterAll(xs[1..], p);
    }
  }

  /** Filtering twice is filtering once by both conditions. */
  lemma {:induction false} FilterFilter<T(!new)>(xs: seq<T>, p: T -> bool, q: T -> bool, both: T -> bool)
    requires forall x :: both(x) == (p(x) && q(x))
    ensures Filter(Filter(xs, p), q) == Filter(xs, both)
  {
    if |xs| > 0 {
      FilterFilter(xs[1..], p, q, both);
      var head := if p(xs[0]) then [xs[0]] else [];
      FilterAppend(head, Filter(xs[1..], p), q);
      if p(xs[0]) {
        assert Filter(head, q) == (if q(xs[0]) then [xs[0]] else []) by {
          assert head[1..] == [];
        }
      }
    }
  }

  /** Filters by conditions that agree everywhere agree. */
  lemma {:induction false} FilterSame<T(!new)>(xs: seq<T>, p: T -> bool, q: T -> bool)
    requires forall x :: p(x) == q(x)
    ensures Filter(xs, p) == Filter(xs, q)
  {
    if |xs| > 0 {
      FilterSame(xs[1..], p, q);
    }
  }

  /** `xs.find(p)`: the first element satisfying `p`, if any. */
  function FindFirst<T>(xs: seq<T>, p: T -> bool): (r: Option<T>)
    ensures r.Some? ==>
      exists k :: 0 <= k < |xs| && xs[k] == r.value && p(xs[k]) && forall j :: 0 <= j < k ==> !p(xs[j])
    ensures r.None? <==> forall k :: 0 <= k < |xs| ==> !p(xs[k])
  {
    if |xs| == 0 then None
    else if p(xs[0]) then Some(xs[0])
    else
      var r := FindFirst(xs[1..], p);
      assert forall k :: 1 <= k < |xs| ==> xs[k] == xs[1..][k - 1];
      r
  }

  // ---------------------------------------------------------------------------
  // De-duplication through an insertion-ordered set
  // ---------------------------------------------------------------------------

  predicate NoDups<T(==)>(xs: seq<T>) {
    forall i, j :: 0 <= i < j < |xs| ==> xs[i] != xs[j]
  }

  /** An element of a duplicate-free sequence occurs once or not at all. */
  lemma {:induction false} CountNoDups<T>(xs: seq<T>, x: T)
    requires NoDups(xs)
    ensures Count(xs, x) == if x in xs then 1 else 0
  {
    if |xs| > 0 {
      var init, last := xs[..|xs| - 1], xs[|xs| - 1];
      assert xs == init + [last];
      CountNoDups(init, x);
      if x == last {
        assert x !in init by {
          forall i | 0 <= i < |init| ensures init[i] != x {
            assert xs[i] != xs[|xs| - 1];
          }
        }
      }
    }
  }

  /** Position of the first occurrence of `x` in `xs`. */
  function IndexOf<T(==)>(xs: seq<T>, x: T): (k: nat)
    requires x in xs
    ensures k < |xs| && xs[k] == x
    ensures forall i :: 0 <= i < k ==> xs[i] != x
  {
    if xs[0] == x then 0 else 1 + IndexOf(xs[1..], x)
  }

  lemma {:induction false} IndexOfExtend<T>(xs: seq<T>, y: T, x: T)
    requires x in xs
    ensures IndexOf(xs + [y], x) == IndexOf(xs, x)
  {
    var k := IndexOf(xs, x);
    var k' := IndexOf(xs + [y], x);
    assert (xs + [y])[k] == x;
    assert k' <= k;
    assert xs[k'] == x;
  }

  /** `Array.from(new Set(xs))`: each distinct element once, at the place of its first occurrence. */
  function Dedupe<T(==,!new)>(xs: seq<T>): (r: seq<T>)
    ensures NoDups(r)
    ensures forall x :: x in r <==> x in xs
    ensures |r| <= |xs|
  {
    if |xs| == 0 then []
    else
      var r0 := Dedupe(xs[..|xs| - 1]);
      var last := xs[|xs| - 1];
      assert forall x :: x in xs <==> x in xs[..|xs| - 1] || x == last by {
        assert xs == xs[..|xs| - 1] + [last];
      }
      if last in r0 then r0 else r0 + [last]
  }

  /** The de-duplicated sequence lists elements in the order of their first occurrences. */
  lemma {:induction false} DedupeKeepsFirstOccurrenceOrder<T(!new)>(xs: seq<T>)
    ensures forall i, j :: 0 <= i < j < |Dedupe(xs)| ==>
      IndexOf(xs, Dedupe(xs)[i]) < IndexOf(xs, Dedupe(xs)[j])
  {
    if |xs| > 0 {
      var init := xs[..|xs| - 1];
      var last := xs[|xs| - 1];
      assert xs == init + [last];
      DedupeKeepsFirstOccurrenceOrder(init);
      var r0 := Dedupe(init);
      forall y | y in init
        ensures IndexOf(xs, y) == IndexOf(init, y)
      {
        IndexOfExtend(init, last, y);
      }
      if last !in r0 {
        assert last !in init;
        assert IndexOf(xs, last) == |init|;
      }
    }
  }

  /** The first `n` distinct elements: in the order they are first seen, with no element
      first seen earlier than one of them left out. */
  lemma TakeDedupeFirstSeen<T(!new)>(xs: seq<T>, n: nat)
    ensures var r := Take(Dedupe(xs), n);
      && (forall i, j :: 0 <= i < j < |r| ==> FirstSeen(xs, r[i]) < FirstSeen(xs, r[j]))
      && (forall k, t :: 0 <= k < |r| && t in xs && FirstSeen(xs, t) < FirstSeen(xs, r[k]) ==> t in r[..k])
  {
    var d := Dedupe(xs);
    var r := Take(d, n);
    DedupeKeepsFirstOccurrenceOrder(xs);
    forall i, j | 0 <= i < j < |r| ensures FirstSeen(xs, r[i]) < FirstSeen(xs, r[j]) {
      assert r[i] == d[i] && r[j] == d[j];
      assert d[i] in xs && d[j] in xs;
    }
    forall k, t | 0 <= k < |r| && t in xs && FirstSeen(xs, t) < FirstSeen(xs, r[k])
      ensures t in r[..k]
    {
      assert t in d;
      var m :| 0 <= m < |d| && d[m] == t;
      assert r[k] == d[k] && d[k] in xs;
      if m < k {
        assert r[..k][m] == t;
      }
    }
  }

  lemma {:induction false} DedupeOfNoDups<T(!new)>(xs: seq<T>)
    requires NoDups(xs)
    ensures Dedupe(xs) == xs
  {
    if |xs| > 0 {
      var init := xs[..|xs| - 1];
      DedupeOfNoDups(init);
      assert xs[|xs| - 1] !in init;
    }
  }

  // ---------------------------------------------------------------------------
  // Counters: an object used as a map from key to count, read back with
  // `Object.entries`, i.e. in order of first insertion
  // ---------------------------------------------------------------------------

  function KeysOf<K>(t: seq<(K, nat)>): (ks: seq<K>)
    ensures |ks| == |t| && forall i :: 0 <= i < |t| ==> ks[i] == t[i].0
  {
    seq(|t|, i requires 0 <= i < |t| => t[i].0)
  }

  predicate DistinctKeys<K(==)>(t: seq<(K, nat)>) {
    NoDups(KeysOf(t))
  }

  predicate AllPositive<K>(t: seq<(K, nat)>) {
    forall i :: 0 <= i < |t| ==> t[i].1 > 0
  }

  /** `counter[k] || 0`. */
  function Lookup<K(==)>(t: seq<(K, nat)>, k: K): nat {
    if |t| == 0 then 0 else if t[0].0 == k then t[0].1 else Lookup(t[1..], k)
  }

  /** `counter[k] = (counter[k] || 0) + 1`: increments an existing key in place or
      appends a new key with count 1. */
  function Bump<K(==,!new)>(t: seq<(K, nat)>, k: K): (r: seq<(K, nat)>)
    ensures forall x :: Lookup(r, x) == Lookup(t, x) + (if x == k then 1 else 0)
    ensures KeysOf(r) == if k in KeysOf(t) then KeysOf(t) else KeysOf(t) + [k]
  {
    if |t| == 0 then [(k, 1)]
    else if t[0].0 == k then
      var r := [(k, t[0].1 + 1)] + t[1..];
      BumpFront(t, k, r);
      r
    else
      var rest := Bump(t[1..], k);
      var r := [t[0]] + rest;
      BumpBehind(t, k, rest, r);
      r
  }

  /** Bumping the key in front raises its count and changes nothing else. */
  lemma BumpFront<K>(t: seq<(K, nat)>, k: K, r: seq<(K, nat)>)
    requires |t| > 0 && t[0].0 == k && r == [(k, t[0].1 + 1)] + t[1..]
    ensures forall x :: Lookup(r, x) == Lookup(t, x) + (if x == k then 1 else 0)
    ensures KeysOf(r) == KeysOf(t)
  {
    forall x ensures Lookup(r, x) == Lookup(t, x) + (if x == k then 1 else 0) {
      LookupCons(r, x);
      LookupCons(t, x);
      assert r[1..] == t[1..];
    }
    KeysOfCons(r);
    KeysOfCons(t);
    assert r[1..] == t[1..];
  }

  /** Bumping a key behind the front entry bumps it in the rest. */
  lemma BumpBehind<K>(t: seq<(K, nat)>, k: K, rest: seq<(K, nat)>, r: seq<(K, nat)>)
    requires |t| > 0 && t[0].0 != k && r == [t[0]] + rest
    requires forall x :: Lookup(rest, x) == Lookup(t[1..], x) + (if x == k then 1 else 0)
    requires KeysOf(rest) == if k in KeysOf(t[1..]) then KeysOf(t[1..]) else KeysOf(t[1..]) + [k]
    ensures forall x :: Lookup(r, x) == Lookup(t, x) + (if x == k then 1 else 0)
    ensures KeysOf(r) == if k in KeysOf(t) then KeysOf(t) else KeysOf(t) + [k]
  {
    forall x ensures Lookup(r, x) == Lookup(t, x) + (if x == k then 1 else 0) {
      LookupCons(r, x);
      LookupCons(t, x);
      assert r[1..] == rest;
    }
    KeysOfCons(r);
    KeysOfCons(t);
    assert r[1..] == rest;
    assert k in KeysOf(t) <==> k in KeysOf(t[1..]);
    assert ([t[0].0] + KeysOf(t[1..])) + [k] == [t[0].0] + (KeysOf(t[1..]) + [k]);
  }

  lemma KeysOfCons<K>(t: seq<(K, nat)>)
    requires |t| > 0
    ensures KeysOf(t) == [t[0].0] + KeysOf(t[1..])
  {
  }

  lemma LookupCons<K>(t: seq<(K, nat)>, x: K)
    requires |t| > 0
    ensures Lookup(t, x) == if t[0].0 == x then t[0].1 else Lookup(t[1..], x)
  {
  }

  lemma {:induction false} BumpPositive<K(!new)>(t: seq<(K, nat)>, k: K)
    requires AllPositive(t)
    ensures AllPositive(Bump(t, k))
  {
    if |t| > 0 && t[0].0 != k {
      BumpPositive(t[1..], k);
    }
  }

  /** Counts every element of `xs` into an initially empty counter: one entry per
      distinct element, in order of first occurrence, holding its number of occurrences. */
  function TallyOf<K(==,!new)>(xs: seq<K>): (r: seq<(K, nat)>)
    ensures forall x :: Lookup(r, x) == Count(xs, x)
    ensures KeysOf(r) == Dedupe(xs)
    ensures AllPositive(r)
  {
    if |xs| == 0 then []
    else
      var r0 := TallyOf(xs[..|xs| - 1]);
      BumpPositive(r0, xs[|xs| - 1]);
      Bump(r0, xs[|xs| - 1])
  }

  /** In a counter with distinct keys, looking up an entry's key finds that entry. */
  lemma {:induction false} LookupDistinct<K>(t: seq<(K, nat)>, i: nat)
    requires DistinctKeys(t) && i < |t|
    ensures Lookup(t, t[i].0) == t[i].1
  {
    if i > 0 {
      assert t[0].0 == KeysOf(t)[0] && t[i].0 == KeysOf(t)[i];
      assert KeysOf(t[1..]) == KeysOf(t)[1..];
      LookupDistinct(t[1..], i - 1);
    }
  }

  /** An element of a duplicate-free sequence occurs at most once. */
  lemma {:induction false} NoDupsMultiplicity<T>(xs: seq<T>, x: T)
    requires NoDups(xs)
    ensures multiset(xs)[x] <= 1
  {
    if |xs| > 0 {
      assert xs == [xs[0]] + xs[1..];
      NoDupsMultiplicity(xs[1..], x);
      if x == xs[0] {
        assert x !in xs[1..];
      }
    }
  }

  /** A permutation of a duplicate-free sequence is duplicate-free. */
  lemma PermutationNoDups<T>(a: seq<T>, b: seq<T>)
    requires multiset(a) == multiset(b) && NoDups(a)
    ensures NoDups(b)
  {
    forall i, j | 0 <= i < j < |b|
      ensures b[i] != b[j]
    {
      if b[i] == b[j] {
        var x := b[i];
        assert b == b[..i] + [x] + b[i + 1..j] + [x] + b[j + 1..];
        assert multiset(b)[x] >= 2;
        NoDupsMultiplicity(a, x);
        assert false;
      }
    }
  }

  /** A tally lists each distinct pair once, since its keys are distinct. */
  lemma TallyOfNoDups<K(!new)>(xs: seq<K>)
    ensures NoDups(TallyOf(xs))
  {
    var t := TallyOf(xs);
    forall i, j | 0 <= i < j < |t| ensures t[i] != t[j] {
      assert KeysOf(t)[i] != KeysOf(t)[j];
    }
  }

  /** Every entry of a reordered tally pairs an element with its exact, positive count. */
  lemma PermutedTallyEntry<K(!new)>(xs: seq<K>, r: seq<(K, nat)>, i: nat)
    requires multiset(r) == multiset(TallyOf(xs)) && i < |r|
    ensures r[i].0 in xs && r[i].1 == Count(xs, r[i].0) && r[i].1 > 0
  {
    var t := TallyOf(xs);
    assert r[i] in multiset(t);
    var m :| 0 <= m < |t| && t[m] == r[i];
    LookupDistinct(t, m);
    assert KeysOf(t)[m] in Dedupe(xs);
  }

  /** A reordered tally still has distinct keys. */
  lemma PermutedTallyDistinct<K(!new)>(xs: seq<K>, r: seq<(K, nat)>)
    requires multiset(r) == multiset(TallyOf(xs))
    ensures DistinctKeys(r)
  {
    TallyOfNoDups(xs);
    PermutationNoDups(TallyOf(xs), r);
    forall i, j | 0 <= i < j < |r| ensures KeysOf(r)[i] != KeysOf(r)[j] {
      PermutedTallyEntry(xs, r, i);
      PermutedTallyEntry(xs, r, j);
    }
  }

  /** Every element of `xs` has its entry, with its count, in a reordered tally. */
  lemma PermutedTallyHas<K(!new)>(xs: seq<K>, r: seq<(K, nat)>, x: K)
    requires multiset(r) == multiset(TallyOf(xs)) && x in xs
    ensures (x, Count(xs, x)) in r
  {
    var t := TallyOf(xs);
    assert x in KeysOf(t);
    var m :| 0 <= m < |t| && KeysOf(t)[m] == x;
    LookupDistinct(t, m);
    assert t[m] in multiset(r);
  }

  /** A prefix of a counter with distinct keys has distinct keys. */
  lemma TakeDistinctKeys<K>(t: seq<(K, nat)>, n: nat)
    requires DistinctKeys(t)
    ensures DistinctKeys(Take(t, n))
  {
    var r := Take(t, n);
    assert forall i :: 0 <= i < |r| ==> KeysOf(r)[i] == KeysOf(t)[i];
  }

  function SumCounts<K>(t: seq<(K, nat)>): nat {
    if |t| == 0 then 0 else t[0].1 + SumCounts(t[1..])
  }

  lemma {:induction false} SumCountsBump<K(!new)>(t: seq<(K, nat)>, k: K)
    ensures SumCounts(Bump(t, k)) == SumCounts(t) + 1
  {
    if |t| > 0 && t[0].0 != k {
      SumCountsBump(t[1..], k);
      assert ([t[0]] + Bump(t[1..], k))[1..] == Bump(t[1..], k);
    }
  }

  /** The counts of a tally add up to the number of elements counted. */
  lemma {:induction false} SumCountsTallyOf<K(!new)>(xs: seq<K>)
    ensures SumCounts(TallyOf(xs)) == |xs|
  {
    if |xs| > 0 {
      SumCountsTallyOf(xs[..|xs| - 1]);
      SumCountsBump(TallyOf(xs[..|xs| - 1]), xs[|xs| - 1]);
    }
  }

  lemma {:induction false} SumCountsAppend<K>(a: seq<(K, nat)>, b: seq<(K, nat)>)
    ensures SumCounts(a + b) == SumCounts(a) + SumCounts(b)
  {
    if |a| == 0 {
      assert a + b == b;
    } else {
      assert (a + b)[1..] == a[1..] + b;
      SumCountsAppend(a[1..], b);
    }
  }

  lemma {:induction false} SumCountsPermutation<K>(a: seq<(K, nat)>, b: seq<(K, nat)>)
    requires multiset(a) == multiset(b)
    ensures SumCounts(a) == SumCounts(b)
    decreases |a|
  {
    if |a| > 0 {
      assert a[0] in multiset(b);
      var k :| 0 <= k < |b| && b[k] == a[0];
      RemoveMatching(a, b, k);
      SumCountsPermutation(a[1..], b[..k] + b[k + 1..]);
      SumCountsRemove(b, k);
    }
  }

  /** Taking the same element off two permutations of each other leaves permutations. */
  lemma RemoveMatching<T>(a: seq<T>, b: seq<T>, k: nat)
    requires multiset(a) == multiset(b) && |a| > 0 && k < |b| && b[k] == a[0]
    ensures multiset(a[1..]) == multiset(b[..k] + b[k + 1..])
  {
    assert b == b[..k] + [b[k]] + b[k + 1..];
    assert a == [a[0]] + a[1..];
    assert multiset(b) == multiset(b[..k]) + multiset{b[k]} + multiset(b[k + 1..]);
    assert multiset(a) == multiset{a[0]} + multiset(a[1..]);
    assert multiset(b[..k] + b[k + 1..]) == multiset(b[..k]) + multiset(b[k + 1..]);
    calc {
      multiset(a[1..]);
      multiset(a) - multiset{a[0]};
      multiset(b) - multiset{b[k]};
      multiset(b[..k] + b[k + 1..]);
    }
  }

  /** The total of a table is one entry's count plus the total of the rest. */
  lemma SumCountsRemove<K>(b: seq<(K, nat)>, k: nat)
    requires k < |b|
    ensures SumCounts(b) == b[k].1 + SumCounts(b[..k] + b[k + 1..])
  {
    var tail: seq<(K, nat)> := [b[k]] + b[k + 1..];
    SumCountsAppend(b[..k], tail);
    SumCountsAppend(b[..k], b[k + 1..]);
    assert tail[1..] == b[k + 1..];
    assert b == b[..k] + tail;
  }

  // ---------------------------------------------------------------------------
  // Stable sort by an integer key (`xs.sort((a, b) => key(a) - key(b))`)
  // ---------------------------------------------------------------------------

  predicate SortedBy<T>(xs: seq<T>, key: T -> int) {
    forall i, j :: 0 <= i < j < |xs| ==> key(xs[i]) <= key(xs[j])
  }

  /** Inserts `x` after every element whose key is not greater than its own, so that
      among equal keys earlier insertions stay first. */
  function InsertBy<T>(x: T, xs: seq<T>, key: T -> int): (r: seq<T>)
    ensures multiset(r) == multiset(xs) + multiset{x}
  {
    if |xs| == 0 then [x]
    else if key(x) < key(xs[0]) then
      assert xs == [xs[0]] + xs[1..];
      [x] + xs
    else
      assert xs == [xs[0]] + xs[1..];
      [xs[0]] + InsertBy(x, xs[1..], key)
  }

  lemma {:induction false} InsertBySorted<T>(x: T, xs: seq<T>, key: T -> int)
    requires SortedBy(xs, key)
    ensures SortedBy(InsertBy(x, xs, key), key)
  {
    if |xs| > 0 && key(x) >= key(xs[0]) {
      var rest := InsertBy(x, xs[1..], key);
      InsertBySorted(x, xs[1..], key);
      forall y | y in multiset(rest)
        ensures key(xs[0]) <= key(y)
      {
        if y != x {
          assert y in multiset(xs[1..]);
          var m :| 0 <= m < |xs[1..]| && xs[1..][m] == y;
          assert key(xs[0]) <= key(xs[m + 1]);
        }
      }
      forall i, j | 0 <= i < j < |[xs[0]] + rest|
        ensures key(([xs[0]] + rest)[i]) <= key(([xs[0]] + rest)[j])
      {
        if i == 0 {
          assert rest[j - 1] in multiset(rest);
        }
      }
    }
  }

  /** Stable insertion sort by ascending key. */
  function SortBy<T>(xs: seq<T>, key: T -> int): (r: seq<T>)
    ensures multiset(r) == multiset(xs)
    ensures SortedBy(r, key)
  {
    if |xs| == 0 then []
    else
      assert xs == xs[..|xs| - 1] + [xs[|xs| - 1]];
      InsertBySorted(xs[|xs| - 1], SortBy(xs[..|xs| - 1], key), key);
      InsertBy(xs[|xs| - 1], SortBy(xs[..|xs| - 1], key), key)
  }

  /** `InsertBy` puts `x` after the leading elements whose key is at most its own and
      before the first whose key is greater. */
  lemma {:induction false} InsertBySplits<T>(x: T, xs: seq<T>, key: T -> int) returns (k: nat)
    ensures k <= |xs| && InsertBy(x, xs, key) == xs[..k] + [x] + xs[k..]
    ensures forall i :: 0 <= i < k ==> key(xs[i]) <= key(x)
    ensures k < |xs| ==> key(x) < key(xs[k])
  {
    if |xs| == 0 || key(x) < key(xs[0]) {
      k := 0;
      assert xs[..0] + [x] + xs[0..] == [x] + xs;
    } else {
      var tail := xs[1..];
      var m := InsertBySplits(x, tail, key);
      k := m + 1;
      InsertAfterHead(x, xs, key, m);
    }
  }

  lemma InsertAfterHead<T>(x: T, xs: seq<T>, key: T -> int, m: nat)
    requires |xs| > 0 && key(x) >= key(xs[0]) && m <= |xs| - 1
    requires InsertBy(x, xs[1..], key) == xs[1..][..m] + [x] + xs[1..][m..]
    ensures InsertBy(x, xs, key) == xs[..m + 1] + [x] + xs[m + 1..]
  {
    InsertByUnfold(x, xs, key);
    ConsSplit(xs, m, x, InsertBy(x, xs[1..], key));
  }

  lemma InsertByUnfold<T>(x: T, xs: seq<T>, key: T -> int)
    requires |xs| > 0 && key(x) >= key(xs[0])
    ensures InsertBy(x, xs, key) == [xs[0]] + InsertBy(x, xs[1..], key)
  {
  }

  lemma ConsSplit<T>(xs: seq<T>, m: nat, x: T, ins: seq<T>)
    requires 0 < |xs| && m < |xs| && ins == xs[1..][..m] + [x] + xs[1..][m..]
    ensures [xs[0]] + ins == xs[..m + 1] + [x] + xs[m + 1..]
  {
    assert xs[..m + 1] == [xs[0]] + xs[1..][..m];
    assert xs[m + 1..] == xs[1..][m..];
  }

  /** Position of the first occurrence of `x` in `xs`, or `|xs|` when there is none. */
  function FirstSeen<T(==)>(xs: seq<T>, x: T): (k: nat)
    ensures k <= |xs|
    ensures x in xs ==> k < |xs| && xs[k] == x
    ensures forall i :: 0 <= i < k ==> xs[i] != x
  {
    if x in xs then IndexOf(xs, x) else |xs|
  }

  /** Elements with equal keys appear in increasing `rank`. */
  predicate StableBy<T>(xs: seq<T>, key: T -> int, rank: T -> int) {
    forall i, j :: 0 <= i < j < |xs| && key(xs[i]) == key(xs[j]) ==> rank(xs[i]) < rank(xs[j])
  }

  /** `SortBy` is stable: when the input lists its elements in increasing `rank`,
      elements with equal keys come out in increasing `rank` too. */
  lemma {:induction false} SortByStable<T>(xs: seq<T>, key: T -> int, rank: T -> int)
    requires forall i, j :: 0 <= i < j < |xs| ==> rank(xs[i]) < rank(xs[j])
    ensures StableBy(SortBy(xs, key), key, rank)
  {
    if |xs| > 0 {
      var n := |xs|;
      var init, x := xs[..n - 1], xs[n - 1];
      assert xs == init + [x];
      var S := SortBy(init, key);
      SortByStable(init, key, rank);
      var k := InsertBySplits(x, S, key);
      assert SortBy(xs, key) == InsertBy(x, S, key);
      InsertStable(init, x, S, k, key, rank);
    }
  }

  /** Inserting an element of higher rank than all before it, ahead of the first greater
      key, keeps equal keys in increasing rank. */
  lemma InsertStable<T>(init: seq<T>, x: T, S: seq<T>, k: nat, key: T -> int, rank: T -> int)
    requires forall m :: 0 <= m < |init| ==> rank(init[m]) < rank(x)
    requires multiset(S) == multiset(init) && SortedBy(S, key) && StableBy(S, key, rank)
    requires k <= |S| && (k < |S| ==> key(x) < key(S[k]))
    ensures StableBy(S[..k] + [x] + S[k..], key, rank)
  {
    var r := S[..k] + [x] + S[k..];
    forall i, j | 0 <= i < j < |r| && key(r[i]) == key(r[j])
      ensures rank(r[i]) < rank(r[j])
    {
      StableStep(init, x, S, k, key, rank, i, j);
    }
  }

  /** One insertion keeps the order of equal keys: the inserted element has the highest
      rank and goes after every element with its key. */
  lemma StableStep<T>(init: seq<T>, x: T, S: seq<T>, k: nat, key: T -> int, rank: T -> int, i: nat, j: nat)
    requires forall m :: 0 <= m < |init| ==> rank(init[m]) < rank(x)
    requires multiset(S) == multiset(init) && SortedBy(S, key)
    requires StableBy(S, key, rank)
    requires k <= |S| && (k < |S| ==> key(x) < key(S[k]))
    requires i < j < |S| + 1
    requires key((S[..k] + [x] + S[k..])[i]) == key((S[..k] + [x] + S[k..])[j])
    ensures rank((S[..k] + [x] + S[k..])[i]) < rank((S[..k] + [x] + S[k..])[j])
  {
    var r := S[..k] + [x] + S[k..];
    if i == k {
      assert false;
    } else if j == k {
      assert r[i] == S[i];
      assert S[i] in multiset(init);
    } else {
      var a := if i < k then i else i - 1;
      var b := if j < k then j else j - 1;
      assert r[i] == S[a] && r[j] == S[b] && a < b;
    }
  }

  lemma PermutationLength<T>(a: seq<T>, b: seq<T>)
    requires multiset(a) == multiset(b)
    ensures |a| == |b|
  {
    assert |multiset(a)| == |a| && |multiset(b)| == |b|;
  }
}

=== FILE: indeed.dfy ===
/**
  The Indeed adapter: result pages `0..pages-1` are fetched as HTML and every job card
  on them becomes a listing. Fetching a page (plain HTTP, then a headless browser) is
  the function `fetch` from the URL to the cards found or the first failure's message;
  `encode` stands for `encodeURIComponent`. The first page that cannot be fetched
  ends the whole scrape with an error.
 */
module Indeed {

  import opened Wrappers
  import opened Text
  import opened Collections
  import opened Listings

  const Name: string := "indeed"
  const BaseUrl: string := "https://www.indeed.co.in"
  /** Listings per result page: page `p` starts at result `10 * p`. */
  const PageSize: nat := 10

  /** The text of each selector inside one job card (empty when absent) and the `href`
      of the title's parent link. */
  datatype Card = Card(
    title: string,
    company: string,
    location: string,
    salary: string,
    description: string,
    href: Option<string>)

  /** What fetching one result page yields. */
  datatype PageFetch = Loaded(cards: seq<Card>) | FetchFailed(reason: string)

  /** The URL of result page `page`. */
  function PageUrl(query: string, location: string, page: nat, encode: string -> string): (u: string)
    ensures StartsWith(u, BaseUrl + "/jobs?q=")
    ensures EndsWith(u, "&start=" + NatToString(PageSize * page))
    ensures u == BaseUrl + "/jobs?q=" + encode(query) + "&l=" + encode(location) + "&start=" + NatToString(PageSize * page)
  {
    var head := BaseUrl + "/jobs?q=";
    var tail := "&start=" + NatToString(PageSize * page);
    var u := head + encode(query) + "&l=" + encode(location) + tail;
    assert u[..|head|] == head;
    assert u[|u| - |tail|..] == tail;
    u
  }

  /** Different pages are fetched from different URLs. */
  lemma PageUrlInjective(query: string, location: string, p: nat, q: nat, encode: string -> string)
    requires PageUrl(query, location, p, encode) == PageUrl(query, location, q, encode)
    ensures p == q
  {
    var u := PageUrl(query, location, p, encode);
    var head := BaseUrl + "/jobs?q=" + encode(query) + "&l=" + encode(location) + "&start=";
    assert u == head + NatToString(PageSize * p);
    assert u == head + NatToString(PageSize * q);
    assert u[|head|..] == NatToString(PageSize * p);
    assert u[|head|..] == NatToString(PageSize * q);
    NatToStringInjective(PageSize * p, PageSize * q);
  }

  /** `baseUrl + href`; a missing `href` is printed as `undefined`. */
  function CardUrl(card: Card): (u: string)
    ensures StartsWith(u, BaseUrl)
    ensures u[|BaseUrl|..] == card.href.GetOr("undefined")
  {
    var u := BaseUrl + card.href.GetOr("undefined");
    assert u[..|BaseUrl|] == BaseUrl;
    u
  }

  /** The record built from a card: every text trimmed, the source named, the URL joined. */
  function CardRecord(card: Card): RawJob {
    RawJob(
      title := Some(Trim(card.title)),
      company := Some(Trim(card.company)),
      location := Some(Trim(card.location)),
      description := Some(Trim(card.description)),
      salary := Some(Trim(card.salary)),
      skills := NoSkills,
      source := Some(Name),
      url := Some(CardUrl(card)))
  }

  /** A card is kept when its title and description are not blank. */
  predicate KeepsCard(card: Card) {
    !AllSpace(card.title) && !AllSpace(card.description)
  }

  /** The listing built from a card: trimmed texts, this adapter's name, and the skills
      found in the trimmed description. */
  function CardJob(card: Card, timestamp: string): (j: Job)
    ensures j.source == Name && j.timestamp == timestamp
    ensures j.title == Trim(card.title) && j.description == Trim(card.description)
    ensures j.company == Trim(card.company) && j.location == Trim(card.location)
    ensures j.salary == Trim(card.salary) && j.url == Trim(CardUrl(card))
    ensures j.description != "" ==> j.skills == ExtractSkills(j.description)
  {
    var raw := CardRecord(card);
    assert raw.source == Some(Name);
    assert Truthy(raw.source);
    var r := NormalizeJob(Some(raw), Name, timestamp);
    assert r.value.source == Name;
    TrimIdempotent(card.title);
    TrimIdempotent(card.description);
    TrimIdempotent(card.company);
    TrimIdempotent(card.location);
    TrimIdempotent(card.salary);
    r.value
  }

  /** A listing's URL is the base URL followed by the card's link, or by `undefined`
      when the card has none; only white space ending the link is trimmed off. */
  lemma CardJobUrl(card: Card, timestamp: string)
    requires card.href.Some? && card.href.value != [] ==> !IsSpace(card.href.value[|card.href.value| - 1])
    ensures CardJob(card, timestamp).url == BaseUrl + card.href.GetOr("undefined")
  {
    var u := CardUrl(card);
    var h := card.href.GetOr("undefined");
    assert u == BaseUrl + h;
    assert u[0] == 'h';
    if h == [] {
      assert u[|u| - 1] == 'n';
    } else {
      assert u[|u| - 1] == h[|h| - 1];
    }
    assert IsTrimmed(u);
  }

  /** What every listing of this adapter satisfies. */
  predicate Listed(j: Job) {
    && j.title != "" && j.description != ""
    && j.source == Name
    && StartsWith(j.url, BaseUrl)
    && j.skills == ExtractSkills(j.description)
  }

  /** A kept card yields a listing with a title, a description and a URL on the site. */
  lemma CardJobListed(card: Card, timestamp: string)
    requires KeepsCard(card)
    ensures Listed(CardJob(card, timestamp))
  {
    var u := CardUrl(card);
    TrimKeepsLeadingWord(u, |BaseUrl|);
    assert u[..|BaseUrl|] == BaseUrl;
  }

  /** The listings of one loaded page: its kept cards, normalized in page order, the
      `k`-th when the clock reads `stamp(k)`. */
  function PageJobs(cards: seq<Card>, stamp: nat -> string): (js: seq<Job>)
    ensures |js| == |Filter(cards, KeepsCard)|
    ensures forall k :: 0 <= k < |js| ==> Listed(js[k]) && js[k].timestamp == stamp(k)
  {
    var kept := Filter(cards, KeepsCard);
    FilterKeeps(cards, KeepsCard, c => true);
    var js := seq(|kept|, k requires 0 <= k < |kept| => CardJob(kept[k], stamp(k)));
    forall k | 0 <= k < |js| ensures Listed(js[k]) && js[k].timestamp == stamp(k) {
      CardJobListed(kept[k], stamp(k));
    }
    js
  }

  /** The `k`-th listing of a page is built from its `k`-th kept card, in page order. */
  lemma PageJobsInCardOrder(cards: seq<Card>, stamp: nat -> string, k: nat)
    requires k < |PageJobs(cards, stamp)|
    ensures PageJobs(cards, stamp)[k] == CardJob(Filter(cards, KeepsCard)[k], stamp(k))
  {
  }

  /** `scrape(query, location, pages)` after the first `n` pages. */
  function ScrapePages(query: string, location: string, n: int, encode: string -> string,
                       fetch: string -> PageFetch, clock: Clock): (r: Result<seq<Job>>)
    ensures n <= 0 ==> r == Ok([])
    decreases if n < 0 then 0 else n
  {
    if n <= 0 then Ok([])
    else match ScrapePages(query, location, n - 1, encode, fetch, clock)
      case Err(e) => Err(e)
      case Ok(js) =>
        var url := PageUrl(query, location, n - 1, encode);
        match fetch(url)
        case FetchFailed(reason) => Err("Failed to fetch " + url + ": " + reason)
        case Loaded(cards) => Ok(js + PageJobs(cards, clock(n - 1)))
  }

  /** A successful scrape of `n` pages is the scrape of the first `n - 1` pages followed
      by the listings of page `n - 1`: pages are kept in the order they are requested. */
  lemma ScrapePagesStep(query: string, location: string, n: int, encode: string -> string,
                        fetch: string -> PageFetch, clock: Clock)
    requires n >= 1 && ScrapePages(query, location, n, encode, fetch, clock).Ok?
    ensures var prev := ScrapePages(query, location, n - 1, encode, fetch, clock);
      var page := fetch(PageUrl(query, location, n - 1, encode));
      && prev.Ok? && page.Loaded?
      && ScrapePages(query, location, n, encode, fetch, clock).value == prev.value + PageJobs(page.cards, clock(n - 1))
  {
  }

  function Scrape(query: string, location: string, pages: int, encode: string -> string,
                  fetch: string -> PageFetch, clock: Clock): Result<seq<Job>> {
    ScrapePages(query, location, pages, encode, fetch, clock)
  }

  /** The page URLs the scrape requests. */
  predicate AllLoad(query: string, location: string, n: int, encode: string -> string, fetch: string -> PageFetch) {
    forall p: nat :: p < n ==> fetch(PageUrl(query, location, p, encode)).Loaded?
  }

  /** A listing stamped while one of pages `0..n-1` was read. */
  ghost predicate ScrapeStamped(j: Job, clock: Clock, n: int) {
    exists p: nat, k: nat :: p < n && j.timestamp == clock(p)(k)
  }

  /** The scrape succeeds exactly when every requested page loads, and then every
      listing it returns has a title, a description, this adapter's name, a URL on the
      site and a clock reading taken while one of the pages was read. */
  lemma {:induction false} ScrapeSucceedsIffAllLoad(query: string, location: string, n: int, encode: string -> string,
                                                    fetch: string -> PageFetch, clock: Clock)
    ensures ScrapePages(query, location, n, encode, fetch, clock).Ok? <==> AllLoad(query, location, n, encode, fetch)
    ensures ScrapePages(query, location, n, encode, fetch, clock).Ok? ==>
      forall j :: j in ScrapePages(query, location, n, encode, fetch, clock).value ==> Listed(j) && ScrapeStamped(j, clock, n)
  {
    ScrapeOkIffAllLoad(query, location, n, encode, fetch, clock);
    if ScrapePages(query, location, n, encode, fetch, clock).Ok? {
      ScrapeListed(query, location, n, encode, fetch, clock);
    }
  }

  lemma {:induction false} ScrapeOkIffAllLoad(query: string, location: string, n: int, encode: string -> string,
                                              fetch: string -> PageFetch, clock: Clock)
    ensures ScrapePages(query, location, n, encode, fetch, clock).Ok? <==> AllLoad(query, location, n, encode, fetch)
    decreases if n < 0 then 0 else n
  {
    if n > 0 {
      ScrapeOkIffAllLoad(query, location, n - 1, encode, fetch, clock);
      ScrapeOkStep(query, location, n, encode, fetch, clock);
      AllLoadStep(query, location, n, encode, fetch);
    }
  }

  /** A scrape of `n` pages succeeds exactly when the first `n - 1` do and page `n - 1` loads. */
  lemma ScrapeOkStep(query: string, location: string, n: int, encode: string -> string,
                     fetch: string -> PageFetch, clock: Clock)
    requires n > 0
    ensures ScrapePages(query, location, n, encode, fetch, clock).Ok? <==>
      ScrapePages(query, location, n - 1, encode, fetch, clock).Ok? && fetch(PageUrl(query, location, n - 1, encode)).Loaded?
  {
  }

  /** All of the first `n` pages load exactly when the first `n - 1` and page `n - 1` do. */
  lemma AllLoadStep(query: string, location: string, n: int, encode: string -> string, fetch: string -> PageFetch)
    requires n > 0
    ensures AllLoad(query, location, n, encode, fetch) <==>
      AllLoad(query, location, n - 1, encode, fetch) && fetch(PageUrl(query, location, n - 1, encode)).Loaded?
  {
    if AllLoad(query, location, n - 1, encode, fetch) && fetch(PageUrl(query, location, n - 1, encode)).Loaded? {
      AllLoadExtends(query, location, n, encode, fetch);
    }
  }

  lemma {:induction false} ScrapeListed(query: string, location: string, n: int, encode: string -> string,
                                        fetch: string -> PageFetch, clock: Clock)
    requires ScrapePages(query, location, n, encode, fetch, clock).Ok?
    ensures forall j :: j in ScrapePages(query, location, n, encode, fetch, clock).value ==> Listed(j) && ScrapeStamped(j, clock, n)
    decreases if n < 0 then 0 else n
  {
    if n > 0 {
      ScrapePagesStep(query, location, n, encode, fetch, clock);
      ScrapeListed(query, location, n - 1, encode, fetch, clock);
      LastPageListed(query, location, n, encode, fetch, clock);
    }
  }

  lemma AllLoadExtends(query: string, location: string, n: int, encode: string -> string, fetch: string -> PageFetch)
    requires n > 0 && AllLoad(query, location, n - 1, encode, fetch)
    requires fetch(PageUrl(query, location, n - 1, encode)).Loaded?
    ensures AllLoad(query, location, n, encode, fetch)
  {
    forall p: nat | p < n ensures fetch(PageUrl(query, location, p, encode)).Loaded? {
      if p < n - 1 {
        assert AllLoad(query, location, n - 1, encode, fetch);
      }
    }
  }

  /** Adding a loaded page keeps every listing listed and stamped within the pages read. */
  lemma LastPageListed(query: string, location: string, n: int, encode: string -> string,
                       fetch: string -> PageFetch, clock: Clock)
    requires n > 0
    requires ScrapePages(query, location, n - 1, encode, fetch, clock).Ok?
    requires forall j :: j in ScrapePages(query, location, n - 1, encode, fetch, clock).value ==>
      Listed(j) && ScrapeStamped(j, clock, n - 1)
    requires fetch(PageUrl(query, location, n - 1, encode)).Loaded?
    ensures forall j :: j in ScrapePages(query, location, n, encode, fetch, clock).value ==> Listed(j) && ScrapeStamped(j, clock, n)
  {
    ScrapePagesStep(query, location, n, encode, fetch, clock);
    var js := ScrapePages(query, location, n - 1, encode, fetch, clock).value;
    var page := PageJobs(fetch(PageUrl(query, location, n - 1, encode)).cards, clock(n - 1));
    AppendListed(js, page, clock, n);
  }

  lemma AppendListed(js: seq<Job>, page: seq<Job>, clock: Clock, n: nat)
    requires n > 0
    requires forall j :: j in js ==> Listed(j) && ScrapeStamped(j, clock, n - 1)
    requires forall k :: 0 <= k < |page| ==> Listed(page[k]) && page[k].timestamp == clock(n - 1)(k)
    ensures forall j :: j in js + page ==> Listed(j) && ScrapeStamped(j, clock, n)
  {
    forall j: Job | j in js + page
      ensures Listed(j) && ScrapeStamped(j, clock, n)
    {
      if j in js {
        var p: nat, k: nat :| p < n - 1 && j.timestamp == clock(p)(k);
        assert p < n && j.timestamp == clock(p)(k);
      } else {
        var k :| 0 <= k < |page| && page[k] == j;
        assert j.timestamp == clock(n - 1)(k);
      }
    }
  }

  /** The error of a failed scrape names the first page that did not load. */
  lemma {:induction false} ScrapeErrorNamesFirstFailure(query: string, location: string, n: int, f: nat,
                                                        encode: string -> string, fetch: string -> PageFetch,
                                                        clock: Clock)
    requires 0 <= f < n
    requires AllLoad(query, location, f, encode, fetch)
    requires fetch(PageUrl(query, location, f, encode)).FetchFailed?
    ensures ScrapePages(query, location, n, encode, fetch, clock) ==
      Err("Failed to fetch " + PageUrl(query, location, f, encode) + ": "
        + fetch(PageUrl(query, location, f, encode)).reason)
    decreases n
  {
    if n - 1 == f {
      ScrapeSucceedsIffAllLoad(query, location, f, encode, fetch, clock);
    } else {
      ScrapeErrorNamesFirstFailure(query, location, n - 1, f, encode, fetch, clock);
    }
  }
}

=== FILE: jsearch.dfy ===
/**
  The JSearch adapter: a scraper configured from an API key, and its paged search.
  Each page is one `fetchApi` call, abstracted as the function `respond` from the
  request to its outcome; a failing page is logged and skipped.
 */
module JSearch {

  import opened Wrappers
  import opened Text
  import opened Collections
  import opened Listings

  const Name: string := "jsearch"
  const SearchUrl: string := "https://jsearch.p.rapidapi.com/search"

  /** The key format the constructor accepts: one or more letters, digits, `-` or `_`. */
  predicate KeyChar(c: char) {
    ('a' <= c <= 'z') || ('A' <= c <= 'Z') || ('0' <= c <= '9') || c == '-' || c == '_'
  }

  predicate ValidKey(key: string) {
    |key| > 0 && forall i :: 0 <= i < |key| ==> KeyChar(key[i])
  }

  /** What `new JSearchScraper()` yields: a working scraper holding its key, or (key
      missing or malformed) the plain placeholder object, which has no `search` method. */
  datatype Handle = Configured(apiKey: string) | Placeholder

  function Construct(apiKey: Option<string>): (h: Handle)
    ensures h.Configured? <==> apiKey.Some? && ValidKey(apiKey.value)
    ensures h.Configured? ==> h.apiKey == apiKey.value
  {
    if apiKey.None? || apiKey.value == "" then Placeholder
    else if !ValidKey(apiKey.value) then Placeholder
    else Configured(apiKey.value)
  }

  /** One `fetchApi` call of the search loop: its query parameters and its key header. */
  datatype Request = Request(url: string, query: string, page: nat, numPages: nat, apiKey: string)

  function PageRequest(apiKey: string, query: string, location: string, page: nat): (r: Request)
    ensures r.url == SearchUrl && r.page == page && r.numPages == 1 && r.apiKey == apiKey
    ensures r.query == query + " in " + location
  {
    Request(SearchUrl, query + " in " + location, page, 1, apiKey)
  }

  /** A listing of the API's `data` array; `None` is an absent field, and a numeric field
      is falsy when absent or zero. */
  datatype ApiJob = ApiJob(
    jobTitle: Option<string>,
    employerName: Option<string>,
    jobCity: Option<string>,
    jobCountry: Option<string>,
    jobDescription: Option<string>,
    minSalary: Option<nat>,
    maxSalary: Option<nat>,
    currency: Option<string>,
    applyLink: Option<string>)

  /** The response body: `data` holds an array of listings, or it does not. */
  datatype Body = Listing(data: seq<ApiJob>) | NoListing

  predicate TruthyNat(n: Option<nat>) {
    n.Some? && n.value != 0
  }

  /** `a || b` on optional strings. */
  function Or(a: Option<string>, b: string): (r: string)
    ensures Truthy(a) ==> r == a.value
    ensures !Truthy(a) ==> r == b
  {
    if Truthy(a) then a.value else b
  }

  /** The salary text: `min-max currency` when a minimum is given, with a missing
      maximum or currency left empty, and empty without a minimum. */
  function SalaryText(j: ApiJob): (s: string)
    ensures !TruthyNat(j.minSalary) <==> s == ""
    ensures TruthyNat(j.minSalary) ==>
      s == NatToString(j.minSalary.value) + "-" + MaxText(j.maxSalary) + " " + Or(j.currency, "")
  {
    if TruthyNat(j.minSalary) then
      NatToString(j.minSalary.value) + "-" + MaxText(j.maxSalary) + " " + Or(j.currency, "")
    else ""
  }

  /** `${job_max_salary || ''}`. */
  function MaxText(max: Option<nat>): (t: string)
    ensures TruthyNat(max) ==> t == NatToString(max.value)
    ensures !TruthyNat(max) ==> t == ""
  {
    if TruthyNat(max) then NatToString(max.value) else ""
  }

  /** The salary text starts with the minimum and a hyphen. */
  lemma SalaryTextLeadsWithMinimum(j: ApiJob)
    requires TruthyNat(j.minSalary)
    ensures StartsWith(SalaryText(j), NatToString(j.minSalary.value) + "-")
  {
    var head := NatToString(j.minSalary.value) + "-";
    assert SalaryText(j)[..|head|] == head;
  }

  /** The raw record the adapter hands to `normalizeJob`; it names no source. */
  function ToRawJob(j: ApiJob, location: string): RawJob {
    var description := Or(j.jobDescription, "");
    RawJob(
      title := Some(Or(j.jobTitle, "")),
      company := Some(Or(j.employerName, "")),
      location := Some(Or(j.jobCity, Or(j.jobCountry, location))),
      description := Some(description),
      salary := Some(SalaryText(j)),
      skills := SkillList(ExtractSkills(description)),
      source := None,
      url := Some(Or(j.applyLink, "")))
  }

  /** The listing built from an API record, with this adapter's name and the clock reading. */
  function Normalize(j: ApiJob, location: string, timestamp: string): (r: Job)
    ensures r.source == Name && r.timestamp == timestamp
    ensures r.skills == ExtractSkills(Or(j.jobDescription, ""))
  {
    NormalizeJob(Some(ToRawJob(j, location)), Name, timestamp).value
  }

  /** The fields of a listing built from an API record: title, company, description and
      apply link taken over, the city, else the country, else the searched location, and
      the salary text, each trimmed and empty when missing. */
  lemma NormalizeFields(j: ApiJob, location: string, timestamp: string)
    ensures var r := Normalize(j, location, timestamp);
      && r.title == Trim(Or(j.jobTitle, "")) && r.company == Trim(Or(j.employerName, ""))
      && r.location == Trim(Or(j.jobCity, Or(j.jobCountry, location)))
      && r.description == Trim(Or(j.jobDescription, "")) && r.salary == Trim(SalaryText(j))
      && r.url == Trim(Or(j.applyLink, ""))
  {
  }

  /** A normalized listing the search keeps: a title and a description survive trimming. */
  predicate Kept(r: Job) {
    r.title != "" && r.description != ""
  }

  /** A listing this adapter produced, stamped with one of the readings of `stamp`. */
  ghost predicate Stamped(r: Job, stamp: nat -> string) {
    r.source == Name && exists k: nat :: r.timestamp == stamp(k)
  }

  /** Record `k` is normalized when the clock reads `stamp(k)`. */
  function NormalizeAll(data: seq<ApiJob>, location: string, stamp: nat -> string): (rs: seq<Job>)
    ensures |rs| == |data| && forall k :: 0 <= k < |data| ==> rs[k] == Normalize(data[k], location, stamp(k))
    ensures forall k :: 0 <= k < |rs| ==> Stamped(rs[k], stamp)
  {
    seq(|data|, k requires 0 <= k < |data| => Normalize(data[k], location, stamp(k)))
  }

  /** The listings one page contributes: none when the call fails or `data` is not an
      array; otherwise the normalized listings that are kept, in record order. */
  function PageJobs(outcome: Result<Body>, location: string, stamp: nat -> string): (js: seq<Job>)
    ensures forall k :: 0 <= k < |js| ==> Kept(js[k]) && Stamped(js[k], stamp)
    ensures outcome.Err? || outcome.value.NoListing? ==> js == []
  {
    match outcome
    case Err(_) => []
    case Ok(NoListing) => []
    case Ok(Listing(data)) =>
      var all := NormalizeAll(data, location, stamp);
      FilterKeeps(all, Kept, r => Stamped(r, stamp));
      Filter(all, Kept)
  }

  /** A page's contribution holds exactly the normalized forms of its listings that
      keep a title and a description. */
  lemma PageJobsMembers(data: seq<ApiJob>, location: string, stamp: nat -> string, r: Job)
    ensures r in PageJobs(Ok(Listing(data)), location, stamp) <==>
      Kept(r) && exists k :: 0 <= k < |data| && r == Normalize(data[k], location, stamp(k))
  {
    assert PageJobs(Ok(Listing(data)), location, stamp) == Filter(NormalizeAll(data, location, stamp), Kept);
    NormalizedMembers(data, location, stamp, r);
  }

  lemma NormalizedMembers(data: seq<ApiJob>, location: string, stamp: nat -> string, r: Job)
    ensures r in NormalizeAll(data, location, stamp) <==>
      exists k :: 0 <= k < |data| && r == Normalize(data[k], location, stamp(k))
  {
    var all := NormalizeAll(data, location, stamp);
    if r in all {
      var k :| 0 <= k < |all| && all[k] == r;
    }
  }

  /** A page keeps its kept listings in record order: its listings are a subsequence of
      the normalized records holding every kept one as often as it occurs there and
      nothing else. */
  lemma PageJobsInRecordOrder(data: seq<ApiJob>, location: string, stamp: nat -> string)
    ensures var js := PageJobs(Ok(Listing(data)), location, stamp);
      var all := NormalizeAll(data, location, stamp);
      && IsSubsequence(js, all)
      && forall r :: Count(js, r) == if Kept(r) then Count(all, r) else 0
  {
    assert PageJobs(Ok(Listing(data)), location, stamp) == Filter(NormalizeAll(data, location, stamp), Kept);
    FilterInOrder(NormalizeAll(data, location, stamp), Kept);
  }

  /** The listings page `p` of the search contributes, stamped by the clock readings of
      that page. */
  function PageOf(apiKey: string, query: string, location: string,
                  respond: Request -> Result<Body>, clock: Clock, p: nat): seq<Job> {
    PageJobs(respond(PageRequest(apiKey, query, location, p)), location, clock(p))
  }

  /** `search(query, location, pages)`: pages `1..pages` are requested in order and
      their kept listings appended, so the result is the result for one page fewer
      followed by the last page's listings. */
  function Search(apiKey: string, query: string, location: string, pages: int,
                  respond: Request -> Result<Body>, clock: Clock): (js: seq<Job>)
    ensures pages <= 0 ==> js == []
    ensures pages >= 1 ==>
      js == Search(apiKey, query, location, pages - 1, respond, clock) + PageOf(apiKey, query, location, respond, clock, pages)
  {
    Gather(pages, p => PageOf(apiKey, query, location, respond, clock, p))
  }

  /** A listing is in the search result exactly when one of the requested pages
      contributed it: a failing page drops its own listings and no others. */
  lemma SearchCollectsPages(apiKey: string, query: string, location: string, pages: int,
                            respond: Request -> Result<Body>, clock: Clock, r: Job)
    ensures r in Search(apiKey, query, location, pages, respond, clock) <==>
      exists p: nat :: 1 <= p <= pages && r in PageOf(apiKey, query, location, respond, clock, p)
  {
    var f := p => PageOf(apiKey, query, location, respond, clock, p);
    assert Search(apiKey, query, location, pages, respond, clock) == Gather(pages, f);
    GatherMembers(pages, f, r);
    assert forall p: nat :: f(p) == PageOf(apiKey, query, location, respond, clock, p);
  }

  /** A listing stamped while one of pages `1..pages` was read. */
  ghost predicate SearchStamped(r: Job, clock: Clock, pages: int) {
    r.source == Name && exists p: nat, k: nat :: 1 <= p <= pages && r.timestamp == clock(p)(k)
  }

  /** Every listing the search returns has a title and a description, this adapter's
      name, and a clock reading taken while one of the requested pages was read. */
  lemma SearchResultsKeptAndStamped(apiKey: string, query: string, location: string, pages: int,
                                    respond: Request -> Result<Body>, clock: Clock)
    ensures forall r :: r in Search(apiKey, query, location, pages, respond, clock) ==>
      Kept(r) && SearchStamped(r, clock, pages)
  {
    forall r | r in Search(apiKey, query, location, pages, respond, clock)
      ensures Kept(r) && SearchStamped(r, clock, pages)
    {
      SearchCollectsPages(apiKey, query, location, pages, respond, clock, r);
      var p: nat :| 1 <= p <= pages && r in PageOf(apiKey, query, location, respond, clock, p);
      var page := PageOf(apiKey, query, location, respond, clock, p);
      var i :| 0 <= i < |page| && page[i] == r;
      var k: nat :| r.timestamp == clock(p)(k);
    }
  }

  /** When every page fails, the search returns no listings instead of failing. */
  lemma AllPagesFailing(apiKey: string, query: string, location: string, pages: int,
                        respond: Request -> Result<Body>, clock: Clock)
    requires forall p: nat :: respond(PageRequest(apiKey, query, location, p)).Err?
    ensures Search(apiKey, query, location, pages, respond, clock) == []
  {
    var js := Search(apiKey, query, location, pages, respond, clock);
    if js != [] {
      SearchCollectsPages(apiKey, query, location, pages, respond, clock, js[0]);
    }
  }

  /** The salary a listing carries is the adapter's salary text, trimmed. */
  lemma NormalizedSalary(j: ApiJob, location: string, timestamp: string)
    ensures Normalize(j, location, timestamp).salary == Trim(SalaryText(j))
  {
  }

  /** A listing's salary bucket text is led by its minimum salary. */
  lemma NormalizedSalaryLeadsWithMinimum(j: ApiJob, location: string, timestamp: string)
    requires TruthyNat(j.minSalary)
    ensures StartsWith(Normalize(j, location, timestamp).salary, NatToString(j.minSalary.value) + "-")
  {
    var s := SalaryText(j);
    var head := NatToString(j.minSalary.value) + "-";
    SalaryTextLeadsWithMinimum(j);
    assert s[..|head|] == head;
    TrimKeepsLeadingWord(s, |head|);
  }
}

=== FILE: listings.dfy ===
/**
  The canonical job listing and the two pieces of `BaseScraper` that produce it:
  `normalizeJob`, which trims and defaults a raw record, and `extractSkills`,
  which scans a description with four case-insensitive keyword patterns.
 */
module Listings {

  import opened Wrappers
  import opened Text
  import opened Collections

  /** The clock `normalizeJob` reads: `clock(p)(k)` is `new Date().toISOString()` at the
      moment the `k`-th listing of page `p` is normalized. Nothing is assumed about how
      the readings relate to each other. */
  type Clock = nat -> nat -> string

  /** A normalized job listing. `timestamp` is the capture time, supplied by the caller. */
  datatype Job = Job(
    title: string,
    company: string,
    location: string,
    description: string,
    salary: string,
    skills: seq<string>,
    source: string,
    url: string,
    timestamp: string)

  /** The `skills` field of a raw record: an array, a comma-separated string, or anything else. */
  datatype RawSkills = SkillList(items: seq<string>) | SkillText(text: string) | NoSkills

  /** A raw record as an adapter hands it over; `None` is a missing field. */
  datatype RawJob = RawJob(
    title: Option<string>,
    company: Option<string>,
    location: Option<string>,
    description: Option<string>,
    salary: Option<string>,
    skills: RawSkills,
    source: Option<string>,
    url: Option<string>)

  /** JavaScript truthiness of an optional string. */
  predicate Truthy(s: Option<string>) {
    s.Some? && s.value != ""
  }

  /** `s?.trim() || ''`. */
  function TrimOrEmpty(s: Option<string>): (r: string)
    ensures IsTrimmed(r)
    ensures s.None? ==> r == ""
    ensures s.Some? ==> r == Trim(s.value)
    ensures s.Some? && IsTrimmed(s.value) ==> r == s.value
  {
    match s
    case None => ""
    case Some(v) => Trim(v)
  }

  // ---------------------------------------------------------------------------
  // Skill extraction
  // ---------------------------------------------------------------------------

  /** The alternatives of the four skill patterns, each group in the order the pattern
      tries them (`java(script)?` tries the longer form first). */
  const SkillGroups: seq<seq<string>> := [
    ["javascript", "java", "node.js", "react", "vue.js", "angular", "typescript", "python",
     "ruby", "go", "php", "c++", "c#", "swift", "kotlin"],
    ["aws", "azure", "gcp", "docker", "kubernetes", "terraform", "jenkins", "git", "github",
     "gitlab", "bitbucket"],
    ["sql", "mongodb", "postgresql", "mysql", "redis", "cassandra", "elasticsearch"],
    ["react native", "flutter", "swiftui", "android", "ios"]
  ]

  /** A regular-expression word character (`\w`, ASCII only). */
  predicate IsWordChar(c: char) {
    ('a' <= c <= 'z') || ('A' <= c <= 'Z') || ('0' <= c <= '9') || c == '_'
  }

  predicate WordCharAt(s: string, i: int) {
    0 <= i < |s| && IsWordChar(s[i])
  }

  /** `\b` at position `i`: a word character on exactly one side. */
  predicate Boundary(s: string, i: int) {
    WordCharAt(s, i - 1) != WordCharAt(s, i)
  }

  /** `\bkw\b` matches at `i`, ignoring ASCII case. */
  predicate KeywordAt(s: string, kw: string, i: nat) {
    && i + |kw| <= |s|
    && ToLower(s[i..i + |kw|]) == kw
    && Boundary(s, i)
    && Boundary(s, i + |kw|)
  }

  /** The alternative of `group` the pattern matches at `i`: the first one that matches. */
  function MatchAt(s: string, group: seq<string>, i: nat): (r: Option<string>)
    ensures r.Some? ==> r.value in group && KeywordAt(s, r.value, i)
    ensures r.None? ==> forall kw :: kw in group ==> !KeywordAt(s, kw, i)
  {
    if |group| == 0 then None
    else if KeywordAt(s, group[0], i) then Some(group[0])
    else MatchAt(s, group[1..], i)
  }

  predicate NonEmptyWords(group: seq<string>) {
    forall kw :: kw in group ==> |kw| > 0
  }

  /** `s.match(pattern)` with the global flag, from position `i`: each match is
      reported and scanning resumes after it; otherwise scanning moves on by one. */
  function ScanFrom(s: string, group: seq<string>, i: nat): (found: seq<string>)
    requires NonEmptyWords(group)
    ensures forall k :: 0 <= k < |found| ==> found[k] in group && IsLower(found[k])
    decreases |s| - i
  {
    if i >= |s| then []
    else match MatchAt(s, group, i)
      case Some(kw) =>
        ToLowerIsLower(s[i..i + |kw|]);
        [kw] + ScanFrom(s, group, i + |kw|)
      case None => ScanFrom(s, group, i + 1)
  }

  /** Every keyword the scan reports occurs in the lower-cased text. */
  lemma {:induction false} ScanFoundInText(s: string, group: seq<string>, i: nat)
    requires NonEmptyWords(group)
    ensures forall kw :: kw in ScanFrom(s, group, i) ==> Contains(ToLower(s), kw)
    decreases |s| - i
  {
    if i < |s| {
      match MatchAt(s, group, i)
      case Some(kw) =>
        ScanFoundInText(s, group, i + |kw|);
        ToLowerSlice(s, i, i + |kw|);
        assert OccursAt(ToLower(s), kw, i);
      case None =>
        ScanFoundInText(s, group, i + 1);
    }
  }

  lemma SkillTableWellFormed()
    ensures |SkillGroups| == 4
    ensures forall g :: 0 <= g < |SkillGroups| ==> NonEmptyWords(SkillGroups[g])
  {
  }

  /** All matches of the four patterns, group by group. */
  function AllMatches(description: string): (ms: seq<string>)
    ensures forall k :: 0 <= k < |ms| ==>
      IsLower(ms[k]) && exists g :: 0 <= g < |SkillGroups| && ms[k] in SkillGroups[g]
  {
    SkillTableWellFormed();
    var found := ScanFrom(description, SkillGroups[0], 0) + ScanFrom(description, SkillGroups[1], 0)
      + ScanFrom(description, SkillGroups[2], 0) + ScanFrom(description, SkillGroups[3], 0);
    assert forall k :: 0 <= k < |found| ==>
      IsLower(found[k]) && exists g :: 0 <= g < |SkillGroups| && found[k] in SkillGroups[g] by {
      forall k | 0 <= k < |found|
        ensures IsLower(found[k]) && exists g :: 0 <= g < |SkillGroups| && found[k] in SkillGroups[g]
      {
        var a := ScanFrom(description, SkillGroups[0], 0);
        var b := ScanFrom(description, SkillGroups[1], 0);
        var c := ScanFrom(description, SkillGroups[2], 0);
        if k < |a| {
          assert found[k] == a[k];
        } else if k < |a| + |b| {
          assert found[k] == b[k - |a|];
        } else if k < |a| + |b| + |c| {
          assert found[k] == c[k - |a| - |b|];
        } else {
          assert found[k] == ScanFrom(description, SkillGroups[3], 0)[k - |a| - |b| - |c|];
        }
      }
    }
    found
  }

  /** `extractSkills`: the distinct lower-case keywords found, ordered by pattern group
      and then by first occurrence in the text; empty for an empty description. */
  function ExtractSkills(description: string): (skills: seq<string>)
    ensures NoDups(skills)
    ensures forall k :: 0 <= k < |skills| ==> IsLower(skills[k])
    ensures forall k :: 0 <= k < |skills| ==>
      exists g :: 0 <= g < |SkillGroups| && skills[k] in SkillGroups[g]
    ensures description == "" ==> skills == []
  {
    if description == "" then []
    else
      var ms := AllMatches(description);
      var r := Dedupe(ms);
      SkillTableWellFormed();
      assert forall k :: 0 <= k < |r| ==> r[k] in ms;
      r
  }

  /** Every extracted skill occurs, ignoring ASCII case, in the description. */
  lemma ExtractedSkillsOccur(description: string)
    ensures forall sk :: sk in ExtractSkills(description) ==> Contains(ToLower(description), sk)
  {
    SkillTableWellFormed();
    if description != "" {
      ScanFoundInText(description, SkillGroups[0], 0);
      ScanFoundInText(description, SkillGroups[1], 0);
      ScanFoundInText(description, SkillGroups[2], 0);
      ScanFoundInText(description, SkillGroups[3], 0);
    }
  }

  // ---------------------------------------------------------------------------
  // normalizeJob
  // ---------------------------------------------------------------------------

  /** The skills a record without a usable description keeps: its array, its
      comma-split and trimmed string, or none. */
  function GivenSkills(skills: RawSkills): (r: seq<string>)
    ensures skills.SkillList? ==> r == skills.items
    ensures skills.SkillText? ==> |r| == |SplitOn(skills.text, ",")| >= 1
    ensures skills.SkillText? ==> forall k :: 0 <= k < |r| ==> r[k] == Trim(SplitOn(skills.text, ",")[k])
    ensures skills.NoSkills? ==> r == []
  {
    match skills
    case SkillList(items) => items
    case SkillText(text) =>
      var parts := SplitOn(text, ",");
      seq(|parts|, k requires 0 <= k < |parts| => Trim(parts[k]))
    case NoSkills => []
  }

  /** `normalizeJob(job)` of the scraper named `adapter`, stamped with `timestamp`. */
  function NormalizeJob(raw: Option<RawJob>, adapter: string, timestamp: string): (r: Option<Job>)
    ensures raw.None? <==> r.None?
    ensures r.Some? ==> r.value.title == TrimOrEmpty(raw.value.title)
    ensures r.Some? ==> r.value.company == TrimOrEmpty(raw.value.company)
    ensures r.Some? ==> r.value.location == TrimOrEmpty(raw.value.location)
    ensures r.Some? ==> r.value.description == TrimOrEmpty(raw.value.description)
    ensures r.Some? ==> r.value.salary == TrimOrEmpty(raw.value.salary)
    ensures r.Some? ==> r.value.url == TrimOrEmpty(raw.value.url)
    ensures r.Some? ==> r.value.source == if Truthy(raw.value.source) then raw.value.source.value else adapter
    ensures r.Some? ==> r.value.timestamp == timestamp
    ensures r.Some? && Truthy(raw.value.description) ==> r.value.skills == ExtractSkills(raw.value.description.value)
    ensures r.Some? && !Truthy(raw.value.description) ==> r.value.skills == GivenSkills(raw.value.skills)
  {
    match raw
    case None => None
    case Some(job) =>
      Some(Job(
        title := TrimOrEmpty(job.title),
        company := TrimOrEmpty(job.company),
        location := TrimOrEmpty(job.location),
        description := TrimOrEmpty(job.description),
        salary := TrimOrEmpty(job.salary),
        skills := if Truthy(job.description) then ExtractSkills(job.description.value) else GivenSkills(job.skills),
        source := if Truthy(job.source) then job.source.value else adapter,
        url := TrimOrEmpty(job.url),
        timestamp := timestamp))
  }

  /** A listing handed back as a raw record with every field present. */
  function ToRaw(j: Job): RawJob {
    RawJob(Some(j.title), Some(j.company), Some(j.location), Some(j.description), Some(j.salary),
      SkillList(j.skills), Some(j.source), Some(j.url))
  }

  /** Every skill list a normalized listing carries is lower-case and duplicate-free when
      it came from a description. */
  lemma NormalizedSkillsFromDescription(raw: RawJob, adapter: string, timestamp: string)
    requires Truthy(raw.description)
    ensures var j := NormalizeJob(Some(raw), adapter, timestamp).value;
      NoDups(j.skills) && forall k :: 0 <= k < |j.skills| ==> IsLower(j.skills[k])
  {
  }

  /** Normalizing a normalized listing whose fields need no trimming and whose skills
      came from its description changes nothing but the timestamp. */
  lemma NormalizeIdempotent(raw: RawJob, adapter: string, t1: string, t2: string)
    requires adapter != ""
    requires Truthy(raw.description) && IsTrimmed(raw.description.value)
    ensures var j := NormalizeJob(Some(raw), adapter, t1).value;
      NormalizeJob(Some(ToRaw(j)), adapter, t2) == Some(j.(timestamp := t2))
  {
  }
}

=== FILE: progenix.dfy ===
/**
  Progenix project ideas: a job summary goes to the language model, and its answer is
  returned when it passes the gate; whatever goes wrong along the way (a job without
  skills, a failed model call, unparseable or ill-shaped output) is answered from a
  fixed fallback instead.

  The model call is the parameter `complete`, which sees the job title and the job
  summary the prompt is built from and yields the message content, or `None` when the
  call fails.
 */
module Progenix {

  import opened Wrappers
  import opened Text
  import opened ProgenixGate
  import opened Collections

  // ---------------------------------------------------------------------------
  // The job summary handed to the prompt
  // ---------------------------------------------------------------------------

  /** A job as the caller passes it; `skills` is `None` when it is not an array. */
  datatype JobData = JobData(title: string, company: string, description: string, skills: Option<seq<string>>)

  /** What the caller passes as `jobData`: a falsy value, an array of jobs, or some other
      truthy value, which has no `forEach`; `zeroLength` says whether its `length` is 0. */
  datatype JobInput = Absent | Jobs(items: seq<JobData>) | NotAList(zeroLength: bool)

  const NoForEach: string := "TypeError: jobData.forEach is not a function"
  const NoJoin: string := "TypeError: Cannot read properties of undefined (reading 'join')"

  function LimitedData(jobTitle: string): string {
    "Limited job data available for " + jobTitle + ". Focus on general industry trends."
  }

  function SummaryHeader(jobTitle: string): string {
    "Job Market Analysis for " + jobTitle + ":\n\n"
  }

  /** The lines the summary gives the job numbered `number`. */
  function JobLines(job: JobData, number: nat, skills: seq<string>): seq<string> {
    [ "Job " + NatToString(number) + ":",
      "- Title: " + job.title,
      "- Company: " + job.company,
      "- Description: " + job.description,
      "- Required Skills: " + Join(skills, ", "),
      "" ]
  }

  /** The block of the job numbered `number`: its lines, and an empty line after them. */
  function JobBlock(job: JobData, number: nat, skills: seq<string>): (b: string)
    ensures StartsWith(b, "Job " + NatToString(number) + ":\n")
  {
    var lines := JobLines(job, number, skills);
    var head := "Job " + NatToString(number) + ":\n";
    var b := Unlines(lines);
    assert b == lines[0] + "\n" + Unlines(lines[1..]);
    assert b[..|head|] == head;
    b
  }

  /** A block whose fields hold no newline reads back, line by line, as the number, the
      title, the company, the description and the skills joined with `, `, followed by
      an empty line. */
  lemma JobBlockLines(job: JobData, number: nat, skills: seq<string>)
    requires '\n' !in job.title && '\n' !in job.company && '\n' !in job.description
    requires '\n' !in Join(skills, ", ")
    ensures SplitOn(JobBlock(job, number, skills), "\n") ==
      [ "Job " + NatToString(number) + ":",
        "- Title: " + job.title,
        "- Company: " + job.company,
        "- Description: " + job.description,
        "- Required Skills: " + Join(skills, ", "),
        "", "" ]
  {
    var lines := JobLines(job, number, skills);
    NoNewlineAfterLabel("Job " + NatToString(number) + ":", "");
    NoNewlineAfterLabel("- Title: ", job.title);
    NoNewlineAfterLabel("- Company: ", job.company);
    NoNewlineAfterLabel("- Description: ", job.description);
    NoNewlineAfterLabel("- Required Skills: ", Join(skills, ", "));
    assert "Job " + NatToString(number) + ":" + "" == lines[0];
    SplitUnlines(lines);
  }

  /** A label without a newline followed by a value without one has no newline. */
  lemma NoNewlineAfterLabel(tag: string, value: string)
    requires '\n' !in value
    requires forall k :: 0 <= k < |tag| ==> tag[k] != '\n'
    ensures '\n' !in tag + value
  {
  }

  /** The blocks of `jobs`, numbered from `first`; `None` when a job has no skill array,
      where `join` throws. */
  function Blocks(jobs: seq<JobData>, first: nat): (r: Option<string>)
    ensures r.None? <==> exists k :: 0 <= k < |jobs| && jobs[k].skills.None?
    ensures r.Some? && |jobs| > 0 ==> StartsWith(r.value, "Job " + NatToString(first) + ":\n")
    decreases |jobs|
  {
    if |jobs| == 0 then Some("")
    else match jobs[0].skills
      case None => None
      case Some(skills) =>
        assert forall k :: 1 <= k < |jobs| ==> jobs[k] == jobs[1..][k - 1];
        match Blocks(jobs[1..], first + 1)
        case None => None
        case Some(rest) =>
          var b := JobBlock(jobs[0], first, skills);
          assert (b + rest)[..|"Job " + NatToString(first) + ":\n"|] == b[..|"Job " + NatToString(first) + ":\n"|];
          Some(b + rest)
  }

  /** The blocks of jobs that all have skill arrays, one per job in order, the `k`-th
      numbered `first + k`. */
  function NumberedBlocks(jobs: seq<JobData>, first: nat): seq<string>
    requires forall k :: 0 <= k < |jobs| ==> jobs[k].skills.Some?
  {
    seq(|jobs|, k requires 0 <= k < |jobs| => JobBlock(jobs[k], first + k, jobs[k].skills.value))
  }

  /** When every job has a skill array, the blocks are one block per job, in order and
      numbered consecutively from `first`. */
  lemma {:induction false} BlocksNumbered(jobs: seq<JobData>, first: nat)
    requires forall k :: 0 <= k < |jobs| ==> jobs[k].skills.Some?
    ensures Blocks(jobs, first) == Some(Flatten(NumberedBlocks(jobs, first)))
    ensures forall k :: 0 <= k < |jobs| ==>
      StartsWith(NumberedBlocks(jobs, first)[k], "Job " + NatToString(first + k) + ":\n")
    decreases |jobs|
  {
    if |jobs| > 0 {
      BlocksNumbered(jobs[1..], first + 1);
      var bs := NumberedBlocks(jobs, first);
      var rest := NumberedBlocks(jobs[1..], first + 1);
      assert bs == [bs[0]] + rest by {
        forall k | 1 <= k < |jobs| ensures bs[k] == rest[k - 1] {
          assert jobs[k] == jobs[1..][k - 1];
        }
      }
    }
  }

  /** `prepareJobSummary`: a fixed sentence without jobs, else a header and one block per
      job numbered from 1. It throws when `jobData` has no `forEach` or a job's skills are
      not an array. */
  function PrepareJobSummary(jobTitle: string, jobData: JobInput): (r: Result<string>)
    ensures jobData.Absent? || jobData == Jobs([]) || jobData == NotAList(true) ==> r == Ok(LimitedData(jobTitle))
    ensures jobData == NotAList(false) ==> r == Err(NoForEach)
    ensures jobData.Jobs? ==>
      (r.Err? <==> exists k :: 0 <= k < |jobData.items| && jobData.items[k].skills.None?)
    ensures r.Ok? && jobData.Jobs? && jobData.items != [] ==>
      && StartsWith(r.value, SummaryHeader(jobTitle) + "Job 1:\n")
      && r.value == SummaryHeader(jobTitle) + Blocks(jobData.items, 1).value
  {
    match jobData
    case Absent => Ok(LimitedData(jobTitle))
    case NotAList(zeroLength) => if zeroLength then Ok(LimitedData(jobTitle)) else Err(NoForEach)
    case Jobs(jobs) =>
      if jobs == [] then Ok(LimitedData(jobTitle))
      else match Blocks(jobs, 1)
        case None => Err(NoJoin)
        case Some(blocks) =>
          var h := SummaryHeader(jobTitle);
          assert NatToString(1) == "1";
          assert (h + blocks)[..|h|] == h;
          assert (h + blocks)[|h|..|h| + 7] == blocks[..7];
          Ok(h + blocks)
  }

  // ---------------------------------------------------------------------------
  // The fallback
  // ---------------------------------------------------------------------------

  /** A project idea of a fallback; catalog ideas have no tasks and no difficulty. */
  datatype Idea = Idea(
    title: string,
    description: string,
    techStack: seq<string>,
    tasks: Option<seq<string>>,
    difficulty: Option<int>)

  /** A fallback answer: its insights and its project ideas. */
  datatype Answer = Answer(insights: seq<string>, ideas: seq<Idea>)

  function Strings(ss: seq<string>): (v: Json)
    ensures v.JArr? && |v.items| == |ss|
  {
    JArr(seq(|ss|, k requires 0 <= k < |ss| => JStr(ss[k])))
  }

  /** The object literal of an idea, members in source order. */
  function IdeaJson(i: Idea): Json {
    var tasks := if i.tasks.Some? then [("tasks", Strings(i.tasks.value))] else [];
    var difficulty := if i.difficulty.Some? then [("difficulty", JNum(i.difficulty.value))] else [];
    JObj([("title", JStr(i.title)), ("description", JStr(i.description)), ("techStack", Strings(i.techStack))]
      + tasks + difficulty)
  }

  function AnswerJson(a: Answer): Json {
    JObj([("insights", Strings(a.insights)), ("projects", JArr(seq(|a.ideas|, k requires 0 <= k < |a.ideas| => IdeaJson(a.ideas[k]))))])
  }

  /** Three ideas, each with a title and a description. */
  predicate Complete(a: Answer) {
    |a.ideas| == 3 && forall k :: 0 <= k < 3 ==> a.ideas[k].title != "" && a.ideas[k].description != ""
  }

  /** The object of an idea carries its fields under their names, and nothing under the name
      of a field the idea leaves out. */
  lemma IdeaMembers(i: Idea)
    ensures Get(IdeaJson(i), "title") == Some(JStr(i.title))
    ensures Get(IdeaJson(i), "description") == Some(JStr(i.description))
    ensures Get(IdeaJson(i), "techStack") == Some(Strings(i.techStack))
    ensures Get(IdeaJson(i), "tasks") == if i.tasks.Some? then Some(Strings(i.tasks.value)) else None
    ensures Get(IdeaJson(i), "difficulty") == if i.difficulty.Some? then Some(JNum(i.difficulty.value)) else None
  {
    RequiredMembers(i);
    OptionalMembers(i);
  }

  lemma RequiredMembers(i: Idea)
    ensures Get(IdeaJson(i), "title") == Some(JStr(i.title))
    ensures Get(IdeaJson(i), "description") == Some(JStr(i.description))
    ensures Get(IdeaJson(i), "techStack") == Some(Strings(i.techStack))
  {
    var ms := IdeaJson(i).members;
    assert "title"[1] != "tasks"[1];
    MemberAt(ms, "title", 0);
    MemberAt(ms, "description", 1);
    MemberAt(ms, "techStack", 2);
  }

  lemma OptionalMembers(i: Idea)
    ensures Get(IdeaJson(i), "tasks") == if i.tasks.Some? then Some(Strings(i.tasks.value)) else None
    ensures Get(IdeaJson(i), "difficulty") == if i.difficulty.Some? then Some(JNum(i.difficulty.value)) else None
  {
    var ms := IdeaJson(i).members;
    assert "title"[1] != "tasks"[1];
    if i.tasks.Some? {
      MemberAt(ms, "tasks", 3);
    }
    if i.difficulty.Some? {
      MemberAt(ms, "difficulty", |ms| - 1);
    }
  }

  /** An idea with a title and a description passes the project check. */
  lemma IdeaValid(i: Idea)
    requires i.title != "" && i.description != ""
    ensures ValidProject(IdeaJson(i))
  {
    IdeaMembers(i);
  }

  /** The object of an answer carries its insights and one object per idea, in order; a
      complete answer passes the gate. */
  lemma AnswerAccepted(a: Answer)
    ensures Get(AnswerJson(a), "insights") == Some(Strings(a.insights))
    ensures Get(AnswerJson(a), "projects").Some? && Get(AnswerJson(a), "projects").value.JArr?
    ensures var ps := Get(AnswerJson(a), "projects").value.items;
      |ps| == |a.ideas| && forall k :: 0 <= k < |ps| ==> ps[k] == IdeaJson(a.ideas[k])
    ensures Complete(a) ==> Accepts(AnswerJson(a))
  {
    var ms := AnswerJson(a).members;
    assert "insights"[0] != "projects"[0];
    MemberAt(ms, "insights", 0);
    MemberAt(ms, "projects", 1);
    if Complete(a) {
      forall k | 0 <= k < 3 ensures ValidProject(IdeaJson(a.ideas[k])) {
        IdeaValid(a.ideas[k]);
      }
    }
  }

  const FullStack: Answer := Answer(
    ["React/Vue.js", "Node.js/Express", "Database Design", "API Development", "Cloud Deployment"],
    [ Idea("E-Commerce Platform with Real-time Features",
        "Build a complete e-commerce solution with user authentication, payment processing, inventory management, and real-time notifications. This showcases full-stack skills and business logic implementation.",
        ["React", "Node.js", "MongoDB", "Stripe API", "Socket.io"], None, None),
      Idea("Social Media Dashboard with Analytics",
        "Create a social media management tool that aggregates posts, tracks engagement metrics, and provides analytics insights. Demonstrates API integration and data visualization skills.",
        ["Vue.js", "Express.js", "PostgreSQL", "Chart.js", "Redis"], None, None),
      Idea("Real-time Collaboration Tool",
        "Develop a collaborative workspace like Slack or Discord with real-time messaging, file sharing, and team management features. Shows scalability and real-time architecture knowledge.",
        ["React", "Node.js", "WebSocket", "AWS S3", "Docker"], None, None) ])

  const DataScientist: Answer := Answer(
    ["Python/R", "Machine Learning", "Data Visualization", "SQL/NoSQL", "Cloud Platforms"],
    [ Idea("Predictive Analytics for Business Forecasting",
        "Build ML models to predict sales, customer churn, or market trends using historical data. Deploy models as REST APIs for business integration.",
        ["Python", "Scikit-learn", "Pandas", "Flask", "AWS"], None, None),
      Idea("Real-time Sentiment Analysis System",
        "Create a system that analyzes social media sentiment in real-time for brand monitoring. Shows NLP skills and real-time data processing.",
        ["Python", "NLTK", "Kafka", "MongoDB", "Docker"], None, None),
      Idea("Interactive Data Visualization Dashboard",
        "Develop a comprehensive dashboard that transforms complex datasets into interactive visualizations for stakeholder decision-making.",
        ["Python", "Plotly", "Streamlit", "PostgreSQL", "Heroku"], None, None) ])

  const GenericInsights: seq<string> :=
    ["Problem Solving", "Modern Technologies", "Best Practices", "User Experience", "Performance"]

  /** The generic ideas, each titled by a fixed prefix that the job title completes. */
  const GenericTemplates: seq<Idea> := [
    Idea("Portfolio Website for ",
      "Create a professional portfolio showcasing your skills, projects, and experience. Include responsive design, performance optimization, and modern development practices.",
      ["HTML5", "CSS3", "JavaScript", "Git", "Deployment"],
      Some(["Set up project structure and version control", "Design responsive layout and user interface",
            "Implement project showcase and documentation", "Optimize performance and accessibility",
            "Deploy to production environment"]), Some(2)),
    Idea("Industry-Specific Tool for ",
      "Build a specialized tool that solves a common problem in your industry. This demonstrates domain knowledge and practical application of technical skills.",
      ["Modern Framework", "Database", "API Integration", "Testing"],
      Some(["Define problem statement and requirements", "Design system architecture",
            "Implement core functionality", "Add testing and error handling", "Deploy and document API"]), Some(3)),
    Idea("Automation Solution for ",
      "Develop an automation tool that streamlines repetitive tasks in your field. Shows efficiency mindset and technical problem-solving abilities.",
      ["Scripting Language", "APIs", "Scheduling", "Monitoring"],
      Some(["Identify automation opportunities", "Design workflow and data processing",
            "Implement automation scripts", "Add monitoring and error handling", "Create deployment scripts"]), Some(3)) ]

  /** The generic answer; its idea titles end with the job title as given. */
  function Generic(jobTitle: string): Answer {
    var ts := GenericTemplates;
    Answer(GenericInsights, seq(|ts|, k requires 0 <= k < |ts| => ts[k].(title := ts[k].title + jobTitle)))
  }

  lemma FullStackComplete()
    ensures Complete(FullStack) && |FullStack.insights| == 5
  {
  }

  lemma DataScientistComplete()
    ensures Complete(DataScientist) && |DataScientist.insights| == 5
  {
  }

  lemma GenericComplete(jobTitle: string)
    ensures Complete(Generic(jobTitle)) && |Generic(jobTitle).insights| == 5
  {
    assert |GenericTemplates| == 3;
  }

  /** The catalog key of a job title: lower-cased, then trimmed. */
  function FallbackKey(jobTitle: string): string {
    Trim(ToLower(jobTitle))
  }

  /** The catalog: exactly two job titles have their own answer. */
  function CatalogEntry(key: string): (r: Option<Answer>)
    ensures r.Some? <==> key == "full stack developer" || key == "data scientist"
  {
    if key == "full stack developer" then Some(FullStack)
    else if key == "data scientist" then Some(DataScientist)
    else None
  }

  /** A catalog answer is complete, has five insights, and lists no tasks and no difficulty. */
  lemma CatalogComplete(key: string)
    requires CatalogEntry(key).Some?
    ensures var a := CatalogEntry(key).value;
      && Complete(a) && |a.insights| == 5
      && forall k :: 0 <= k < 3 ==> a.ideas[k].tasks.None? && a.ideas[k].difficulty.None?
  {
    FullStackComplete();
    DataScientistComplete();
  }

  /** `getFallbackResponse(jobTitle)`, before it becomes a JSON value. */
  function FallbackAnswer(jobTitle: string): Answer {
    match CatalogEntry(FallbackKey(jobTitle))
    case Some(a) => a
    case None => Generic(jobTitle)
  }

  function Fallback(jobTitle: string): Json {
    AnswerJson(FallbackAnswer(jobTitle))
  }

  /** Every fallback answer has five insights and three ideas with titles and descriptions. */
  lemma FallbackComplete(jobTitle: string)
    ensures Complete(FallbackAnswer(jobTitle)) && |FallbackAnswer(jobTitle).insights| == 5
  {
    var key := FallbackKey(jobTitle);
    if CatalogEntry(key).Some? {
      CatalogComplete(key);
    } else {
      GenericComplete(jobTitle);
    }
  }

  /** Every fallback has five insights and three projects, and passes the gate. */
  lemma FallbackAccepted(jobTitle: string)
    ensures Accepts(Fallback(jobTitle))
    ensures |Get(Fallback(jobTitle), "insights").value.items| == 5
    ensures |Get(Fallback(jobTitle), "projects").value.items| == 3
  {
    FallbackComplete(jobTitle);
    AnswerAccepted(FallbackAnswer(jobTitle));
  }

  /** The generic ideas' titles end with the job title as given; each lists five tasks,
      at difficulties 2, 3 and 3. */
  lemma GenericIdeas(jobTitle: string)
    ensures var ideas := Generic(jobTitle).ideas;
      && |ideas| == 3
      && (forall k :: 0 <= k < 3 ==> EndsWith(ideas[k].title, jobTitle))
      && (forall k :: 0 <= k < 3 ==> ideas[k].tasks.Some? && |ideas[k].tasks.value| == 5)
      && ideas[0].difficulty == Some(2) && ideas[1].difficulty == Some(3) && ideas[2].difficulty == Some(3)
  {
    var ideas := Generic(jobTitle).ideas;
    forall k | 0 <= k < 3 ensures EndsWith(ideas[k].title, jobTitle) {
      var t := ideas[k].title;
      assert t[|t| - |jobTitle|..] == jobTitle;
    }
  }

  /** Only the two catalog titles, in any case and with any surrounding white space, get a
      catalog answer, whose ideas list no tasks and no difficulty; every other title gets
      the generic answer. */
  lemma FallbackSelection(jobTitle: string)
    ensures var key := FallbackKey(jobTitle);
      && (key == "full stack developer" ==> FallbackAnswer(jobTitle) == FullStack)
      && (key == "data scientist" ==> FallbackAnswer(jobTitle) == DataScientist)
      && (key != "full stack developer" && key != "data scientist" ==> FallbackAnswer(jobTitle) == Generic(jobTitle))
  {
  }

  // ---------------------------------------------------------------------------
  // generateProjectIdeas
  // ---------------------------------------------------------------------------

  /** The model's answer to the summary of `jobData`, when the summary can be built, the
      call succeeds and the answer gets through the gate. */
  function ModelAnswer(jobTitle: string, jobData: JobInput,
                       complete: (string, string) -> Option<string>,
                       parse: string -> Option<Json>): (r: Option<Json>)
    ensures r.Some? ==> Accepts(r.value)
  {
    AnswerTo(jobTitle, PrepareJobSummary(jobTitle, jobData), complete, parse)
  }

  /** The model's answer to a summary, or `None` when building the summary threw. */
  function AnswerTo(jobTitle: string, summary: Result<string>,
                    complete: (string, string) -> Option<string>,
                    parse: string -> Option<Json>): (r: Option<Json>)
    ensures r.Some? ==> Accepts(r.value)
  {
    match summary
    case Err(_) => None
    case Ok(summary) =>
      match complete(jobTitle, summary)
      case None => None
      case Some(content) =>
        match ParseResponse(Trim(content), parse)
        case Ok(v) => Some(v)
        case Err(_) => None
  }

  /** The model's answer gets through exactly when the summary is built, the call
      returns, and the unfenced content parses to a value of the right shape; that
      value is the answer. */
  lemma ModelAnswerGate(jobTitle: string, jobData: JobInput,
                        complete: (string, string) -> Option<string>, parse: string -> Option<Json>)
    ensures var summary := PrepareJobSummary(jobTitle, jobData);
      var answered := summary.Ok? && complete(jobTitle, summary.value).Some?
        && parse(StripFence(complete(jobTitle, summary.value).value)).Some?
        && Accepts(parse(StripFence(complete(jobTitle, summary.value).value)).value);
      && (ModelAnswer(jobTitle, jobData, complete, parse).Some? <==> answered)
      && (answered ==> ModelAnswer(jobTitle, jobData, complete, parse).value
                         == parse(StripFence(complete(jobTitle, summary.value).value)).value)
  {
    AnswerToGate(jobTitle, PrepareJobSummary(jobTitle, jobData), complete, parse);
  }

  lemma AnswerToGate(jobTitle: string, summary: Result<string>,
                     complete: (string, string) -> Option<string>, parse: string -> Option<Json>)
    ensures var answered := summary.Ok? && complete(jobTitle, summary.value).Some?
        && parse(StripFence(complete(jobTitle, summary.value).value)).Some?
        && Accepts(parse(StripFence(complete(jobTitle, summary.value).value)).value);
      && (AnswerTo(jobTitle, summary, complete, parse).Some? <==> answered)
      && (answered ==> AnswerTo(jobTitle, summary, complete, parse).value
                         == parse(StripFence(complete(jobTitle, summary.value).value)).value)
  {
    match summary
    case Err(_) =>
    case Ok(text) =>
      match complete(jobTitle, text)
      case None =>
      case Some(content) =>
        ParseResponseOfTrimmed(content, parse);
        var parsed := ParseResponse(content, parse);
        assert AnswerTo(jobTitle, summary, complete, parse) == if parsed.Ok? then Some(parsed.value) else None;
  }

  /** `generateProjectIdeas(jobTitle, jobData)`: the model's answer when it gets through,
      the fallback otherwise. The result always passes the gate. */
  function GenerateProjectIdeas(jobTitle: string, jobData: JobInput,
                                complete: (string, string) -> Option<string>,
                                parse: string -> Option<Json>): (r: Json)
    ensures Accepts(r)
    ensures ModelAnswer(jobTitle, jobData, complete, parse).None? ==> r == Fallback(jobTitle)
    ensures ModelAnswer(jobTitle, jobData, complete, parse).Some? ==>
      r == ModelAnswer(jobTitle, jobData, complete, parse).value
  {
    match ModelAnswer(jobTitle, jobData, complete, parse)
    case Some(v) => v
    case None =>
      FallbackAccepted(jobTitle);
      Fallback(jobTitle)
  }

  // ---------------------------------------------------------------------------
  // The route's default for a missing job list
  // ---------------------------------------------------------------------------

  /** `req.body.jobData || {}`, as the route writes it: a missing list becomes an empty
      object, which has no `forEach` and no `length` of 0. */
  function RouteJobData(body: JobInput): (r: JobInput)
    ensures body.Absent? ==> r == NotAList(false)
    ensures !body.Absent? ==> r == body
  {
    if body.Absent? then NotAList(false) else body
  }

  /** As written, a request without a job list never reaches the model: building the
      summary throws, so there is no model answer and `GenerateProjectIdeas` returns the
      fallback whatever the model would have said. */
  lemma AsWrittenRouteSkipsModel(jobTitle: string, complete: (string, string) -> Option<string>,
                                 parse: string -> Option<Json>)
    ensures PrepareJobSummary(jobTitle, RouteJobData(Absent)) == Err(NoForEach)
    ensures ModelAnswer(jobTitle, RouteJobData(Absent), complete, parse).None?
  {
  }

  /** `req.body.jobData || []`: a missing list becomes an empty list. */
  function RouteJobDataCorrected(body: JobInput): (r: JobInput)
    ensures body.Absent? ==> r == Jobs([])
    ensures !body.Absent? ==> r == body
  {
    if body.Absent? then Jobs([]) else body
  }

  /** With the empty-list default, a request without a job list asks the model with the
      limited-data summary, and its answer is the model answer `GenerateProjectIdeas`
      returns when it gets through. */
  lemma CorrectedRouteAsksModel(jobTitle: string, complete: (string, string) -> Option<string>,
                                parse: string -> Option<Json>)
    ensures PrepareJobSummary(jobTitle, RouteJobDataCorrected(Absent)) == Ok(LimitedData(jobTitle))
    ensures var content := complete(jobTitle, LimitedData(jobTitle));
      content.Some? && parse(StripFence(content.value)).Some? && Accepts(parse(StripFence(content.value)).value) ==>
        ModelAnswer(jobTitle, RouteJobDataCorrected(Absent), complete, parse) == Some(parse(StripFence(content.value)).value)
  {
    ModelAnswerGate(jobTitle, RouteJobDataCorrected(Absent), complete, parse);
  }
}

=== FILE: progenix_gate.dfy ===
/**
  The gate of the Progenix model answer: the answer is unwrapped from a Markdown code
  fence, parsed as JSON and checked for the expected shape. `JSON.parse` is the
  parameter `parse`, `None` when it throws.
 */
module ProgenixGate {

  import opened Wrappers
  import opened Text

  // ---------------------------------------------------------------------------
  // JSON values and the shape check
  // ---------------------------------------------------------------------------

  /** A parsed JSON value; an object keeps its members in text order. */
  datatype Json =
    | JNull
    | JBool(b: bool)
    | JNum(n: int)
    | JStr(s: string)
    | JArr(items: seq<Json>)
    | JObj(members: seq<(string, Json)>)

  /** The value of `key` among `members`: the last member so named wins, as with `JSON.parse`. */
  function Member(members: seq<(string, Json)>, key: string): Option<Json> {
    LastNamed(members, key, |members|)
  }

  /** The value of the last member named `key` among the first `n`. */
  function LastNamed(members: seq<(string, Json)>, key: string, n: nat): (r: Option<Json>)
    requires n <= |members|
    ensures r.Some? ==> exists k :: 0 <= k < n && members[k] == (key, r.value)
    ensures r.None? ==> forall k :: 0 <= k < n ==> members[k].0 != key
  {
    if n == 0 then None
    else if members[n - 1].0 == key then Some(members[n - 1].1)
    else LastNamed(members, key, n - 1)
  }

  /** The member at `k` is the one found when no later member has its name. */
  lemma {:induction false} LastNamedAt(members: seq<(string, Json)>, key: string, n: nat, k: nat)
    requires k < n <= |members| && members[k].0 == key
    requires forall j :: k < j < n ==> members[j].0 != key
    ensures LastNamed(members, key, n) == Some(members[k].1)
    decreases n
  {
    if n - 1 != k {
      LastNamedAt(members, key, n - 1, k);
    }
  }

  lemma MemberAt(members: seq<(string, Json)>, key: string, k: nat)
    requires k < |members| && members[k].0 == key
    requires forall j :: k < j < |members| ==> members[j].0 != key
    ensures Member(members, key) == Some(members[k].1)
  {
    LastNamedAt(members, key, |members|, k);
  }

  /** `v[key]` on a value that is not `null`: only objects have the members looked up here. */
  function Get(v: Json, key: string): Option<Json> {
    match v
    case JObj(members) => Member(members, key)
    case _ => None
  }

  /** JavaScript truthiness; `None` is `undefined`. */
  predicate Truthy(v: Option<Json>) {
    match v
    case None => false
    case Some(JNull) => false
    case Some(JBool(b)) => b
    case Some(JNum(n)) => n != 0
    case Some(JStr(s)) => s != ""
    case Some(_) => true
  }

  predicate IsArray(v: Option<Json>) {
    v.Some? && v.value.JArr?
  }

  /** A project the gate accepts: a truthy title and description and an array of technologies. */
  predicate ValidProject(p: Json) {
    Truthy(Get(p, "title")) && Truthy(Get(p, "description")) && IsArray(Get(p, "techStack"))
  }

  /** The shape the gate accepts: an `insights` array of any length and a `projects` array of
      exactly three valid projects. Tasks and difficulty are not looked at. */
  predicate Accepts(v: Json) {
    && IsArray(Get(v, "insights"))
    && IsArray(Get(v, "projects"))
    && |Get(v, "projects").value.items| == 3
    && forall k :: 0 <= k < 3 ==> ValidProject(Get(v, "projects").value.items[k])
  }

  const InsightsMessage: string := "Invalid insights format"
  const ProjectsMessage: string := "Invalid projects format"
  const InvalidFormat: string := "Invalid GPT response format"

  /** The checks on the projects, one project after another, numbered from 1 in the messages;
      reading a member of `null` is a `TypeError`. */
  function CheckProjects(ps: seq<Json>, first: nat): (r: Option<string>)
    ensures r.None? <==> forall k :: 0 <= k < |ps| ==> ValidProject(ps[k])
    decreases |ps|
  {
    if |ps| == 0 then None
    else
      var p := ps[0];
      if p.JNull? then Some("TypeError: Cannot read properties of null (reading 'title')")
      else if !Truthy(Get(p, "title")) || !Truthy(Get(p, "description")) || !Truthy(Get(p, "techStack")) then
        Some("Invalid project " + NatToString(first) + " format")
      else if !IsArray(Get(p, "techStack")) then
        Some("Invalid tech stack format for project " + NatToString(first))
      else
        var rest := CheckProjects(ps[1..], first + 1);
        assert forall k :: 1 <= k < |ps| ==> ps[k] == ps[1..][k - 1];
        rest
  }

  /** The validation of a parsed value, check by check, with the message of the first that
      fails. It passes exactly the values of the accepted shape, unchanged. */
  function Validate(v: Json): (r: Result<Json>)
    ensures r.Ok? <==> Accepts(v)
    ensures r.Ok? ==> r.value == v
  {
    if v.JNull? then Err("TypeError: Cannot read properties of null (reading 'insights')")
    else
      var insights := Get(v, "insights");
      var projects := Get(v, "projects");
      if !Truthy(insights) || !IsArray(insights) then Err(InsightsMessage)
      else if !Truthy(projects) || !IsArray(projects) || |projects.value.items| != 3 then Err(ProjectsMessage)
      else match CheckProjects(projects.value.items, 1)
        case Some(e) => Err(e)
        case None => Ok(v)
  }

  // ---------------------------------------------------------------------------
  // Unwrapping the answer
  // ---------------------------------------------------------------------------

  const JsonFence: string := "```json"
  const Fence: string := "```"

  /** `.replace(/<fence>\n?/, '')` on text that starts with the fence. */
  function DropOpening(t: string, n: nat): string
    requires n <= |t|
  {
    var r := t[n..];
    if |r| > 0 && r[0] == '\n' then r[1..] else r
  }

  /** `.replace(/\n?```$/, '')`: the leftmost match starts at the newline when there is one. */
  function DropClosing(t: string): (r: string)
    ensures EndsWith(t, "\n" + Fence) ==> t == r + "\n" + Fence
    ensures !EndsWith(t, "\n" + Fence) && EndsWith(t, Fence) ==> t == r + Fence
    ensures !EndsWith(t, Fence) ==> r == t
  {
    if EndsWith(t, "\n" + Fence) then t[..|t| - 4]
    else if EndsWith(t, Fence) then t[..|t| - 3]
    else t
  }

  /** The trimmed answer with a leading ```` ```json ```` or ```` ``` ```` fence and a closing
      fence removed. */
  function StripFence(raw: string): string {
    Unfence(Trim(raw))
  }

  /** The fences removed from text that is already trimmed. */
  function Unfence(t: string): string {
    if StartsWith(t, JsonFence) then DropClosing(DropOpening(t, |JsonFence|))
    else if StartsWith(t, Fence) then DropClosing(DropOpening(t, |Fence|))
    else t
  }

  /** An answer that does not start with a fence is only trimmed. */
  lemma UnfencedOnlyTrimmed(raw: string)
    requires !StartsWith(Trim(raw), Fence)
    ensures StripFence(raw) == Trim(raw)
  {
    StartsWithPrefix(Trim(raw), Fence, JsonFence);
  }

  /** What starts with `q` starts with every prefix of `q`. */
  lemma StartsWithPrefix(t: string, p: string, q: string)
    ensures StartsWith(t, q) && StartsWith(q, p) ==> StartsWith(t, p)
  {
    if StartsWith(t, q) && StartsWith(q, p) {
      assert t[..|p|] == t[..|q|][..|p|];
    }
  }

  lemma DropOpeningLine(fence: string, rest: string)
    ensures DropOpening(fence + "\n" + rest, |fence|) == rest
  {
    var t := fence + "\n" + rest;
    assert t[|fence|..] == "\n" + rest;
  }

  lemma DropClosingLine(body: string)
    ensures DropClosing(body + "\n" + Fence) == body
  {
    var t := body + "\n" + Fence;
    assert t[|t| - 4..] == "\n" + Fence;
    assert t[..|t| - 4] == body;
  }

  /** A body wrapped in either fence, each on its own line, comes back out unchanged. */
  lemma FenceRoundTrip(body: string)
    ensures StripFence(JsonFence + "\n" + body + "\n" + Fence) == body
    ensures StripFence(Fence + "\n" + body + "\n" + Fence) == body
  {
    JsonFenceRoundTrip(body);
    PlainFenceRoundTrip(body);
  }

  lemma JsonFenceRoundTrip(body: string)
    ensures StripFence(JsonFence + "\n" + body + "\n" + Fence) == body
  {
    var rest := body + "\n" + Fence;
    var a := JsonFence + "\n" + rest;
    assert a == JsonFence + "\n" + body + "\n" + Fence;
    BackquotedIsTrimmed(a);
    assert a[..7] == JsonFence;
    DropOpeningLine(JsonFence, rest);
    DropClosingLine(body);
  }

  lemma PlainFenceRoundTrip(body: string)
    ensures StripFence(Fence + "\n" + body + "\n" + Fence) == body
  {
    var rest := body + "\n" + Fence;
    var b := Fence + "\n" + rest;
    assert b == Fence + "\n" + body + "\n" + Fence;
    BackquotedIsTrimmed(b);
    assert b[3] == '\n' && JsonFence[3] == 'j';
    assert b[..3] == Fence;
    DropOpeningLine(Fence, rest);
    DropClosingLine(body);
  }

  /** Text that starts and ends with a backquote has nothing to trim. */
  lemma BackquotedIsTrimmed(t: string)
    requires |t| > 0 && t[0] == '`' && t[|t| - 1] == '`'
    ensures Trim(t) == t
  {
    assert IsTrimmed(t);
  }

  /** `parseGPTResponse`: the unwrapped answer parsed and validated; every failure becomes the
      one error `Invalid GPT response format`. */
  function ParseResponse(raw: string, parse: string -> Option<Json>): (r: Result<Json>)
    ensures r.Ok? <==> parse(StripFence(raw)).Some? && Accepts(parse(StripFence(raw)).value)
    ensures r.Ok? ==> r.value == parse(StripFence(raw)).value
    ensures r.Err? ==> r.error == InvalidFormat
  {
    match parse(StripFence(raw))
    case None => Err(InvalidFormat)
    case Some(v) =>
      match Validate(v)
      case Ok(_) => Ok(v)
      case Err(_) => Err(InvalidFormat)
  }

  /** The answer is trimmed before it is unfenced, so trimming it first changes nothing. */
  lemma ParseResponseOfTrimmed(raw: string, parse: string -> Option<Json>)
    ensures ParseResponse(Trim(raw), parse) == ParseResponse(raw, parse)
  {
    StripFenceOfTrimmed(raw);
    SameUnfencedSameParse(Trim(raw), raw, parse);
  }

  lemma SameUnfencedSameParse(a: string, b: string, parse: string -> Option<Json>)
    requires StripFence(a) == StripFence(b)
    ensures ParseResponse(a, parse) == ParseResponse(b, parse)
  {
  }

  lemma StripFenceOfTrimmed(raw: string)
    ensures StripFence(Trim(raw)) == StripFence(raw)
  {
    TrimIdempotent(raw);
  }
}

=== FILE: rate_limiter.dfy ===
/**
  The request limiter of `BaseScraper.fetchApi`: a window of `WindowMs`
  milliseconds in which at most `MaxRequests` requests go out before a caller
  has to wait out the window, at most `MaxRetries` times in a row.

  The clock is a parameter (`now`, milliseconds), waiting is returned as a
  duration instead of performed, and the HTTP exchange is an input `Reply`.
 */
module RateLimiter {

  import opened Wrappers
  import Text

  const WindowMs: int := 60000
  const MaxRequests: nat := 5
  const MaxRetries: nat := 3
  /** Extra wait added after the end of the window. */
  const WaitPadMs: int := 1000
  const LimitMessage: string := "Rate limit exceeded after multiple retries"

  /** `this.rateLimiter`: the start of the current window (the field the source calls
      `lastRequest`) and the two counters. */
  datatype Limiter = Limiter(windowStart: int, requestCount: nat, retryCount: nat)

  /** The limiter a freshly constructed scraper holds. */
  function Initial(now: int): Limiter {
    Limiter(now, 0, 0)
  }

  /** Never more retries recorded than allowed. */
  predicate Valid(l: Limiter) {
    l.retryCount <= MaxRetries
  }

  /** Start of `fetchApi`: once more than a window has elapsed, a new window opens
      at `now` with both counters cleared; otherwise nothing changes. */
  function Refresh(l: Limiter, now: int): (r: Limiter)
    ensures now - r.windowStart <= WindowMs
    ensures r == l || (r.windowStart == now && r.requestCount == 0 && r.retryCount == 0)
    ensures r.requestCount <= l.requestCount && r.retryCount <= l.retryCount
    ensures now - l.windowStart <= WindowMs ==> r == l
  {
    if now - l.windowStart > WindowMs then Limiter(now, 0, 0) else l
  }

  lemma RefreshIdempotent(l: Limiter, now: int)
    ensures Refresh(Refresh(l, now), now) == Refresh(l, now)
  {
  }

  /** What `fetchApi` does before issuing its request. `Refuse` still carries the
      refreshed limiter, because the window reset happens before the error is thrown. */
  datatype Admission =
    | Proceed(state: Limiter)
    | WaitThenProceed(waitMs: int, state: Limiter)
    | Refuse(state: Limiter, message: string)

  /** Admission of one `fetchApi` call at time `now`. A caller that has to wait is held
      until `WaitPadMs` after the current window ends. */
  function Admit(l: Limiter, now: int): (a: Admission)
    ensures a.Proceed? <==> Refresh(l, now).requestCount < MaxRequests
    ensures a.Refuse? <==>
      Refresh(l, now).requestCount >= MaxRequests && Refresh(l, now).retryCount >= MaxRetries
    ensures a.Proceed? ==> a.state == Refresh(l, now)
    ensures a.Refuse? ==> a.state == Refresh(l, now) && a.message == LimitMessage
    ensures a.WaitThenProceed? ==>
      && a.state.windowStart == l.windowStart
      && a.state.requestCount == l.requestCount
      && a.state.retryCount == l.retryCount + 1
      && now + a.waitMs == l.windowStart + WindowMs + WaitPadMs
      && (now >= l.windowStart ==> WaitPadMs <= a.waitMs <= WindowMs + WaitPadMs)
  {
    var r := Refresh(l, now);
    if r.requestCount >= MaxRequests then
      if r.retryCount >= MaxRetries then Refuse(r, LimitMessage)
      else WaitThenProceed(WindowMs - (now - r.windowStart) + WaitPadMs, r.(retryCount := r.retryCount + 1))
    else Proceed(r)
  }

  /** A call made more than a window after the window opened always goes straight out,
      in a fresh window. */
  lemma ElapsedWindowProceeds(l: Limiter, now: int)
    requires now - l.windowStart > WindowMs
    ensures Admit(l, now) == Proceed(Limiter(now, 0, 0))
  {
  }

  /** Admission keeps the retry counter within its budget. */
  lemma AdmitKeepsValid(l: Limiter, now: int)
    requires Valid(l)
    ensures Valid(Admit(l, now).state)
  {
  }

  // ---------------------------------------------------------------------------
  // Settling the request
  // ---------------------------------------------------------------------------

  /** The HTTP exchange: a response with a status code and body, or a failure with no
      response at all (timeout, refused connection). */
  datatype Reply = HttpReply(status: nat, body: string) | NetworkFailure(message: string)

  /** How one issued request ends. */
  datatype Settlement =
    | Delivered(state: Limiter, body: string)
    | RetryAfter(delayMs: int, state: Limiter)
    | Raised(state: Limiter, status: Option<nat>, message: string)

  /** The client's `validateStatus`: which statuses resolve instead of throwing. */
  predicate ResolvesAsWritten(status: nat) {
    200 <= status < 500
  }

  /** `validateStatus` with 429 excluded, so that the rate-limit reply reaches the retry branch. */
  predicate Resolves(status: nat) {
    200 <= status < 500 && status != 429
  }

  /** A resolved request counts against the window and clears the retry counter; a
      thrown 429 with budget left is retried after `1000 * retryCount` ms (the counter
      already incremented); every other error propagates unchanged. */
  function SettleWith(l: Limiter, reply: Reply, resolves: nat -> bool): Settlement {
    match reply
    case HttpReply(status, body) =>
      if resolves(status) then Delivered(l.(requestCount := l.requestCount + 1, retryCount := 0), body)
      else OnError(l, Some(status), "Request failed with status code " + Text.NatToString(status))
    case NetworkFailure(message) => OnError(l, None, message)
  }

  function OnError(l: Limiter, status: Option<nat>, message: string): Settlement {
    if status == Some(429) && l.retryCount < MaxRetries then
      RetryAfter(1000 * (l.retryCount + 1), l.(retryCount := l.retryCount + 1))
    else Raised(l, status, message)
  }

  /** The request path as the source writes it. */
  function SettleAsWritten(l: Limiter, reply: Reply): Settlement {
    SettleWith(l, reply, ResolvesAsWritten)
  }

  /** As written, the 429 retry branch can never run: a 429 reply resolves (and counts
      as a delivered response), and nothing else carries status 429. */
  lemma AsWrittenNeverRetries(l: Limiter, reply: Reply)
    ensures !SettleAsWritten(l, reply).RetryAfter?
    ensures reply.HttpReply? && reply.status == 429 ==> SettleAsWritten(l, reply).Delivered?
  {
  }

  /** The request path with 429 routed to the retry branch, as the branch intends. */
  function Settle(l: Limiter, reply: Reply): (s: Settlement)
    ensures reply.HttpReply? && 200 <= reply.status < 500 && reply.status != 429 ==>
      s == Delivered(l.(requestCount := l.requestCount + 1, retryCount := 0), reply.body)
    ensures s.RetryAfter? <==>
      reply.HttpReply? && reply.status == 429 && l.retryCount < MaxRetries
    ensures s.RetryAfter? ==>
      s.state == l.(retryCount := l.retryCount + 1) && s.delayMs == 1000 * s.state.retryCount
    ensures s.Raised? ==> s.state == l
    ensures Valid(l) ==> Valid(s.state)
    ensures s.Delivered? ==> s.state.windowStart == l.windowStart
  {
    SettleWith(l, reply, Resolves)
  }

  // ---------------------------------------------------------------------------
  // Several calls
  // ---------------------------------------------------------------------------

  /** The limiter after one `fetchApi` call whose request succeeds (the limit permitting). */
  function AfterSuccessfulCall(l: Limiter, now: int): Limiter {
    match Admit(l, now)
    case Proceed(s) => s.(requestCount := s.requestCount + 1, retryCount := 0)
    case WaitThenProceed(_, s) => s.(requestCount := s.requestCount + 1, retryCount := 0)
    case Refuse(s, _) => s
  }

  function AfterSuccessfulCalls(l: Limiter, nows: seq<int>): Limiter
    decreases |nows|
  {
    if |nows| == 0 then l else AfterSuccessfulCalls(AfterSuccessfulCall(l, nows[0]), nows[1..])
  }

  predicate WithinWindow(start: int, nows: seq<int>) {
    forall i :: 0 <= i < |nows| ==> start <= nows[i] <= start + WindowMs
  }

  /** Inside one window, `k <= MaxRequests` successful calls each go straight out and
      leave the window start alone and exactly `k` requests counted. */
  lemma {:induction false} CallsWithinBudget(t0: int, c: nat, nows: seq<int>)
    requires c + |nows| <= MaxRequests
    requires WithinWindow(t0, nows)
    ensures AfterSuccessfulCalls(Limiter(t0, c, 0), nows) == Limiter(t0, c + |nows|, 0)
    decreases |nows|
  {
    if |nows| > 0 {
      assert Admit(Limiter(t0, c, 0), nows[0]) == Proceed(Limiter(t0, c, 0));
      assert WithinWindow(t0, nows[1..]);
      CallsWithinBudget(t0, c + 1, nows[1..]);
    }
  }

  /** After `MaxRequests` calls inside the window that opened at construction, the next
      call inside that window does not go straight out: it waits for the window to end. */
  lemma SaturatedWindowWaits(t0: int, nows: seq<int>, now: int)
    requires |nows| == MaxRequests
    requires WithinWindow(t0, nows)
    requires t0 <= now <= t0 + WindowMs
    ensures Admit(AfterSuccessfulCalls(Initial(t0), nows), now).WaitThenProceed?
    ensures Admit(AfterSuccessfulCalls(Initial(t0), nows), now).waitMs == t0 + WindowMs - now + WaitPadMs
  {
    CallsWithinBudget(t0, 0, nows);
  }

  /** Consecutive admissions of calls that never get a response through: how many of
      them wait before the first that does not. */
  function Waits(l: Limiter, nows: seq<int>): nat
    decreases |nows|
  {
    if |nows| == 0 then 0
    else match Admit(l, nows[0])
      case WaitThenProceed(_, s) => 1 + Waits(s, nows[1..])
      case _ => 0
  }

  /** Within one saturated window the limiter waits at most `MaxRetries` times in a row
      before it refuses. */
  lemma {:induction false} WaitsBounded(l: Limiter, nows: seq<int>)
    requires Valid(l)
    requires l.requestCount >= MaxRequests
    requires WithinWindow(l.windowStart, nows)
    ensures Waits(l, nows) <= MaxRetries - l.retryCount
    decreases |nows|
  {
    if |nows| > 0 {
      match Admit(l, nows[0])
      case WaitThenProceed(_, s) =>
        assert WithinWindow(s.windowStart, nows[1..]);
        WaitsBounded(s, nows[1..]);
      case _ =>
    }
  }
}

=== FILE: register_form.dfy ===
/**
  The registration page's submit handler, without its page work. The form's fields are
  checked in a fixed order and the first failing check's message is shown; only a form
  that passes every check is sent. A successful reply is shown as a dialog with the
  user id and a password.
 */
module RegisterForm {

  import opened Wrappers
  import opened Text
  import Accounts
  import AuthValidation

  /** The values of the form's inputs as typed or selected. */
  datatype Form = Form(name: string, email: string, department: string, role: string)

  /** The checks of the form, in the order they run. */
  datatype Problem = NameTooShort | BadEmail | NoDepartment | NoRole | UnknownDepartment

  function Message(p: Problem): string {
    match p
    case NameTooShort => "Name must be at least 2 characters"
    case BadEmail => "Please enter a valid email address"
    case NoDepartment => "Please select a department"
    case NoRole => "Please select a role"
    case UnknownDepartment => "Invalid department selected"
  }

  /** Shown when the server refuses: its replies carry no `message` member. */
  const RefusedText: string := "Registration failed"

  /** A form passing every check. */
  predicate Passes(f: Form) {
    && |Trim(f.name)| >= 2
    && '@' in Trim(f.email)
    && f.department != ""
    && f.role != ""
    && Accounts.ParseDepartment(f.department).Some?
  }

  /** The first failing check, if any. */
  function FirstProblem(f: Form): (r: Option<Problem>)
    ensures r.None? <==> Passes(f)
    ensures r == Some(NameTooShort) <==> |Trim(f.name)| < 2
    ensures r == Some(BadEmail) <==> |Trim(f.name)| >= 2 && '@' !in Trim(f.email)
    ensures r == Some(NoDepartment) <==> |Trim(f.name)| >= 2 && '@' in Trim(f.email) && f.department == ""
    ensures r == Some(NoRole) <==>
      |Trim(f.name)| >= 2 && '@' in Trim(f.email) && f.department != "" && f.role == ""
    ensures r == Some(UnknownDepartment) <==>
      |Trim(f.name)| >= 2 && '@' in Trim(f.email) && f.department != "" && f.role != ""
      && Accounts.ParseDepartment(f.department).None?
  {
    var name := Trim(f.name);
    var email := Trim(f.email);
    if |name| < 2 then Some(NameTooShort)
    else if '@' !in email then Some(BadEmail)
    else if f.department == "" then Some(NoDepartment)
    else if f.role == "" then Some(NoRole)
    else if Accounts.ParseDepartment(f.department).None? then Some(UnknownDepartment)
    else None
  }

  /** The JSON body the form sends: name and email trimmed, the selections as they are. */
  function Body(f: Form): AuthValidation.RegisterBody {
    AuthValidation.RegisterBody(
      AuthValidation.Text(Trim(f.name)), AuthValidation.Text(Trim(f.email)),
      AuthValidation.Text(f.department), AuthValidation.Text(f.role), [])
  }

  /** What the page shows: an error text, or the dialog with the credentials. */
  datatype Display = ErrorText(text: string) | Dialog(userId: string, password: string)

  /** The request sent, if any, and what is shown. */
  datatype Outcome = Outcome(request: Option<AuthValidation.RegisterBody>, display: Display)

  predicate Ok(reply: Accounts.Reply) {
    200 <= reply.status < 300
  }

  /** `data.userId`, `undefined` in a reply without one. */
  function ReplyUserId(reply: Accounts.Reply): string {
    if reply.body.Credentials? then reply.body.userId else "undefined"
  }

  /** `data.password`, `undefined` in a reply without one. */
  function ReplyPassword(reply: Accounts.Reply): string {
    if reply.body.Credentials? then reply.body.password else "undefined"
  }

  /** The submit handler as written: `reply` is the server's answer to the request, and
      the password shown is drawn afresh on the page from `draws`. */
  function SubmitAsWritten(f: Form, reply: Accounts.Reply, draws: seq<nat>): (o: Outcome)
    requires |draws| == Accounts.PasswordLength
    requires forall i :: 0 <= i < |draws| ==> draws[i] < |Accounts.Alphabet|
    ensures o.request.Some? <==> Passes(f)
    ensures o.request.Some? ==> o.request.value == Body(f)
    ensures !Passes(f) ==> o.display == ErrorText(Message(FirstProblem(f).value))
    ensures Passes(f) && !Ok(reply) ==> o.display == ErrorText(RefusedText)
    ensures Passes(f) && Ok(reply) ==> o.display == Dialog(ReplyUserId(reply), Accounts.Password(draws))
  {
    match FirstProblem(f)
    case Some(p) => Outcome(None, ErrorText(Message(p)))
    case None =>
      if !Ok(reply) then Outcome(Some(Body(f)), ErrorText(RefusedText))
      else Outcome(Some(Body(f)), Dialog(ReplyUserId(reply), Accounts.Password(draws)))
  }

  /** The submit handler showing the credentials the server created. */
  function Submit(f: Form, reply: Accounts.Reply): (o: Outcome)
    ensures o.request.Some? <==> Passes(f)
    ensures o.request.Some? ==> o.request.value == Body(f)
    ensures !Passes(f) ==> o.display == ErrorText(Message(FirstProblem(f).value))
    ensures Passes(f) && !Ok(reply) ==> o.display == ErrorText(RefusedText)
    ensures Passes(f) && Ok(reply) ==> o.display == Dialog(ReplyUserId(reply), ReplyPassword(reply))
  {
    match FirstProblem(f)
    case Some(p) => Outcome(None, ErrorText(Message(p)))
    case None =>
      if !Ok(reply) then Outcome(Some(Body(f)), ErrorText(RefusedText))
      else Outcome(Some(Body(f)), Dialog(ReplyUserId(reply), ReplyPassword(reply)))
  }

  /** A form that passes the page's checks is let through by the server's validator
      exactly when the name is at most 100 characters, the email is an address, and
      the role is one the server knows. */
  lemma SentFormValidated(f: Form, isEmail: string -> bool)
    requires Passes(f)
    ensures AuthValidation.RegisterValidator(Body(f), isEmail).Next? <==>
      |Trim(f.name)| <= AuthValidation.NameMax && isEmail(Trim(f.email)) && f.role in AuthValidation.Roles
  {
  }

  /** As written, the dialog's password is not the one stored: when the page's draws
      differ from the server's, the credentials shown are refused at login. */
  lemma AsWrittenShownPasswordRefused(users: seq<Accounts.User>, f: Form, isEmail: string -> bool,
                                      serverDraws: seq<nat>, pageDraws: seq<nat>)
    requires |serverDraws| == Accounts.PasswordLength && |pageDraws| == Accounts.PasswordLength
    requires forall i :: 0 <= i < |serverDraws| ==> serverDraws[i] < |Accounts.Alphabet|
    requires forall i :: 0 <= i < |pageDraws| ==> pageDraws[i] < |Accounts.Alphabet|
    requires Passes(f)
    requires AuthValidation.RegisterRoute(users, Body(f), isEmail, serverDraws).0.status == 201
    requires Accounts.Password(pageDraws) != Accounts.Password(serverDraws)
    ensures var (reply, after) := AuthValidation.RegisterRoute(users, Body(f), isEmail, serverDraws);
      var shown := SubmitAsWritten(f, reply, pageDraws).display;
      shown.Dialog? && Accounts.Login(after, shown.userId, shown.password)
        == Accounts.Reply(401, Accounts.Problem(Accounts.InvalidCredentials))
  {
    var b := Body(f);
    assert AuthValidation.GoodRegistration(b, isEmail);
    var r := AuthValidation.Fields(b);
    var result := AuthValidation.RegisterRoute(users, b, isEmail, serverDraws);
    assert result == Accounts.Register(users, r, serverDraws);
    var reply := result.0;
    assert Ok(reply) && ReplyUserId(reply) == reply.body.userId;
    assert SubmitAsWritten(f, reply, pageDraws).display == Dialog(reply.body.userId, Accounts.Password(pageDraws));
    Accounts.RegisteredUserFound(users, r, serverDraws);
    Accounts.FoundOtherPasswordRefused(result.1, reply.body.userId, Accounts.Password(pageDraws));
  }

  /** Showing the server's credentials, the dialog's user id and password sign the new
      user in. */
  lemma ShownCredentialsLogIn(users: seq<Accounts.User>, f: Form, isEmail: string -> bool, serverDraws: seq<nat>)
    requires |serverDraws| == Accounts.PasswordLength
    requires forall i :: 0 <= i < |serverDraws| ==> serverDraws[i] < |Accounts.Alphabet|
    requires Passes(f)
    requires AuthValidation.RegisterRoute(users, Body(f), isEmail, serverDraws).0.status == 201
    ensures var (reply, after) := AuthValidation.RegisterRoute(users, Body(f), isEmail, serverDraws);
      var shown := Submit(f, reply).display;
      shown.Dialog? && Accounts.Login(after, shown.userId, shown.password).status == 200
  {
    var b := Body(f);
    assert AuthValidation.GoodRegistration(b, isEmail);
    var r := AuthValidation.Fields(b);
    Accounts.RegisteredCredentialsLogIn(users, r, serverDraws);
  }

  /** Two different page draws exist, so the dialog can show a password the server did
      not store. */
  lemma DrawsCanDiffer(serverDraws: seq<nat>)
    requires |serverDraws| == Accounts.PasswordLength
    requires forall i :: 0 <= i < |serverDraws| ==> serverDraws[i] < |Accounts.Alphabet|
    ensures exists pageDraws: seq<nat> ::
      |pageDraws| == Accounts.PasswordLength && (forall i :: 0 <= i < |pageDraws| ==> pageDraws[i] < |Accounts.Alphabet|)
      && Accounts.Password(pageDraws) != Accounts.Password(serverDraws)
  {
    FirstTwoLetters();
    var other: nat := if Accounts.Alphabet[serverDraws[0]] == 'A' then 1 else 0;
    var pageDraws := [other] + serverDraws[1..];
    assert pageDraws[0] == other;
    assert forall i :: 0 <= i < |pageDraws| ==> pageDraws[i] < |Accounts.Alphabet| by {
      forall i | 0 <= i < |pageDraws| ensures pageDraws[i] < |Accounts.Alphabet| {
        if i > 0 { assert pageDraws[i] == serverDraws[i]; }
      }
    }
    PasswordStartsWith(pageDraws);
    PasswordStartsWith(serverDraws);
  }

  lemma PasswordStartsWith(draws: seq<nat>)
    requires |draws| == Accounts.PasswordLength
    requires forall i :: 0 <= i < |draws| ==> draws[i] < |Accounts.Alphabet|
    ensures Accounts.Password(draws)[0] == Accounts.Alphabet[draws[0]]
  {
  }

  lemma FirstTwoLetters()
    ensures Accounts.Alphabet[0] == 'A' && Accounts.Alphabet[1] == 'B'
  {
    assert Accounts.Capitals[0] == 'A' && Accounts.Capitals[1] == 'B';
    assert Accounts.Alphabet[0] == Accounts.Capitals[0] && Accounts.Alphabet[1] == Accounts.Capitals[1];
  }
}

=== FILE: scraper_manager.dfy ===
/**
  `ScraperManager.scrapeJobs`: the Indeed scrape and the JSearch search run side by
  side, a failing adapter contributes no listings, the Indeed listings come first,
  a short result is flagged, and the combined listings are analysed.

  A JSearch scraper constructed without a usable key is the placeholder object, which
  has no `search` method: calling it throws while the two calls are being set up, so
  the whole call rejects with a `TypeError` instead of falling back to an empty list.
 */
module ScraperManager {

  import opened Wrappers
  import Text
  import opened Listings
  import JSearch
  import Indeed
  import Analysis

  /** Fewer listings than this draw a warning. */
  const FewJobs: nat := 5
  const MissingSearch: string := "TypeError: this.scrapers.jsearch.search is not a function"

  /** What one call sees of the outside world: the two adapters' inputs, each with the
      clock its listings are stamped from. */
  datatype Sources = Sources(
    jsearch: JSearch.Handle,
    encode: string -> string,
    fetch: string -> Indeed.PageFetch,
    indeedClock: Clock,
    respond: JSearch.Request -> Result<JSearch.Body>,
    jsearchClock: Clock)

  /** The analysed listings and whether the short-result warning was logged. */
  datatype Outcome = Outcome(results: Analysis.Results, warned: bool)

  /** The listings a call collects: the Indeed part, then the JSearch part. */
  function Collected(apiKey: string, query: string, location: string, pages: int, src: Sources): seq<Job> {
    IndeedJobs(query, location, pages, src) + JSearchJobs(apiKey, query, location, pages, src)
  }

  /** The Indeed part: its listings, or none when its scrape rejects. */
  function IndeedJobs(query: string, location: string, pages: int, src: Sources): seq<Job> {
    match Indeed.Scrape(query, location, pages, src.encode, src.fetch, src.indeedClock)
    case Ok(js) => js
    case Err(_) => []
  }

  /** The JSearch part of a configured scraper. */
  function JSearchJobs(apiKey: string, query: string, location: string, pages: int, src: Sources): seq<Job> {
    JSearch.Search(apiKey, query, location, pages, src.respond, src.jsearchClock)
  }

  /** `scrapeJobs(query, location, pages)`. */
  function ScrapeJobs(query: string, location: string, pages: int, src: Sources)
    : (r: Result<Outcome>)
    ensures r.Err? <==> src.jsearch.Placeholder?
    ensures r.Err? ==> r.error == MissingSearch
    ensures r.Ok? ==> (r.value.warned <==> r.value.results.analysis.totalJobs < FewJobs)
    ensures r.Ok? ==> (r.value.results.analysis.totalJobs ==
      |IndeedJobs(query, location, pages, src)|
        + |JSearchJobs(src.jsearch.apiKey, query, location, pages, src)|)
    ensures r.Ok? ==> r.value.results == Analysis.AnalyzeResults(Collected(src.jsearch.apiKey, query, location, pages, src))
  {
    match src.jsearch
    case Placeholder => Err(MissingSearch)
    case Configured(key) =>
      var jobs := Collected(key, query, location, pages, src);
      Ok(Outcome(Analysis.AnalyzeResults(jobs), |jobs| < FewJobs))
  }

  /** A failing Indeed scrape leaves exactly the JSearch listings; one that loads
      every page contributes all of its listings in front of them. */
  lemma IndeedFailureIsolated(query: string, location: string, pages: int, src: Sources)
    requires src.jsearch.Configured?
    ensures var jobs := ScrapeJobs(query, location, pages, src).value.results.jobs;
      var searched := JSearchJobs(src.jsearch.apiKey, query, location, pages, src);
      var indeed := Indeed.Scrape(query, location, pages, src.encode, src.fetch, src.indeedClock);
      && (!Indeed.AllLoad(query, location, pages, src.encode, src.fetch) ==> jobs == searched)
      && (Indeed.AllLoad(query, location, pages, src.encode, src.fetch) ==> indeed.Ok? && jobs == indeed.value + searched)
  {
    Indeed.ScrapeSucceedsIffAllLoad(query, location, pages, src.encode, src.fetch, src.indeedClock);
    assert ScrapeJobs(query, location, pages, src).value.results.jobs
      == Collected(src.jsearch.apiKey, query, location, pages, src);
  }

  /** Every listing of a call comes from one of the two adapters, carries a title and a
      description, and is stamped with a reading of that adapter's clock taken while one
      of its pages was read. */
  lemma ListingsFromAdapters(query: string, location: string, pages: int, src: Sources)
    requires src.jsearch.Configured?
    ensures forall j :: j in ScrapeJobs(query, location, pages, src).value.results.jobs ==>
      && j.title != "" && j.description != ""
      && (j.source == Indeed.Name ==> Indeed.ScrapeStamped(j, src.indeedClock, pages))
      && (j.source == JSearch.Name ==> JSearch.SearchStamped(j, src.jsearchClock, pages))
      && (j.source == Indeed.Name || j.source == JSearch.Name)
  {
    var ij := IndeedJobs(query, location, pages, src);
    var sj := JSearchJobs(src.jsearch.apiKey, query, location, pages, src);
    Indeed.ScrapeSucceedsIffAllLoad(query, location, pages, src.encode, src.fetch, src.indeedClock);
    JSearch.SearchResultsKeptAndStamped(src.jsearch.apiKey, query, location, pages, src.respond, src.jsearchClock);
    assert ScrapeJobs(query, location, pages, src).value.results.jobs
      == Collected(src.jsearch.apiKey, query, location, pages, src);
    forall j: Job | j in ij + sj
      ensures j.title != "" && j.description != ""
      ensures j.source == Indeed.Name ==> Indeed.ScrapeStamped(j, src.indeedClock, pages)
      ensures j.source == JSearch.Name ==> JSearch.SearchStamped(j, src.jsearchClock, pages)
      ensures j.source == Indeed.Name || j.source == JSearch.Name
    {
      if j in ij {
        assert Indeed.Listed(j) && Indeed.ScrapeStamped(j, src.indeedClock, pages);
      } else {
        assert JSearch.Kept(j) && JSearch.SearchStamped(j, src.jsearchClock, pages);
      }
    }
  }

  /** A JSearch listing with a minimum salary is counted in the bucket of that minimum:
      the `min-max currency` text the adapter builds reads back as its minimum. Without a
      maximum the currency must carry no digit, or a digit in it could start the range. */
  lemma JSearchSalaryBucket(j: JSearch.ApiJob, location: string, timestamp: string)
    requires JSearch.TruthyNat(j.minSalary)
    requires JSearch.TruthyNat(j.maxSalary) || !Analysis.HasDigit(JSearch.Or(j.currency, ""))
    ensures Analysis.SalaryBucket(JSearch.Normalize(j, location, timestamp).salary)
      == Some(j.minSalary.value / Analysis.BucketWidth * Analysis.BucketWidth)
  {
    JSearch.NormalizedSalary(j, location, timestamp);
    if JSearch.TruthyNat(j.maxSalary) {
      ClosedSalaryBucket(j.minSalary.value, j.maxSalary.value, JSearch.Or(j.currency, ""));
    } else {
      OpenSalaryBucket(j.minSalary.value, JSearch.Or(j.currency, ""));
    }
  }

  lemma NumberHasNoSpace(n: nat)
    ensures forall i :: 0 <= i < |Text.NatToString(n)| ==> !Text.IsSpace(Text.NatToString(n)[i])
  {
    var N := Text.NatToString(n);
    forall i | 0 <= i < |N| ensures !Text.IsSpace(N[i]) {
      assert Text.IsDigit(N[i]);
    }
  }

  /** `min-max currency`, trimmed, falls in the bucket of `min`. */
  lemma ClosedSalaryBucket(a: nat, b: nat, currency: string)
    ensures Analysis.SalaryBucket(Text.Trim(Text.NatToString(a) + "-" + Text.NatToString(b) + " " + currency))
      == Some(a / Analysis.BucketWidth * Analysis.BucketWidth)
  {
    var A := Text.NatToString(a);
    var B := Text.NatToString(b);
    var head := A + "-" + B;
    var tail := " " + currency;
    assert A + "-" + B + " " + currency == head + tail;
    NumberHasNoSpace(a);
    NumberHasNoSpace(b);
    DashedHasNoSpace(A, B);
    Text.TrimAfterWord(head, tail);
    var rest := tail[..|Text.Trim(head + tail)| - |head|];
    assert Text.Trim(head + tail) == A + "-" + B + rest;
    Analysis.RangeSalaryBucket(a, b, rest);
  }

  lemma DashedHasNoSpace(A: string, B: string)
    requires forall i :: 0 <= i < |A| ==> !Text.IsSpace(A[i])
    requires forall i :: 0 <= i < |B| ==> !Text.IsSpace(B[i])
    ensures forall i :: 0 <= i < |A + "-" + B| ==> !Text.IsSpace((A + "-" + B)[i])
  {
    var head := A + "-" + B;
    forall i | 0 <= i < |head| ensures !Text.IsSpace(head[i]) {
      if i < |A| {
        assert head[i] == A[i];
      } else if i > |A| {
        assert head[i] == B[i - |A| - 1];
      }
    }
  }

  /** `min- currency`, trimmed, falls in the bucket of `min` when the currency has no digit. */
  lemma OpenSalaryBucket(a: nat, currency: string)
    requires !Analysis.HasDigit(currency)
    ensures Analysis.SalaryBucket(Text.Trim(Text.NatToString(a) + "-" + "" + " " + currency))
      == Some(a / Analysis.BucketWidth * Analysis.BucketWidth)
  {
    var A := Text.NatToString(a);
    var head := A + "-";
    var tail := " " + currency;
    assert A + "-" + "" + " " + currency == head + tail;
    NumberHasNoSpace(a);
    forall i | 0 <= i < |head| ensures !Text.IsSpace(head[i]) {
      if i < |A| {
        assert head[i] == A[i];
      }
    }
    Text.TrimAfterWord(head, tail);
    var rest := tail[..|Text.Trim(head + tail)| - |head|];
    assert Text.Trim(head + tail) == A + "-" + rest;
    forall k | 0 <= k < |rest| ensures !Text.IsDigit(rest[k]) {
      assert rest[k] == tail[k];
      if k > 0 {
        assert tail[k] == currency[k - 1];
      }
    }
    Analysis.OpenRangeSalaryBucket(a, rest);
  }
}

=== FILE: text.dfy ===
/**
  String operations of JavaScript that the system relies on, over `seq<char>`:
  `trim`, ASCII `toLowerCase`, `includes`, `startsWith`/`endsWith`, `split` with a
  string separator, `join`, the `/\s+/` word split, decimal printing of numbers,
  `parseInt` of a digit prefix and `padStart`.
 */
module Text {

  import opened Wrappers

  // ---------------------------------------------------------------------------
  // White space and trimming
  // ---------------------------------------------------------------------------

  /** The characters `String.prototype.trim` and the regular-expression class `\s`
      treat as white space: the ECMAScript WhiteSpace and LineTerminator productions. */
  predicate IsSpace(c: char) {
    || c == '\t' || c == '\n' || c == '\U{000B}' || c == '\U{000C}' || c == '\r'
    || c == ' ' || c == '\U{00A0}' || c == '\U{1680}'
    || ('\U{2000}' <= c <= '\U{200A}')
    || c == '\U{2028}' || c == '\U{2029}' || c == '\U{202F}' || c == '\U{205F}'
    || c == '\U{3000}' || c == '\U{FEFF}'
  }

  predicate AllSpace(s: string) {
    forall i :: 0 <= i < |s| ==> IsSpace(s[i])
  }

  /** Neither end of `s` is white space. */
  predicate IsTrimmed(s: string) {
    s == [] || (!IsSpace(s[0]) && !IsSpace(s[|s| - 1]))
  }

  function TrimStart(s: string): (r: string)
    ensures |r| <= |s| && r == s[|s| - |r|..]
    ensures r == [] || !IsSpace(r[0])
    ensures AllSpace(s[..|s| - |r|])
  {
    if |s| > 0 && IsSpace(s[0]) then
      var r := TrimStart(s[1..]);
      assert s[..|s| - |r|] == [s[0]] + s[1..][..|s| - 1 - |r|];
      r
    else s
  }

  function TrimEnd(s: string): (r: string)
    ensures |r| <= |s| && r == s[..|r|]
    ensures r == [] || !IsSpace(r[|r| - 1])
    ensures AllSpace(s[|r|..])
  {
    if |s| > 0 && IsSpace(s[|s| - 1]) then
      var t := s[..|s| - 1];
      var r := TrimEnd(t);
      assert s[..|r|] == t[..|r|];
      assert s[|r|..] == t[|r|..] + [s[|s| - 1]];
      r
    else s
  }

  /** `String.prototype.trim`: the input with the white space at both ends cut off.
      The result has no white space at either end, is empty exactly when the input is
      blank, and leaves an already trimmed string alone. */
  function Trim(s: string): (r: string)
    ensures IsTrimmed(r)
    ensures exists i, j :: 0 <= i <= j <= |s| && r == s[i..j] && AllSpace(s[..i]) && AllSpace(s[j..])
    ensures |r| <= |s|
    ensures r == [] <==> AllSpace(s)
    ensures IsTrimmed(s) ==> r == s
  {
    var a := TrimStart(s);
    var r := TrimEnd(a);
    assert exists i, j :: 0 <= i <= j <= |s| && r == s[i..j] && AllSpace(s[..i]) && AllSpace(s[j..]) by {
      var i, j := TrimBothEnds(s);
    }
    assert r == [] ==> AllSpace(s) by {
      if r == [] {
        assert s == s[..|s| - |a|] + a;
        assert AllSpace(a[|r|..]);
      }
    }
    assert IsTrimmed(r) by {
      if r != [] {
        assert r[0] == a[0];
      }
    }
    r
  }

  /** Trimming both ends keeps a slice `s[i..j]` with only white space around it. */
  lemma TrimBothEnds(s: string) returns (i: nat, j: nat)
    ensures i <= j <= |s| && TrimEnd(TrimStart(s)) == s[i..j] && AllSpace(s[..i]) && AllSpace(s[j..])
  {
    var a := TrimStart(s);
    i := |s| - |a|;
    SliceEnds(s, i, a);
    j := i + |TrimEnd(a)|;
  }

  /** Cutting white space off the end of the suffix `s[i..]` leaves `s[i..j]`. */
  lemma SliceEnds(s: string, i: nat, a: string)
    requires i <= |s| && a == s[i..]
    ensures var j := i + |TrimEnd(a)|; j <= |s| && TrimEnd(a) == s[i..j] && AllSpace(s[j..])
  {
    var r := TrimEnd(a);
    var j := i + |r|;
    assert s[j..] == a[|r|..];
  }

  lemma TrimIdempotent(s: string)
    ensures Trim(Trim(s)) == Trim(s)
  {
  }

  /** Trimming the end never removes a character that is not white space. */
  lemma {:induction false} TrimEndKeeps(s: string, n: nat)
    requires 0 < n <= |s| && !IsSpace(s[n - 1])
    ensures |TrimEnd(s)| >= n
    decreases |s|
  {
    if IsSpace(s[|s| - 1]) {
      var init := s[..|s| - 1];
      assert init[n - 1] == s[n - 1];
      TrimEndKeeps(init, n);
    }
  }

  /** Trimming keeps a leading run of characters that are not white space. */
  lemma TrimKeepsLeadingWord(s: string, n: nat)
    requires n <= |s|
    requires forall i :: 0 <= i < n ==> !IsSpace(s[i])
    ensures |Trim(s)| >= n && Trim(s)[..n] == s[..n]
    ensures n > 0 ==> Trim(s) == s[..|Trim(s)|]
  {
    if n > 0 {
      assert TrimStart(s) == s;
      var r := TrimEnd(s);
      assert Trim(s) == r;
      TrimEndKeeps(s, n);
      assert r[..n] == s[..n];
    }
  }

  // ---------------------------------------------------------------------------
  // Case
  // ---------------------------------------------------------------------------

  /** ASCII lower-casing of one character. */
  function Lower(c: char): char {
    if 'A' <= c <= 'Z' then (c as int + 32) as char else c
  }

  /** `String.prototype.toLowerCase` restricted to ASCII letters. */
  function ToLower(s: string): (r: string)
    ensures |r| == |s|
    ensures forall i :: 0 <= i < |s| ==> r[i] == Lower(s[i])
  {
    seq(|s|, i requires 0 <= i < |s| => Lower(s[i]))
  }

  predicate IsLower(s: string) {
    forall i :: 0 <= i < |s| ==> !('A' <= s[i] <= 'Z')
  }

  lemma ToLowerIsLower(s: string)
    ensures IsLower(ToLower(s))
    ensures ToLower(ToLower(s)) == ToLower(s)
  {
  }

  lemma ToLowerOfLower(s: string)
    requires IsLower(s)
    ensures ToLower(s) == s
  {
  }

  lemma ToLowerAppend(a: string, b: string)
    ensures ToLower(a + b) == ToLower(a) + ToLower(b)
  {
  }

  lemma ToLowerSlice(s: string, i: int, j: int)
    requires 0 <= i <= j <= |s|
    ensures ToLower(s)[i..j] == ToLower(s[i..j])
  {
  }

  // ---------------------------------------------------------------------------
  // Substrings
  // ---------------------------------------------------------------------------

  /** `t` occurs in `s` starting at index `i`. */
  predicate OccursAt(s: string, t: string, i: int) {
    0 <= i && i + |t| <= |s| && s[i..i + |t|] == t
  }

  /** `String.prototype.includes`. */
  predicate Contains(s: string, t: string) {
    exists i :: 0 <= i <= |s| - |t| && OccursAt(s, t, i)
  }

  predicate StartsWith(s: string, p: string) {
    |p| <= |s| && s[..|p|] == p
  }

  predicate EndsWith(s: string, p: string) {
    |p| <= |s| && s[|s| - |p|..] == p
  }

  /** Every string occurs in any string it is a piece of. */
  lemma ContainsInfix(a: string, t: string, b: string)
    ensures Contains(a + t + b, t)
  {
    assert OccursAt(a + t + b, t, |a|) by {
      assert (a + t + b)[|a|..|a| + |t|] == t;
    }
  }

  /** An occurrence inside a piece of a string is an occurrence in the whole string. */
  lemma ContainsWithin(s: string, i: int, j: int, t: string)
    requires 0 <= i <= j <= |s|
    requires Contains(s[i..j], t)
    ensures Contains(s, t)
  {
    var k :| 0 <= k <= (j - i) - |t| && OccursAt(s[i..j], t, k);
    assert k + |t| <= j - i;
    forall m | 0 <= m < |t|
      ensures s[i + k + m] == t[m]
    {
      assert t[m] == s[i..j][k + m];
    }
    assert s[i + k..i + k + |t|] == t;
    assert OccursAt(s, t, i + k);
  }

  lemma ContainsEmpty(s: string)
    ensures Contains(s, "")
  {
    assert OccursAt(s, "", 0);
  }

  lemma ContainsSelf(s: string)
    ensures Contains(s, s)
  {
    assert OccursAt(s, s, 0);
  }

  // ---------------------------------------------------------------------------
  // Split and join
  // ---------------------------------------------------------------------------

  /** `parts.join(sep)`. */
  function Join(parts: seq<string>, sep: string): string {
    if |parts| == 0 then ""
    else if |parts| == 1 then parts[0]
    else parts[0] + sep + Join(parts[1..], sep)
  }

  /** `s.split(sep)` for a non-empty separator string: the pieces between the
      leftmost non-overlapping occurrences of `sep`. */
  function SplitOn(s: string, sep: string): (parts: seq<string>)
    requires |sep| > 0
    ensures |parts| >= 1
    decreases |s|
  {
    if |s| < |sep| then [s]
    else if s[..|sep|] == sep then [""] + SplitOn(s[|sep|..], sep)
    else
      var rest := SplitOn(s[1..], sep);
      [[s[0]] + rest[0]] + rest[1..]
  }

  /** Splitting and re-joining with the same separator gives the input back. */
  lemma {:induction false} JoinSplitOn(s: string, sep: string)
    requires |sep| > 0
    ensures Join(SplitOn(s, sep), sep) == s
    decreases |s|
  {
    if |s| < |sep| {
    } else if s[..|sep|] == sep {
      var rest := SplitOn(s[|sep|..], sep);
      JoinSplitOn(s[|sep|..], sep);
      assert SplitOn(s, sep) == [""] + rest;
      assert ([""] + rest)[1..] == rest;
      assert s == sep + s[|sep|..];
    } else {
      var rest := SplitOn(s[1..], sep);
      JoinSplitOn(s[1..], sep);
      assert SplitOn(s, sep) == [[s[0]] + rest[0]] + rest[1..];
      JoinPrepend(s[0], rest, sep);
      assert s == [s[0]] + s[1..];
    }
  }

  /** Each line followed by a newline. */
  function Unlines(lines: seq<string>): string {
    if |lines| == 0 then "" else lines[0] + "\n" + Unlines(lines[1..])
  }

  /** Lines without newlines are read back by splitting on the newline; the text after
      the last newline is the empty piece. */
  lemma {:induction false} SplitUnlines(lines: seq<string>)
    requires forall k :: 0 <= k < |lines| ==> '\n' !in lines[k]
    ensures SplitOn(Unlines(lines), "\n") == lines + [""]
  {
    if |lines| == 0 {
      assert SplitOn("", "\n") == [""];
    } else {
      SplitUnlines(lines[1..]);
      SplitOnCharAfterPrefix(lines[0], '\n', Unlines(lines[1..]));
      assert "\n" == ['\n'];
      assert lines == [lines[0]] + lines[1..];
    }
  }

  /** Putting a character in front of the first piece puts it in front of the join. */
  lemma JoinPrepend(c: char, parts: seq<string>, sep: string)
    requires |parts| >= 1
    ensures Join([[c] + parts[0]] + parts[1..], sep) == [c] + Join(parts, sep)
  {
    var q := [[c] + parts[0]] + parts[1..];
    assert q[0] == [c] + parts[0];
    assert q[1..] == parts[1..];
  }

  /** Splitting `a + [c] + b` on the one-character separator `c`, when `a` holds no
      `c`, yields `a` followed by the pieces of `b`. */
  lemma {:induction false} SplitOnCharAfterPrefix(a: string, c: char, b: string)
    requires c !in a
    ensures SplitOn(a + [c] + b, [c]) == [a] + SplitOn(b, [c])
    decreases |a|
  {
    var s := a + [c] + b;
    if |a| == 0 {
      assert s[..1] == [c];
      assert s[1..] == b;
    } else {
      assert s[..1] != [c] by { assert s[0] == a[0]; }
      assert s[1..] == a[1..] + [c] + b;
      SplitOnCharAfterPrefix(a[1..], c, b);
      assert [s[0]] + a[1..] == a;
    }
  }

  /** A string without the separator character is a single piece. */
  lemma {:induction false} SplitOnCharAbsent(b: string, c: char)
    requires c !in b
    ensures SplitOn(b, [c]) == [b]
    decreases |b|
  {
    if |b| >= 1 {
      assert b[..1] != [c] by { assert b[0] != c; }
      SplitOnCharAbsent(b[1..], c);
      assert [b[0]] + b[1..] == b;
    }
  }

  /** A non-empty text without the character `c` occurs in `a + [c] + b` exactly when
      it occurs in `a` or in `b`: no occurrence can straddle the separator. */
  lemma ContainsAroundChar(a: string, c: char, b: string, t: string)
    requires |t| > 0 && c !in t
    ensures Contains(a + [c] + b, t) <==> Contains(a, t) || Contains(b, t)
  {
    var s := a + [c] + b;
    assert s[..|a|] == a;
    assert s[|a| + 1..|s|] == b;
    if Contains(a, t) {
      ContainsWithin(s, 0, |a|, t);
    }
    if Contains(b, t) {
      ContainsWithin(s, |a| + 1, |s|, t);
    }
    if Contains(s, t) {
      var i :| 0 <= i <= |s| - |t| && OccursAt(s, t, i);
      assert forall m :: 0 <= m < |t| ==> s[i + m] == t[m];
      assert s[|a|] == c;
      assert i + |t| <= |a| || i > |a|;
      if i + |t| <= |a| {
        assert a[i..i + |t|] == s[i..i + |t|];
        assert OccursAt(a, t, i);
      } else if i > |a| {
        assert b[i - |a| - 1..i - |a| - 1 + |t|] == s[i..i + |t|];
        assert OccursAt(b, t, i - |a| - 1);
      }
    }
  }

  /** A non-empty text without the separator character occurs in the joined parts
      exactly when it occurs in one of them. */
  lemma {:induction false} ContainsJoin(parts: seq<string>, c: char, t: string)
    requires |t| > 0 && c !in t
    ensures Contains(Join(parts, [c]), t) <==> exists k :: 0 <= k < |parts| && Contains(parts[k], t)
  {
    if |parts| == 0 {
      assert !OccursAt("", t, 0);
    } else if |parts| > 1 {
      ContainsJoin(parts[1..], c, t);
      ContainsAroundChar(parts[0], c, Join(parts[1..], [c]), t);
      assert forall k :: 1 <= k < |parts| ==> parts[k] == parts[1..][k - 1];
    }
  }

  /** The parts, each lower-cased. */
  function LowerAll(parts: seq<string>): (r: seq<string>)
    ensures |r| == |parts| && forall k :: 0 <= k < |parts| ==> r[k] == ToLower(parts[k])
  {
    seq(|parts|, k requires 0 <= k < |parts| => ToLower(parts[k]))
  }

  /** Lower-casing a join with a separator that has no upper-case letter lower-cases
      every part. */
  lemma {:induction false} ToLowerJoin(parts: seq<string>, sep: string)
    requires IsLower(sep)
    ensures ToLower(Join(parts, sep)) == Join(LowerAll(parts), sep)
  {
    if |parts| > 1 {
      ToLowerJoin(parts[1..], sep);
      ToLowerAppend(parts[0] + sep, Join(parts[1..], sep));
      ToLowerAppend(parts[0], sep);
      ToLowerOfLower(sep);
      assert LowerAll(parts)[1..] == LowerAll(parts[1..]);
    }
  }

  /** No occurrence of `sep` starts in `s` before index `n`. */
  predicate NoSeparatorBefore(s: string, sep: string, n: int) {
    forall i :: 0 <= i < n && i <= |s| ==> !StartsWith(s[i..], sep)
  }

  /** Splitting `a + sep + b`, when no separator starts inside `a`, yields `a` followed
      by the pieces of `b`. */
  lemma {:induction false} SplitOnFirst(a: string, sep: string, b: string)
    requires |sep| > 0
    requires NoSeparatorBefore(a + sep + b, sep, |a|)
    ensures SplitOn(a + sep + b, sep) == [a] + SplitOn(b, sep)
    decreases |a|
  {
    var s := a + sep + b;
    if |a| == 0 {
      assert s[..|sep|] == sep;
      assert s[|sep|..] == b;
    } else {
      assert s[0..] == s;
      assert s[1..] == a[1..] + sep + b;
      forall i | 0 <= i < |a| - 1 && i <= |s[1..]|
        ensures !StartsWith(s[1..][i..], sep)
      {
        assert s[1..][i..] == s[i + 1..];
      }
      SplitOnFirst(a[1..], sep, b);
      assert [s[0]] + a[1..] == a;
    }
  }

  /** A string in which no separator starts is a single piece. */
  lemma {:induction false} SplitOnNone(b: string, sep: string)
    requires |sep| > 0
    requires NoSeparatorBefore(b, sep, |b|)
    ensures SplitOn(b, sep) == [b]
    decreases |b|
  {
    if |b| >= |sep| {
      assert b[0..] == b;
      forall i | 0 <= i < |b| - 1 && i <= |b[1..]|
        ensures !StartsWith(b[1..][i..], sep)
      {
        assert b[1..][i..] == b[i + 1..];
      }
      SplitOnNone(b[1..], sep);
      assert [b[0]] + b[1..] == b;
    }
  }

  // ---------------------------------------------------------------------------
  // Words: `s.split(/\s+/).filter(w => w.length > 0)`
  // ---------------------------------------------------------------------------

  /** Number of leading characters of `s` that are not white space. */
  function WordLength(s: string): (n: nat)
    ensures n <= |s|
    ensures forall i :: 0 <= i < n ==> !IsSpace(s[i])
    ensures n < |s| ==> IsSpace(s[n])
  {
    if |s| == 0 || IsSpace(s[0]) then 0 else 1 + WordLength(s[1..])
  }

  /** The maximal runs of non-white-space characters of `s`, in order. */
  function Words(s: string): (ws: seq<string>)
    ensures forall k :: 0 <= k < |ws| ==> |ws[k]| > 0 && forall i :: 0 <= i < |ws[k]| ==> !IsSpace(ws[k][i])
    decreases |s|
  {
    if |s| == 0 then []
    else if IsSpace(s[0]) then Words(s[1..])
    else
      var n := WordLength(s);
      [s[..n]] + Words(s[n..])
  }

  /** A text has no words exactly when it is blank. */
  lemma {:induction false} WordsOfBlank(s: string)
    ensures Words(s) == [] <==> AllSpace(s)
    decreases |s|
  {
    if |s| > 0 {
      if IsSpace(s[0]) {
        WordsOfBlank(s[1..]);
        assert forall i :: 1 <= i < |s| ==> s[i] == s[1..][i - 1];
      }
    }
  }

  /** Lower-casing keeps white space and everything else apart. */
  lemma LowerKeepsSpace(s: string)
    ensures AllSpace(ToLower(s)) <==> AllSpace(s)
    ensures forall i :: 0 <= i < |s| ==> (IsSpace(ToLower(s)[i]) <==> IsSpace(s[i]))
  {
  }

  /** A character that is in neither the parts nor the separator is not in their join. */
  lemma {:induction false} JoinAvoids(parts: seq<string>, sep: string, c: char)
    requires c !in sep
    requires forall k :: 0 <= k < |parts| ==> c !in parts[k]
    ensures c !in Join(parts, sep)
  {
    if |parts| > 1 {
      JoinAvoids(parts[1..], sep, c);
    }
  }

  /** The characters of `s` that are not white space, in order. */
  function NonSpace(s: string): string {
    if |s| == 0 then ""
    else if IsSpace(s[0]) then NonSpace(s[1..])
    else [s[0]] + NonSpace(s[1..])
  }

  function Concat(ws: seq<string>): string {
    if |ws| == 0 then "" else ws[0] + Concat(ws[1..])
  }

  lemma {:induction false} NonSpaceOfWord(s: string, n: nat)
    requires n <= |s|
    requires forall i :: 0 <= i < n ==> !IsSpace(s[i])
    ensures NonSpace(s) == s[..n] + NonSpace(s[n..])
    decreases n
  {
    if n > 0 {
      NonSpaceOfWord(s[1..], n - 1);
      assert s[1..][n - 1..] == s[n..];
      assert s[..n] == [s[0]] + s[1..][..n - 1];
    }
  }

  /** The words of `s`, glued together, are exactly its non-white-space characters:
      the split drops white space and nothing else. */
  lemma {:induction false} WordsCoverNonSpace(s: string)
    ensures Concat(Words(s)) == NonSpace(s)
    decreases |s|
  {
    if |s| == 0 {
    } else if IsSpace(s[0]) {
      WordsCoverNonSpace(s[1..]);
    } else {
      var n := WordLength(s);
      WordsCoverNonSpace(s[n..]);
      NonSpaceOfWord(s, n);
      assert Words(s) == [s[..n]] + Words(s[n..]);
      assert ([s[..n]] + Words(s[n..]))[1..] == Words(s[n..]);
    }
  }

  // ---------------------------------------------------------------------------
  // Decimal numbers
  // ---------------------------------------------------------------------------

  predicate IsDigit(c: char) {
    '0' <= c <= '9'
  }

  predicate AllDigits(s: string) {
    forall i :: 0 <= i < |s| ==> IsDigit(s[i])
  }

  function DigitChar(d: nat): (c: char)
    requires d < 10
    ensures IsDigit(c)
  {
    ('0' as int + d) as char
  }

  function DigitValue(c: char): nat
    requires IsDigit(c)
  {
    c as int - '0' as int
  }

  /** The number a string of decimal digits denotes. */
  function DigitsValue(s: string): nat
    requires AllDigits(s)
  {
    if |s| == 0 then 0 else 10 * DigitsValue(s[..|s| - 1]) + DigitValue(s[|s| - 1])
  }

  /** `String(n)` for a natural number: its canonical decimal form, without leading zeros. */
  function NatToString(n: nat): (r: string)
    ensures |r| > 0 && AllDigits(r)
    ensures r[0] == '0' ==> n == 0
  {
    if n < 10 then [DigitChar(n)] else NatToString(n / 10) + [DigitChar(n % 10)]
  }

  /** Printing a number and reading it back gives the number. */
  lemma {:induction false} NatToStringValue(n: nat)
    ensures DigitsValue(NatToString(n)) == n
  {
    if n >= 10 {
      NatToStringValue(n / 10);
      var r := NatToString(n);
      assert r[..|r| - 1] == NatToString(n / 10);
    }
  }

  lemma NatToStringInjective(m: nat, n: nat)
    requires NatToString(m) == NatToString(n)
    ensures m == n
  {
    NatToStringValue(m);
    NatToStringValue(n);
  }

  /** The longest prefix of `s` made of decimal digits. */
  function LeadingDigits(s: string): (r: string)
    ensures AllDigits(r) && |r| <= |s| && r == s[..|r|]
    ensures |r| < |s| ==> !IsDigit(s[|r|])
  {
    if |s| == 0 || !IsDigit(s[0]) then "" else [s[0]] + LeadingDigits(s[1..])
  }

  lemma {:induction false} LeadingDigitsOfDigits(s: string)
    requires AllDigits(s)
    ensures LeadingDigits(s) == s
  {
    if |s| > 0 {
      LeadingDigitsOfDigits(s[1..]);
      assert [s[0]] + s[1..] == s;
    }
  }

  /** Trimming a text that starts with a word keeps that word in front. */
  lemma TrimAfterWord(head: string, tail: string)
    requires |head| > 0 && forall i :: 0 <= i < |head| ==> !IsSpace(head[i])
    ensures |head| <= |Trim(head + tail)| <= |head + tail|
    ensures Trim(head + tail) == head + tail[..|Trim(head + tail)| - |head|]
  {
    var s := head + tail;
    assert forall i :: 0 <= i < |head| ==> s[i] == head[i];
    TrimKeepsLeadingWord(s, |head|);
    PrefixOfConcat(head, tail, |Trim(s)|);
  }

  lemma PrefixOfConcat<T>(a: seq<T>, b: seq<T>, n: nat)
    requires |a| <= n <= |a| + |b|
    ensures (a + b)[..n] == a + b[..n - |a|]
  {
  }

  /** The leading digits of a digit string followed by a non-digit are that string. */
  lemma LeadingDigitsPrefix(d: string, rest: string)
    requires AllDigits(d)
    requires rest == [] || !IsDigit(rest[0])
    ensures LeadingDigits(d + rest) == d
  {
    assert (d + rest)[..|d|] == d;
  }

  /** `parseInt(s, 10)` for a string that starts with its digits (no sign, no leading
      white space); `None` stands for `NaN`. */
  function ParseLeadingNat(s: string): (r: Option<nat>)
    ensures r.None? <==> (|s| == 0 || !IsDigit(s[0]))
  {
    var d := LeadingDigits(s);
    if |d| == 0 then None else Some(DigitsValue(d))
  }

  function Repeat(c: char, n: nat): (r: string)
    ensures |r| == n && forall i :: 0 <= i < n ==> r[i] == c
  {
    if n == 0 then "" else [c] + Repeat(c, n - 1)
  }

  /** `s.padStart(width, c)`: left-pads with `c` up to `width` characters and never truncates. */
  function PadStart(s: string, width: nat, c: char): (r: string)
    ensures |r| == if |s| >= width then |s| else width
    ensures EndsWith(r, s)
    ensures forall i :: 0 <= i < |r| - |s| ==> r[i] == c
  {
    if |s| >= width then s else Repeat(c, width - |s|) + s
  }

  /** Leading zeros do not change the value of a digit string. */
  lemma {:induction false} DigitsValueLeadingZeros(k: nat, s: string)
    requires AllDigits(s)
    ensures AllDigits(Repeat('0', k) + s)
    ensures DigitsValue(Repeat('0', k) + s) == DigitsValue(s)
    decreases |s|
  {
    var z := Repeat('0', k);
    if |s| == 0 {
      assert z + s == z;
      ZerosValue(k);
    } else {
      var t := z + s;
      assert t[..|t| - 1] == z + s[..|s| - 1];
      DigitsValueLeadingZeros(k, s[..|s| - 1]);
    }
  }

  lemma {:induction false} ZerosValue(k: nat)
    ensures AllDigits(Repeat('0', k))
    ensures DigitsValue(Repeat('0', k)) == 0
  {
    if k > 0 {
      var z := Repeat('0', k);
      assert z[..k - 1] == Repeat('0', k - 1);
      ZerosValue(k - 1);
    }
  }
}

=== FILE: wrappers.dfy ===
/** Failure-carrying result types shared by every module of the model. */
module Wrappers {

  /** A value that may be absent: JavaScript's `undefined`/`null` or a missing entry. */
  datatype Option<+T> = None | Some(value: T) {

    function GetOr(default: T): T {
      match this
      case Some(v) => v
      case None => default
    }
  }

  /** The outcome of a call that either returns a value or throws an error carrying a message. */
  datatype Result<+R> = Ok(value: R) | Err(error: string) {

    function GetOr(default: R): R {
      match this
      case Ok(v) => v
      case Err(_) => default
    }
  }
}
